=== FILE: README.md ===
# Matrix-free elliptic solver problems and affine mesh movement

This project models three pieces of the DFT-FE code in Dafny:

- the two matrix-free "solver problems" that a conjugate-gradient driver works
  through `computeRhs`, `vmult`, `precondition_Jacobi` and `distributeX`:
  - the electrostatic Poisson problem (`poissonSolverProblem`);
  - the Kerker-preconditioned residual problem (`kerkerSolverProblem`);
- the increment computation of the affine mesh movement
  (`meshMovementAffineTransform`).

Everything happens on one rank that owns every degree of freedom (DoF). A
distributed vector is a `seq<real>`.

The deal.II services the source relies on are modelled at the level the source
uses them:

- **Constraint matrix.** A map from each constrained DoF to its line of
  (master, coefficient) entries plus an inhomogeneity. `distribute`, `set_zero`
  and `distribute_local_to_global` act on that map (`Constraints`).
- **Cell data.** The shape values, gradients and JxW weights that FEValues and
  FEEvaluation would give are per-cell quadrature data (`Quadrature`).
- **Cell loop.** The matrix-free `cell_loop` reads each owned cell's DoF values
  through the constraints, applies the cell kernel and scatters the result back
  (`Operator`).

What is proved, per piece:

- **Poisson problem.**
  - The mean-value constraint the Poisson problem builds for periodic meshes is
    exactly "zero integral": the weighted mean of a distributed vector is zero.
  - Its distribution step and its slave-to-master step are adjoint to each
    other.
  - `vmult` is self-adjoint, positive semi-definite on meshes with
    non-negative quadrature weights, and ignores the value at the anchor DoF.
  - Without the mean-value constraint, the Jacobi preconditioner holds the
    reciprocals of the operator's own diagonal at every DoF that is neither
    constrained nor a master of a constraint line.
  - The stiffness cached by `precomputeShapeFunctionGradientIntegral` gives the
    same right-hand side as computing it on the fly.
  - `distributeX` is idempotent.
- **Kerker problem.** The same operator properties hold for the screened
  operator −∇² + 4πγ (semi-definiteness for γ ≥ 0), including the Jacobi
  diagonal at DoFs that are neither constrained nor masters.
- **Mesh movement.** The vertex walk visits every vertex of a non-artificial
  cell exactly once. It writes the affine increment (F − I)x into that vertex's
  three DoFs and changes nothing else.

Modules follow the program's structure:

| module | content |
|---|---|
| `Vectors` | sums and inner products |
| `Constraints` | the constraint matrix |
| `Quadrature` | cell integrals and the AX point kernels |
| `Assembly` | the owned-cell assembly loop |
| `Operator` | read_dof_values, the adjoint of distribute_local_to_global, cell_loop |
| `Jacobi` | the diagonal inversion and the preconditioner |
| `GradCache` | the shape-gradient cache |
| `MeanValue` | the mean-value constraint |
| `Poisson`, `PoissonRhs` | the Poisson problem |
| `Kerker` | the Kerker problem |
| `MeshMovement` | the affine mesh movement |

Paths below are relative to the repository root. The abbreviations used in this
file are:

- P = `src/poisson/poissonSolverProblem.cc`
- K = `src/helmholtz/kerkerSolverProblem.cc`
- M = `src/mesh/meshMovement/meshMovementAffineTransform.cc`

Behaviour of the source worth noting:

- **Diagonal inversion.** The Jacobi diagonal is inverted only at unconstrained
  DoFs (P:425-428, K:176-179). Constrained DoFs keep their assembled value,
  which is zero, rather than holding a reciprocal.
- **Diagonal at masters and under the mean-value projection.**
  computeDiagonalA (P:404-428, K:155-179) sends each elemental entry Kᵢᵢ
  through the vector distribute_local_to_global, so a master DoF j of a
  constrained DoF with weight w receives w·Kᵢᵢ. The diagonal of the operator
  vmult applies is w²·Kᵢᵢ plus cross terms there. With the mean-value
  constraint, vmult is S·A·D, whose diagonal at a free DoF also has the terms
  2wᵢ(A e_o)ᵢ + wᵢ²A_oo. In both cases the Jacobi diagonal is only an
  approximation of the operator's diagonal, and the model claims equality
  only at DoFs that are neither constrained nor masters, without the
  projection.
- **Missing anchor.** The anchor of the mean-value constraint is the first
  owned DoF untouched by any constraint line or atom (P:369-370). The source
  dereferences the first element of that set without checking that it is
  non-empty. The model reports `NoAnchorCandidate` there, and a zero weight at
  the anchor as `ZeroAnchorWeight`, instead of leaving the behaviour undefined.
- **Mesh movement.** The increment loop of meshMovementAffineTransform
  (M:51-83) is modelled.

## Model

| member | source | states |
|---|---|---|
| Constraints.Distribute | src/poisson/poissonSolverProblem.cc:92-99 | distribute keeps every unconstrained entry and afterwards every constraint line holds: a constrained entry equals its masters' weighted sum plus the inhomogeneity |
| Constraints.DistributeFixesSatisfied | src/poisson/poissonSolverProblem.cc:92-99 | a vector that already satisfies every constraint line is a fixed point of distribute |
| Constraints.SatisfiedIgnoresFreeEntry | src/poisson/poissonSolverProblem.cc:350-370 | overwriting a DoF that is neither constrained nor a master keeps every constraint line satisfied, which is why the mean-value anchor is picked outside all constraint lines |
| Constraints.SetZero | src/poisson/poissonSolverProblem.cc:247 | set_zero clears exactly the constrained rows and keeps the rest |
| Constraints.DotSetZero | src/poisson/poissonSolverProblem.cc:243-247 | clearing constrained rows of the rhs is invisible to any vector that vanishes on those rows |
| Constraints.AddEntry | src/poisson/poissonSolverProblem.cc:231-238 | one local entry sent through distribute_local_to_global lands on its DoF when that DoF is unconstrained, never writes a constrained row, and only reaches the DoF itself or its masters |
| Constraints.DistributeLocalToGlobalRows | src/poisson/poissonSolverProblem.cc:203-204 | distribute_local_to_global never writes constrained rows, and a row that is neither constrained nor a master of the cell's DoFs gains exactly the sum of the local entries aimed at it |
| Constraints.DistributeZerosKeeps | src/poisson/poissonSolverProblem.cc:198-204 | a zero elemental vector leaves the global vector unchanged, so skipping the scatter when assembleFlag is false loses nothing |
| Assembly.AssembleOwnedRows | src/poisson/poissonSolverProblem.cc:404-423 | assembling over the owned cells leaves constrained rows untouched and gives every other non-master row the sum of the owned cells' contributions |
| Assembly.AssembledDiagonalsSign | src/helmholtz/kerkerSolverProblem.cc:155-174 | with non-negative quadrature weights and γ ≥ 0 the assembled Poisson and Kerker diagonals are zero at constrained DoFs and non-negative at unconstrained non-master DoFs |
| Quadrature.PoissonStiffnessAgrees | src/poisson/poissonSolverProblem.cc:186-195 | the on-the-fly stiffness entry is 1/(4π) times the shape-gradient integral and equals the stiffness of the operator the AX kernel applies |
| Quadrature.DiagonalEntriesAreStiffnessDiagonals | src/poisson/poissonSolverProblem.cc:408-416 | the elemental diagonal entry computed by computeDiagonalA is the i-th diagonal stiffness entry of the Poisson (and, for the Kerker code, the screened) operator |
| Quadrature.DiagonalEntriesNonNegative | src/helmholtz/kerkerSolverProblem.cc:159-167 | elemental diagonal entries are non-negative when the JxW weights are and γ ≥ 0 |
| Quadrature.UnitDensityIsShapeIntegral | src/poisson/poissonSolverProblem.cc:324-344 | the mean-value weight vector of a cell is the density right-hand side of the constant density 1 |
| Quadrature.CellAXIsStiffness | src/poisson/poissonSolverProblem.cc:446-456 | the cell kernel (evaluate, submit at every point, integrate) multiplies the cell's DoF values by the cell stiffness matrix |
| Quadrature.EnergyRowNonNegative | src/poisson/poissonSolverProblem.cc:446-456 | at each quadrature point u·(the point's contribution to the cell kernel) is JxW (a ‖∇u_h‖² + b u_h²) ≥ 0 |
| Quadrature.CellAXNonNegative | src/poisson/poissonSolverProblem.cc:446-456 | u·CellAX(u) ≥ 0 for non-negative scales and weights: the cell kernel is positive semi-definite |
| Quadrature.CellAXUnitIsDiagonal | src/poisson/poissonSolverProblem.cc:408-416 | applying the cell kernel to the i-th unit vector gives the elemental diagonal entry i that computeDiagonalA assembles, for both operator shapes |
| Operator.DirichletReadsZero | src/poisson/poissonSolverProblem.cc:449 | read_dof_values reads zero at a DoF constrained without masters |
| Operator.DistributeLocalToGlobalAdjoint | src/poisson/poissonSolverProblem.cc:456 | scattering a local vector through distribute_local_to_global and pairing with y equals pairing the local vector with read_dof_values of y: the scatter is the transpose of the gather |
| Operator.AssembleOwnedAdjoint | src/poisson/poissonSolverProblem.cc:443-457 | the pairing of an assembled vector with y is the sum over owned cells of each elemental vector paired with y read at that cell |
| Operator.StiffnessSymmetric | src/poisson/poissonSolverProblem.cc:446-456 | the cell stiffness matrix of either operator is symmetric |
| Operator.CellAXSymmetric | src/helmholtz/kerkerSolverProblem.cc:199-211 | the cell kernel is a symmetric map on the cell's DoF values |
| Operator.CellLoop | src/poisson/poissonSolverProblem.cc:471 | the matrix-free cell_loop leaves constrained rows of the result zero |
| Operator.CellLoopPairing | src/poisson/poissonSolverProblem.cc:434-458 | pairing the cell_loop result with y is the sum over owned cells of the kernel output paired with y read at that cell |
| Operator.CellLoopSelfAdjoint | src/poisson/poissonSolverProblem.cc:434-458 | the operator cell_loop applies is self-adjoint: (A x)·y = x·(A y) |
| Operator.CellLoopNonNegative | src/poisson/poissonSolverProblem.cc:434-458 | with non-negative weights and scales, x·(A x) is a sum of non-negative cell energies |
| Operator.CellLoopUnitDiagonal | src/poisson/poissonSolverProblem.cc:404-423 | at a DoF that is neither constrained nor a master, on cells that list each DoF once, the cell loop on that DoF's unit vector returns there exactly the assembled Jacobi entry, for both shapes |
| Jacobi.InvertedDiagonal | src/poisson/poissonSolverProblem.cc:425-428 | the inversion succeeds exactly when no unconstrained entry is zero; then each unconstrained entry is the reciprocal of the assembled one and each constrained entry keeps its assembled value |
| Jacobi.ReciprocalsInvolution | src/poisson/poissonSolverProblem.cc:425-428 | inverting the inverted diagonal gives back the assembled diagonal |
| Jacobi.InvertDiagonal | src/helmholtz/kerkerSolverProblem.cc:176-179 | the inversion loop produces exactly the reciprocals at unconstrained DoFs and they are non-zero |
| Jacobi.PreconditionIgnoresOmega | src/poisson/poissonSolverProblem.cc:252-259 | the relaxation parameter omega has no effect on the result |
| Jacobi.PreconditionerInvertsDiagonal | src/poisson/poissonSolverProblem.cc:252-259 | preconditioning the assembled diagonal yields 1 at every unconstrained DoF and 0 at constrained DoFs with zero diagonal |
| GradCache.OwnedCountBefore | src/poisson/poissonSolverProblem.cc:123-143 | the running owned-cell index iElem strictly increases along the owned cells, so distinct cells get distinct blocks |
| GradCache.FlatIndexOrder | src/poisson/poissonSolverProblem.cc:137-138 | the cache position iElem·d²+j·d+i is strictly increasing in (iElem, j, i), so no two entries share a slot |
| GradCache.FlatIndexBelow | src/poisson/poissonSolverProblem.cc:120-138 | every cache position lies inside the array of size (owned cells)·d² |
| GradCache.IntegrateGradients | src/poisson/poissonSolverProblem.cc:132-135 | the quadrature loop sums ∇φᵢ·∇φⱼ·JxW over the cell's points |
| GradCache.PrecomputeShapeGradIntegral | src/poisson/poissonSolverProblem.cc:107-146 | the cache has exactly one d×d block per locally owned cell, OwnedCount(cells)·d² entries, and holds at iElem·d²+j·d+i the gradient integral of that cell's shape functions i and j, iElem counting owned cells only |
| MeanValue.Distribute | src/poisson/poissonSolverProblem.cc:264-273 | distributing the mean-value constraint changes only the anchor, which afterwards equals the weighted sum of the vector |
| MeanValue.DistributeIgnoresAnchor | src/poisson/poissonSolverProblem.cc:264-273 | the result does not depend on the anchor's previous value |
| MeanValue.DistributeIdempotent | src/poisson/poissonSolverProblem.cc:264-273 | distributing twice is the same as once |
| MeanValue.SetZero | src/poisson/poissonSolverProblem.cc:296-302 | clears the anchor and keeps the rest |
| MeanValue.SlaveToMasterIdempotent | src/poisson/poissonSolverProblem.cc:277-294 | moving the anchor's value onto the masters twice is the same as once |
| MeanValue.SlaveToMasterAdjoint | src/poisson/poissonSolverProblem.cc:277-294 | the slave-to-master step is the transpose of distribute: S(v)·u = v·D(u) |
| MeanValue.NormalisedRelation | src/poisson/poissonSolverProblem.cc:374-383 | with the weights normalised by minus the anchor weight, w·u = w_o·(u_o − ŵ·u) |
| MeanValue.RelationIffZeroMean | src/poisson/poissonSolverProblem.cc:374-383 | a vector satisfies the normalised constraint line u_o = ŵ·u exactly when its weighted integral w·u is zero |
| MeanValue.DistributeZeroesMean | src/poisson/poissonSolverProblem.cc:264-273 | after distribution with the normalised weights every vector has zero weighted integral |
| MeanValue.TouchedIndices | src/poisson/poissonSolverProblem.cc:354-367 | the touched set is exactly the constrained DoFs, their masters and the atom DoFs |
| MeanValue.ChooseAnchor | src/poisson/poissonSolverProblem.cc:369-371 | the anchor is the smallest untouched DoF, so it is unconstrained and no master; no candidate is reported exactly when every DoF is touched |
| MeanValue.AssembledWeights | src/poisson/poissonSolverProblem.cc:324-344 | the assembled weight vector is zero at constrained DoFs |
| MeanValue.AnchorWeightIsIntegral | src/poisson/poissonSolverProblem.cc:324-344 | at a free non-master DoF the weight is the sum of the owned cells' shape-function integrals |
| MeanValue.FirstUntouchedUnique | src/poisson/poissonSolverProblem.cc:369-370 | there is at most one first untouched DoF, so the anchor is determined by the constraints and the atoms |
| MeanValue.ComputeMeanValueConstraint | src/poisson/poissonSolverProblem.cc:307-384 | a built constraint's anchor is the first untouched DoF, its weight is non-zero and the constraint holds the weights divided by minus that weight; the outcome is NoAnchorCandidate exactly when every DoF is touched, ZeroAnchorWeight exactly when the first untouched DoF has zero weight, and Built exactly when it has a non-zero one |
| Poisson.AssembledDiagonal | src/poisson/poissonSolverProblem.cc:404-423 | the assembled diagonal is zero at constrained DoFs |
| Poisson.PoissonDiagonal | src/poisson/poissonSolverProblem.cc:387-431 | computeDiagonalA yields a diagonal exactly when every unconstrained assembled entry is non-zero |
| Poisson.ConstrainedRowsNotInverted | src/poisson/poissonSolverProblem.cc:425-430 | constrained rows of the stored diagonal stay zero and the preconditioner zeroes them |
| Poisson.UnconstrainedRowsInverted | src/poisson/poissonSolverProblem.cc:425-428 | unconstrained rows of the stored diagonal are reciprocals of the assembled diagonal, so preconditioning the assembled diagonal gives 1 there |
| Poisson.ReinitWithDensity | src/poisson/poissonSolverProblem.cc:37-63 | reinit binds its arguments, rebuilds the diagonal and the mean-value constraint only when asked (anchored at the first untouched DoF) and keeps them otherwise; it fails with NoAnchor when every DoF is touched, with ZeroWeightAtAnchor when the first untouched DoF has zero weight, with ZeroDiagonalEntry when the mean-value step succeeded or was not asked for and the requested diagonal has a zero unconstrained entry, and is ready in every other case; a ready result built with the mean-value flag has its anchor outside every constraint line and atom, and the problem is well formed when the atoms and the kept state fit the new vector |
| Poisson.ReinitWithoutDensity | src/poisson/poissonSolverProblem.cc:66-89 | the second reinit drops the density, keeps the mean-value constraint, fills a cache of one block per owned cell when asked, fails exactly when the requested diagonal has a zero unconstrained entry, and leaves a well-formed problem when the atoms and the kept state fit the new vector |
| Poisson.DistributeX | src/poisson/poissonSolverProblem.cc:92-99 | distributeX keeps free entries, makes the anchor equal to the weighted sum and leaves every constraint line satisfied |
| Poisson.DistributeXIdempotent | src/poisson/poissonSolverProblem.cc:92-99 | applying distributeX to its own output changes nothing |
| Poisson.DistributeXZeroMean | src/poisson/poissonSolverProblem.cc:92-99 | the distributed solution has zero integral against the assembled weights |
| Poisson.PoissonAX | src/poisson/poissonSolverProblem.cc:434-458 | the matrix-free Poisson operator leaves constrained rows zero |
| Poisson.Vmult | src/poisson/poissonSolverProblem.cc:461-477 | without a mean-value constraint constrained rows of A x are zero; with one the anchor row is zero, and so is every constrained row whose mean-value weight is zero |
| Poisson.VmultIgnoresAnchor | src/poisson/poissonSolverProblem.cc:461-477 | vmult does not depend on the anchor entry of its input |
| Poisson.VmultSelfAdjoint | src/poisson/poissonSolverProblem.cc:461-477 | vmult is self-adjoint, with or without the mean-value constraint, as conjugate gradients requires |
| Poisson.VmultNonNegative | src/poisson/poissonSolverProblem.cc:434-477 | with non-negative quadrature weights x·(A x) ≥ 0, with or without the mean-value constraint |
| Poisson.VmultUnitDiagonal | src/poisson/poissonSolverProblem.cc:404-428 | without the mean-value projection, at a DoF that is neither constrained nor a master, vmult on the unit vector returns the assembled diagonal entry, and the stored inverted entry times it is 1 |
| PoissonRhs.UnflaggedElementIsZero | src/poisson/poissonSolverProblem.cc:178-204 | a cell with no inhomogeneously constrained DoF has a zero condensation vector, so skipping it is exact |
| PoissonRhs.CondensationIsOperatorOnLift | src/poisson/poissonSolverProblem.cc:181-200 | the condensation vector is minus the Poisson operator applied to the cell's inhomogeneities |
| PoissonRhs.CachedStiffnessAgrees | src/poisson/poissonSolverProblem.cc:189-194 | the stiffness read from a filled gradient cache equals the one computed on the fly |
| PoissonRhs.CachedCondensationAgrees | src/poisson/poissonSolverProblem.cc:186-195 | the condensation vectors computed from the cache equal those computed on the fly, cell by cell |
| PoissonRhs.CondensationLoop | src/poisson/poissonSolverProblem.cc:178-202 | the double loop builds the condensation vector and sets assembleFlag exactly when some DoF of the cell is inhomogeneously constrained |
| PoissonRhs.CondensationCell | src/poisson/poissonSolverProblem.cc:178-204 | one cell's condensation step adds its condensation vector into the rhs, whether or not the flag was raised |
| PoissonRhs.AssembleCondensation | src/poisson/poissonSolverProblem.cc:166-207 | the condensation pass is the assembly of all owned cells' condensation vectors |
| PoissonRhs.CheckDensity | src/poisson/poissonSolverProblem.cc:211-222 | the rho lookup and the reads at every quadrature point succeed exactly when the rho map covers every owned cell |
| PoissonRhs.CoveredDensityReadsEntries | src/poisson/poissonSolverProblem.cc:219-222 | over a covering rho map every quadrature point of an owned cell reads its own rho value |
| PoissonRhs.AssembleDensity | src/poisson/poissonSolverProblem.cc:210-228 | given a rho map that covers every owned cell, the density pass adds the assembly of all owned cells' density vectors |
| PoissonRhs.ChargeAtAtom | src/poisson/poissonSolverProblem.cc:231-238 | the charge seen at an atom's DoF is that atom's charge |
| PoissonRhs.ChargeAtFree | src/poisson/poissonSolverProblem.cc:231-238 | no charge is seen at a DoF that carries no atom |
| PoissonRhs.AtomLoadRows | src/poisson/poissonSolverProblem.cc:231-238 | every free non-master row loses the total charge of the atoms at that DoF |
| PoissonRhs.LoadAtoms | src/poisson/poissonSolverProblem.cc:231-238 | the atom loop adds −charge at each atom DoF through the constraints |
| PoissonRhs.SourceRhsRows | src/poisson/poissonSolverProblem.cc:166-238 | constrained rows of the assembled source are zero and each free non-master row is its condensation and density contributions minus its atom charge |
| PoissonRhs.RawRhs | src/poisson/poissonSolverProblem.cc:148-241 | the rhs before post-processing is zero at constrained rows and, at free non-master rows, the assembled cell contributions minus the atom charge |
| PoissonRhs.Rhs | src/poisson/poissonSolverProblem.cc:148-247 | a rhs exists exactly when no density is bound or the bound one covers every owned cell, and no cache is kept or every cache entry the condensation loop reads lies inside it; post-processing then zeroes the constrained rows and the anchor, and otherwise adds the anchor's value times each weight |
| PoissonRhs.PrecomputedCacheFits | src/poisson/poissonSolverProblem.cc:120-143 | a cache filled for the bound cells holds every position the condensation loop reads at P:189-194 |
| PoissonRhs.RhsTestsDistributed | src/poisson/poissonSolverProblem.cc:243-247 | the post-processed rhs paired with v equals the raw rhs paired with the distributed v |
| PoissonRhs.ComputeRhs | src/poisson/poissonSolverProblem.cc:148-249 | computeRhs returns exactly the post-processed right-hand side, or nothing when the density lookup or a cache read would go out of bounds |
| Kerker.AssembledDiagonal | src/helmholtz/kerkerSolverProblem.cc:155-174 | the assembled Kerker diagonal is zero at constrained DoFs |
| Kerker.Init | src/helmholtz/kerkerSolverProblem.cc:38-50 | init succeeds exactly when the assembled diagonal is invertible; it then hands back the caller's vector laid out and zeroed, leaves the solution vector and the residual values unbound, and stores the reciprocal diagonal at unconstrained DoFs and zero elsewhere |
| Kerker.InitDiagonalPositive | src/helmholtz/kerkerSolverProblem.cc:155-179 | with non-negative weights and γ ≥ 0 the stored diagonal is positive at every unconstrained non-master DoF |
| Kerker.Reinit | src/helmholtz/kerkerSolverProblem.cc:53-59 | reinit binds the solution vector and the residual values and changes nothing else |
| Kerker.PreconditionInvertsDiagonal | src/helmholtz/kerkerSolverProblem.cc:127-134 | after init and any reinit, preconditioning the assembled diagonal gives 1 at every unconstrained DoF and every preconditioned vector is zero at constrained DoFs |
| Kerker.DistributeX | src/helmholtz/kerkerSolverProblem.cc:61-65 | distributeX keeps the unconstrained entries and leaves every constraint line satisfied |
| Kerker.DistributeXIdempotent | src/helmholtz/kerkerSolverProblem.cc:61-65 | applying distributeX to its own output changes nothing |
| Kerker.Rhs | src/helmholtz/kerkerSolverProblem.cc:73-124 | a rhs exists exactly when every owned cell has residual values; it is zero at constrained rows and at free non-master rows the sum of the residual-gradient integrals |
| Kerker.RhsPairing | src/helmholtz/kerkerSolverProblem.cc:94-115 | the rhs paired with any vector vanishing on constrained rows is the sum over owned cells of the elemental residual vectors paired with that vector read at the cell |
| Kerker.CheckCovered | src/helmholtz/kerkerSolverProblem.cc:101 | the lookup succeeds for every owned cell exactly when the residual map covers them |
| Kerker.AssembleResidual | src/helmholtz/kerkerSolverProblem.cc:94-115 | the cell loop assembles exactly the elemental residual vectors of the owned cells |
| Kerker.ComputeRhs | src/helmholtz/kerkerSolverProblem.cc:73-124 | computeRhs returns exactly the rhs described above, or nothing when a lookup would fail |
| Kerker.Vmult | src/helmholtz/kerkerSolverProblem.cc:216-221 | the Kerker operator leaves constrained rows zero |
| Kerker.VmultSelfAdjoint | src/helmholtz/kerkerSolverProblem.cc:216-221 | the Kerker operator is self-adjoint |
| Kerker.VmultNonNegative | src/helmholtz/kerkerSolverProblem.cc:199-221 | with non-negative quadrature weights and γ ≥ 0, x·(A x) ≥ 0 |
| Kerker.VmultUnitDiagonal | src/helmholtz/kerkerSolverProblem.cc:155-179 | at a DoF that is neither constrained nor a master, vmult on the unit vector returns the assembled diagonal entry, and the diagonal init stores times it is 1 |
| MeshMovement.Increment | src/mesh/meshMovement/meshMovementAffineTransform.cc:67-68 | the increment moves a vertex to its image under the deformation gradient |
| MeshMovement.IdentityIncrementZero | src/mesh/meshMovement/meshMovementAffineTransform.cc:67-68 | the identity deformation gives a zero increment |
| MeshMovement.FirstOccurrencesMembers | src/mesh/meshMovement/meshMovementAffineTransform.cc:62-66 | the vertex_touched dedup keeps every visited vertex and repeats none |
| MeshMovement.VisitsCells | src/mesh/meshMovement/meshMovementAffineTransform.cc:59-62 | a vertex is visited exactly when it belongs to some non-artificial cell |
| MeshMovement.WriteVertexOwn | src/mesh/meshMovement/meshMovementAffineTransform.cc:70-77 | writing a vertex puts component d of its increment into its d-th DoF |
| MeshMovement.WriteVertexOther | src/mesh/meshMovement/meshMovementAffineTransform.cc:70-77 | writing a vertex leaves every other DoF alone |
| MeshMovement.WriteAllSets | src/mesh/meshMovement/meshMovementAffineTransform.cc:59-82 | after the walk every processed vertex's DoFs hold its increment |
| MeshMovement.WriteAllKeeps | src/mesh/meshMovement/meshMovementAffineTransform.cc:59-82 | after the walk DoFs of no processed vertex are unchanged |
| MeshMovement.IncrementFieldEffect | src/mesh/meshMovement/meshMovementAffineTransform.cc:51-83 | every vertex of every non-artificial cell gets its increment in its three DoFs and all other entries are kept |
| MeshMovement.IdentityWritesZeros | src/mesh/meshMovement/meshMovementAffineTransform.cc:51-83 | under the identity deformation every written DoF becomes zero |
| MeshMovement.WriteIncrement | src/mesh/meshMovement/meshMovementAffineTransform.cc:70-77 | writing one vertex changes nothing but the increment vector d_isParallelMesh selects, and writes that vertex's components into it |
| MeshMovement.VisitVertex | src/mesh/meshMovement/meshMovementAffineTransform.cc:62-78 | a touched vertex is skipped and an untouched one is marked, recorded and written |
| MeshMovement.ProcessCell | src/mesh/meshMovement/meshMovementAffineTransform.cc:61-80 | each vertex of the given cell is visited in order (the caller, ComputeIncrement, skips artificial cells) |
| MeshMovement.ComputeIncrement | src/mesh/meshMovement/meshMovementAffineTransform.cc:51-83 | the vertices are processed once each in first-visit order, the touched flags mark exactly them and the increment field is written as above |
| MeshMovement.Transform | src/mesh/meshMovement/meshMovementAffineTransform.cc:28-41 | transform zeroes both increment vectors, computes the increment into the one the mesh mode selects (the other stays zero), moves the bounding vectors, updates the vertices and returns the moved-mesh check of the result |

## Left out

- MPI: the model has a single rank. `compress`, `update_ghost_values`, `MPI_Bcast` and the owner-only write of the anchor are identities there.
- Vectorised FEEvaluation lanes: each lane is one cell's computation, so the model uses per-cell kernels.
- Floating point: real arithmetic is exact here. Rounding, and the infinities a zero diagonal would produce, are not modelled.
- FEValues and FEEvaluation: shape values, gradients and JxW weights are input data of each cell. Mapping and quadrature construction are outside the model.
- DoF numbering, the DoF handlers and the MatrixFree set-up: cells carry their DoF lists and owned flags as data.
- Operator.CellLoop: the constraints held by the MatrixFree object for component d_matrixFreeVectorComponent (P:441-444) and component 0 (K:192-194) are taken to be the bound ConstraintMatrix, applied homogeneously (inhomogeneities are not read by read_dof_values nor written by distribute_local_to_global); the MatrixFree object and its own constraint copy are not modelled.
- Cell ids: the Kerker residual map and the Poisson rho map are keyed by the cell's position in the cell sequence rather than by `CellId`.
- Atoms: the atoms map is a sequence sorted by DoF, one entry per key, as a `std::map` iterates.
- Atom DoFs: an atom DoF inside a constraint line follows distribute_local_to_global like any other entry.
- Jacobi.InvertedDiagonal: a zero diagonal entry at an unconstrained DoF makes the source divide by zero. The model returns no diagonal instead.
- Poisson.PoissonDiagonal: as Jacobi.InvertedDiagonal, the source's division by zero becomes a failure outcome.
- Poisson.ReinitWithDensity: the undefined `*begin()` of an empty candidate set becomes the failure outcome `NoAnchor`. A zero weight at the anchor, which would make the source divide by zero, becomes `ZeroWeightAtAnchor`.
- MeanValue.ComputeMeanValueConstraint: the same two undefined cases become the outcomes `NoAnchorCandidate` and `ZeroAnchorWeight`.
- Kerker.Rhs: the unchecked `find(...)->second` on a cell missing from the residual map becomes "no rhs". It requires the vector and the residual values that reinit binds, for the reason given under Kerker.DistributeX.
- Kerker.ComputeRhs: the same missing-cell case returns nothing, and the same binding is required.
- Kerker.Init: the zero-diagonal division becomes a failure outcome.
- Kerker.DistributeX: requires the solution vector that reinit binds. Called between init and reinit, the source dereferences a pointer that was never set, which the model does not give a meaning.
- PoissonRhs.AssembleDensity: requires a rho map with an entry for every owned cell and a value for each of its quadrature points. The source's unchecked `find(...)->second` and unchecked `tempVec[q_point]` are undefined otherwise.
- PoissonRhs.Rhs: the same uncovered rho map becomes "no rhs". So does a kept shape-gradient cache too short for the bound cells: neither reinit clears the precomputed flag (P:38-63, P:83-87), and the read at P:189-194 is an unchecked operator[], which the model turns into no rhs instead of undefined behaviour.
- PoissonRhs.ComputeRhs: the same uncovered rho map, or a kept cache too short for the bound cells, returns nothing.
- Operator.CellLoopUnitDiagonal: stated for cells whose DoF lists name each DoF once, as deal.II's local DoF indices do; a cell listing a DoF twice is not covered.
- MeshMovement.Transform: the transformation of the domain bounding vectors, `updateTriangulationVertices` and `movedMeshCheck` are outside this model. They are function parameters, and the contract states the call order and the data passed between them, not what they compute.
- Mesh movement beyond the increment: `initIncrementField` is modelled only as zeroing the increment vectors. `moveMesh`, which the source does not implement for this class, and the `pcout` timing output are left out.
- Poisson.ReinitWithDensity and Poisson.ReinitWithoutDensity: the bound references become stored values, and the MatrixFree object is not modelled.
- Template instantiations and the `FEOrder` parameter: the number of DoFs per cell is a value.

=== FILE: assembly.dfy ===
/** Global assembly over the locally owned cells: every owned cell hands its
    elemental vector to distribute_local_to_global, in cell order. On one
    rank compress() adds nothing, so the assembled vector is this sum. */
module Assembly {
  import opened Vectors
  import opened Constraints
  import opened Quadrature

  /** Each cell's elemental vector matches its DoF list, whose entries lie
      below n. */
  predicate Fits(cells: seq<Cell>, elems: seq<Vec>, n: nat)
  {
    |elems| == |cells| &&
    forall e :: 0 <= e < |cells| ==>
      |elems[e]| == |cells[e].dofs| &&
      forall j :: 0 <= j < |cells[e].dofs| ==> cells[e].dofs[j] < n
  }

  /** What cell e contributes to DoF i: its local entries aimed at i when the
      cell is locally owned, nothing otherwise. */
  function Contribution(cells: seq<Cell>, elems: seq<Vec>, i: nat): nat -> real
  {
    (e: nat) =>
      if e < |cells| && e < |elems| && cells[e].owned then LocalSum(elems[e], cells[e].dofs, i) else 0.0
  }

  /** Loop over the active cells, assembling the owned ones into v. */
  function AssembleOwned(c: ConstraintSet, cells: seq<Cell>, elems: seq<Vec>, v: Vec): (r: Vec)
    requires Closed(c, |v|)
    requires Fits(cells, elems, |v|)
    ensures |r| == |v|
    decreases |cells|
  {
    if |cells| == 0 then v
    else
      var k := |cells| - 1;
      var prev := AssembleOwned(c, cells[..k], elems[..k], v);
      if cells[k].owned then DistributeLocalToGlobal(c, elems[k], cells[k].dofs, prev) else prev
  }

  /** Constrained rows are never written; a row that is neither constrained
      nor a master receives exactly the sum of the owned cells' entries aimed
      at it. */
  lemma {:induction false} AssembleOwnedRows(c: ConstraintSet, cells: seq<Cell>, elems: seq<Vec>, v: Vec)
    requires Closed(c, |v|)
    requires Fits(cells, elems, |v|)
    ensures forall i :: 0 <= i < |v| && i in c ==> AssembleOwned(c, cells, elems, v)[i] == v[i]
    ensures forall i :: 0 <= i < |v| && i !in c && NotAMaster(c, i) ==>
      AssembleOwned(c, cells, elems, v)[i] == v[i] + SumTo(|cells|, Contribution(cells, elems, i))
    decreases |cells|
  {
    if |cells| > 0 {
      var k := |cells| - 1;
      var prev := AssembleOwned(c, cells[..k], elems[..k], v);
      AssembleOwnedRows(c, cells[..k], elems[..k], v);
      if cells[k].owned {
        DistributeLocalToGlobalRows(c, elems[k], cells[k].dofs, prev);
      }
      forall i | 0 <= i < |v| && i !in c && NotAMaster(c, i)
        ensures AssembleOwned(c, cells, elems, v)[i] == v[i] + SumTo(|cells|, Contribution(cells, elems, i))
      {
        SumExt(k, Contribution(cells[..k], elems[..k], i), Contribution(cells, elems, i));
      }
    }
  }

  /** Assembling one more cell is one more distribute_local_to_global when
      that cell is owned and nothing otherwise. */
  lemma AssembleOwnedStep(c: ConstraintSet, cells: seq<Cell>, elems: seq<Vec>, v: Vec, e: nat)
    requires Closed(c, |v|)
    requires Fits(cells, elems, |v|)
    requires e < |cells|
    ensures Fits(cells[..e], elems[..e], |v|)
    ensures AssembleOwned(c, cells[..e + 1], elems[..e + 1], v) ==
      if cells[e].owned then DistributeLocalToGlobal(c, elems[e], cells[e].dofs, AssembleOwned(c, cells[..e], elems[..e], v))
      else AssembleOwned(c, cells[..e], elems[..e], v)
  {
    assert cells[..e + 1][..e] == cells[..e];
    assert elems[..e + 1][..e] == elems[..e];
  }

  /** If no owned cell contributes a negative local entry to i, the assembled
      row of an unconstrained non-master i is non-negative. */
  lemma AssembledRowNonNegative(c: ConstraintSet, cells: seq<Cell>, elems: seq<Vec>, n: nat, i: nat)
    requires Closed(c, n)
    requires Fits(cells, elems, n)
    requires i < n && i !in c && NotAMaster(c, i)
    requires forall e, j :: 0 <= e < |cells| && 0 <= j < |elems[e]| ==> elems[e][j] >= 0.0
    ensures AssembleOwned(c, cells, elems, Zeros(n))[i] >= 0.0
  {
    forall e: nat | e < |cells|
      ensures Contribution(cells, elems, i)(e) >= 0.0
    {
      if cells[e].owned {
        SumNonNegative(|elems[e]|, LocalTerm(elems[e], cells[e].dofs, i));
      }
    }
    SumNonNegative(|cells|, Contribution(cells, elems, i));
    AssembleOwnedRows(c, cells, elems, Zeros(n));
  }

  /** The elemental vectors f(cell) of every cell, for n-dimensional
      assembly. */
  function ShapeIntegralVectors(cells: seq<Cell>): (r: seq<Vec>)
    ensures |r| == |cells|
    ensures forall e :: 0 <= e < |cells| ==> |r[e]| == |cells[e].dofs|
  {
    seq(|cells|, e requires 0 <= e < |cells| => ShapeIntegralVector(CellBasis(cells[e]), |cells[e].dofs|))
  }

  function PoissonDiagonalVectors(cells: seq<Cell>): (r: seq<Vec>)
    ensures |r| == |cells|
    ensures forall e :: 0 <= e < |cells| ==> |r[e]| == |cells[e].dofs|
  {
    seq(|cells|, e requires 0 <= e < |cells| => PoissonDiagonalVector(CellBasis(cells[e]), |cells[e].dofs|))
  }

  function KerkerDiagonalVectors(cells: seq<Cell>, gamma: real): (r: seq<Vec>)
    ensures |r| == |cells|
    ensures forall e :: 0 <= e < |cells| ==> |r[e]| == |cells[e].dofs|
  {
    seq(|cells|, e requires 0 <= e < |cells| => KerkerDiagonalVector(CellBasis(cells[e]), gamma, |cells[e].dofs|))
  }

  /** Every cell's DoFs lie below n. */
  predicate DofsBelow(cells: seq<Cell>, n: nat)
  {
    forall e, j :: 0 <= e < |cells| && 0 <= j < |cells[e].dofs| ==> cells[e].dofs[j] < n
  }

  /** No cell lists the same global DoF twice. */
  predicate DistinctCellDofs(cells: seq<Cell>)
  {
    forall e, j, k :: 0 <= e < |cells| && 0 <= j < k < |cells[e].dofs| ==> cells[e].dofs[j] != cells[e].dofs[k]
  }

  /** All quadrature weights are non-negative. */
  predicate NonNegativeWeights(cells: seq<Cell>)
  {
    forall e, q :: 0 <= e < |cells| && 0 <= q < |cells[e].points| ==> cells[e].points[q].jxw >= 0.0
  }

  /** The assembled (not yet inverted) diagonals of both operators are
      non-negative at every unconstrained non-master DoF when the weights
      are, and zero at every constrained DoF. */
  lemma AssembledDiagonalsSign(c: ConstraintSet, cells: seq<Cell>, gamma: real, n: nat, i: nat)
    requires Closed(c, n)
    requires DofsBelow(cells, n)
    requires NonNegativeWeights(cells)
    requires gamma >= 0.0
    requires i < n
    ensures i in c ==> AssembleOwned(c, cells, PoissonDiagonalVectors(cells), Zeros(n))[i] == 0.0
    ensures i in c ==> AssembleOwned(c, cells, KerkerDiagonalVectors(cells, gamma), Zeros(n))[i] == 0.0
    ensures i !in c && NotAMaster(c, i) ==> AssembleOwned(c, cells, PoissonDiagonalVectors(cells), Zeros(n))[i] >= 0.0
    ensures i !in c && NotAMaster(c, i) ==> AssembleOwned(c, cells, KerkerDiagonalVectors(cells, gamma), Zeros(n))[i] >= 0.0
  {
    var pd := PoissonDiagonalVectors(cells);
    var kd := KerkerDiagonalVectors(cells, gamma);
    AssembleOwnedRows(c, cells, pd, Zeros(n));
    AssembleOwnedRows(c, cells, kd, Zeros(n));
    if i !in c && NotAMaster(c, i) {
      forall e, j | 0 <= e < |cells| && 0 <= j < |pd[e]|
        ensures pd[e][j] >= 0.0 && kd[e][j] >= 0.0
      {
        DiagonalEntriesNonNegative(CellBasis(cells[e]), gamma, j);
      }
      AssembledRowNonNegative(c, cells, pd, n, i);
      AssembledRowNonNegative(c, cells, kd, n, i);
    }
  }
}

=== FILE: constraints.dfy ===
/** Affine constraints on degrees of freedom, modelling the parts of deal.II's
    ConstraintMatrix that the Poisson and Kerker problems call: membership
    tests, `distribute`, `set_zero` and the vector form of
    `distribute_local_to_global`. A constrained DoF i carries a line
    u[i] = sum_k weight_k * u[master_k] + inhomogeneity. */
module Constraints {
  import opened Vectors

  datatype Entry = Entry(master: nat, weight: real)

  datatype Line = Line(entries: seq<Entry>, inhomogeneity: real)

  /** Constrained DoF -> its constraint line. */
  type ConstraintSet = map<nat, Line>

  predicate IsConstrained(c: ConstraintSet, i: nat)
  {
    i in c
  }

  /** A constrained DoF whose line has a non-zero inhomogeneity (a
      non-zero Dirichlet value). */
  predicate IsInhomogeneouslyConstrained(c: ConstraintSet, i: nat)
  {
    i in c && c[i].inhomogeneity != 0.0
  }

  /** The state after ConstraintMatrix::close() on a vector of n entries:
      every line and every master lies in range, and masters are themselves
      unconstrained. */
  predicate Closed(c: ConstraintSet, n: nat)
  {
    forall i :: i in c ==>
      i < n &&
      forall k :: 0 <= k < |c[i].entries| ==>
        c[i].entries[k].master < n && c[i].entries[k].master !in c
  }

  /** Does the line of DoF d name i as a master? */
  predicate HasMaster(c: ConstraintSet, d: nat, i: nat)
  {
    d in c && exists k :: 0 <= k < |c[d].entries| && c[d].entries[k].master == i
  }

  /** weight_k * v[master_k], or 0 past the line's end. */
  function EntryTermAt(es: seq<Entry>, v: Vec, k: nat): real
  {
    if k < |es| && es[k].master < |v| then es[k].weight * v[es[k].master] else 0.0
  }

  function EntryTerm(es: seq<Entry>, v: Vec): nat -> real
  {
    (k: nat) => EntryTermAt(es, v, k)
  }

  /** Right-hand side of a constraint line evaluated on v. */
  function LineValue(l: Line, v: Vec): real
  {
    SumTo(|l.entries|, EntryTerm(l.entries, v)) + l.inhomogeneity
  }

  /** Every constraint line holds of v. */
  ghost predicate Satisfied(c: ConstraintSet, v: Vec)
  {
    forall i :: i in c && i < |v| ==> v[i] == LineValue(c[i], v)
  }

  /** A line's value depends only on the entries at its masters. */
  lemma LineValueOnMasters(l: Line, v: Vec, u: Vec)
    requires |v| == |u|
    requires forall k :: 0 <= k < |l.entries| && l.entries[k].master < |v| ==>
      v[l.entries[k].master] == u[l.entries[k].master]
    ensures LineValue(l, v) == LineValue(l, u)
  {
    SumExt(|l.entries|, EntryTerm(l.entries, v), EntryTerm(l.entries, u));
  }

  /** ConstraintMatrix::distribute: overwrite every constrained entry with
      the value its line prescribes; unconstrained entries stay. */
  function Distribute(c: ConstraintSet, v: Vec): (r: Vec)
    requires Closed(c, |v|)
    ensures |r| == |v|
    ensures forall i :: 0 <= i < |v| && i !in c ==> r[i] == v[i]
    ensures Satisfied(c, r)
  {
    var r := seq(|v|, i requires 0 <= i < |v| => if i in c then LineValue(c[i], v) else v[i]);
    forall i | i in c && i < |r|
      ensures r[i] == LineValue(c[i], r)
    {
      LineValueOnMasters(c[i], v, r);
    }
    r
  }

  /** Distributing a vector that already satisfies the constraints changes
      nothing; in particular distribute is idempotent. */
  lemma DistributeFixesSatisfied(c: ConstraintSet, v: Vec)
    requires Closed(c, |v|)
    requires Satisfied(c, v)
    ensures Distribute(c, v) == v
  {
  }

  /** Overwriting an entry that is neither constrained nor a master keeps
      every constraint line satisfied. */
  lemma SatisfiedIgnoresFreeEntry(c: ConstraintSet, v: Vec, o: nat, x: real)
    requires Closed(c, |v|)
    requires Satisfied(c, v)
    requires o < |v| && o !in c && forall d :: d in c ==> !HasMaster(c, d, o)
    ensures Satisfied(c, v[o := x])
  {
    var u := v[o := x];
    forall i | i in c && i < |u|
      ensures u[i] == LineValue(c[i], u)
    {
      assert !HasMaster(c, i, o);
      LineValueOnMasters(c[i], v, u);
    }
  }

  /** ConstraintMatrix::set_zero: zero every constrained entry. */
  function SetZero(c: ConstraintSet, v: Vec): (r: Vec)
    ensures |r| == |v|
    ensures forall i :: 0 <= i < |v| && i in c ==> r[i] == 0.0
    ensures forall i :: 0 <= i < |v| && i !in c ==> r[i] == v[i]
  {
    seq(|v|, i requires 0 <= i < |v| => if i in c then 0.0 else v[i])
  }

  /** Zeroing the constrained rows is invisible to a test vector that is
      zero there. */
  lemma DotSetZero(c: ConstraintSet, s: Vec, v: Vec)
    requires |s| == |v|
    requires forall i :: 0 <= i < |v| && i in c ==> v[i] == 0.0
    ensures Dot(SetZero(c, s), v) == Dot(s, v)
  {
    SumExt(|s|, DotTerm(SetZero(c, s), v), DotTerm(s, v));
  }

  /** Add weight * val to the entry of every master in es. */
  function AddToMasters(es: seq<Entry>, val: real, v: Vec): (r: Vec)
    requires forall k :: 0 <= k < |es| ==> es[k].master < |v|
    ensures |r| == |v|
    ensures forall i :: 0 <= i < |v| && (forall k :: 0 <= k < |es| ==> es[k].master != i) ==> r[i] == v[i]
    decreases |es|
  {
    if |es| == 0 then v
    else
      var m := es[0].master;
      AddToMasters(es[1..], val, v[m := v[m] + Share(es[0].weight, val)])
  }

  /** One local entry of distribute_local_to_global: an unconstrained
      target receives val, a constrained one hands val to its masters
      (the vector-only form ignores inhomogeneities). */
  function AddEntry(c: ConstraintSet, d: nat, val: real, v: Vec): (r: Vec)
    requires Closed(c, |v|)
    requires d < |v|
    ensures |r| == |v|
    ensures d !in c ==> r[d] == v[d] + val
    ensures forall i :: 0 <= i < |v| && i != d && !HasMaster(c, d, i) ==> r[i] == v[i]
    ensures forall i :: 0 <= i < |v| && i in c ==> r[i] == v[i]
  {
    if d in c then AddToMasters(c[d].entries, val, v)
    else v[d := v[d] + val]
  }

  /** i is a master of no constraint line at all. */
  predicate NotAMaster(c: ConstraintSet, i: nat)
  {
    forall d :: d in c ==> !HasMaster(c, d, i)
  }

  /** i is not a master of any constrained DoF among dofs. */
  predicate NotAMasterFor(c: ConstraintSet, dofs: seq<nat>, i: nat)
  {
    forall k :: 0 <= k < |dofs| ==> !HasMaster(c, dofs[k], i)
  }

  /** The j-th local entry if it targets i, else 0. */
  function LocalTerm(local: Vec, dofs: seq<nat>, i: nat): nat -> real
  {
    (j: nat) => if j < |local| && j < |dofs| && dofs[j] == i then local[j] else 0.0
  }

  /** Total of the local entries that target DoF i. */
  function LocalSum(local: Vec, dofs: seq<nat>, i: nat): real
  {
    SumTo(|local|, LocalTerm(local, dofs, i))
  }

  /** ConstraintMatrix::distribute_local_to_global for a vector: add each
      local entry at its global DoF, in order, routing entries of
      constrained DoFs to their masters. */
  function DistributeLocalToGlobal(c: ConstraintSet, local: Vec, dofs: seq<nat>, v: Vec): (r: Vec)
    requires Closed(c, |v|)
    requires |local| == |dofs|
    requires forall j :: 0 <= j < |dofs| ==> dofs[j] < |v|
    ensures |r| == |v|
    decreases |local|
  {
    if |local| == 0 then v
    else
      var n := |local| - 1;
      AddEntry(c, dofs[n], local[n], DistributeLocalToGlobal(c, local[..n], dofs[..n], v))
  }

  /** The last local entry moves row i by what it aims at i. */
  lemma LocalSumStep(c: ConstraintSet, local: Vec, dofs: seq<nat>, prev: Vec, i: nat)
    requires Closed(c, |prev|)
    requires |local| == |dofs| > 0 && dofs[|dofs| - 1] < |prev|
    requires i < |prev| && i !in c && !HasMaster(c, dofs[|dofs| - 1], i)
    ensures AddEntry(c, dofs[|dofs| - 1], local[|dofs| - 1], prev)[i] ==
      prev[i] + (LocalSum(local, dofs, i) - LocalSum(local[..|dofs| - 1], dofs[..|dofs| - 1], i))
  {
    var n := |dofs| - 1;
    SumExt(n, LocalTerm(local[..n], dofs[..n], i), LocalTerm(local, dofs, i));
  }

  /** Constrained rows of v are never written, and an unconstrained row that
      no constrained DoF of the element masters receives exactly the local
      entries aimed at it. */
  lemma {:induction false} DistributeLocalToGlobalRows(c: ConstraintSet, local: Vec, dofs: seq<nat>, v: Vec)
    requires Closed(c, |v|)
    requires |local| == |dofs|
    requires forall j :: 0 <= j < |dofs| ==> dofs[j] < |v|
    ensures forall i :: 0 <= i < |v| && i in c ==> DistributeLocalToGlobal(c, local, dofs, v)[i] == v[i]
    ensures forall i :: 0 <= i < |v| && i !in c && NotAMasterFor(c, dofs, i) ==>
      DistributeLocalToGlobal(c, local, dofs, v)[i] == v[i] + LocalSum(local, dofs, i)
    decreases |local|
  {
    if |local| > 0 {
      var n := |local| - 1;
      var prev := DistributeLocalToGlobal(c, local[..n], dofs[..n], v);
      var r := AddEntry(c, dofs[n], local[n], prev);
      assert DistributeLocalToGlobal(c, local, dofs, v) == r;
      DistributeLocalToGlobalRows(c, local[..n], dofs[..n], v);
      forall i | 0 <= i < |v| && i !in c && NotAMasterFor(c, dofs, i)
        ensures r[i] == v[i] + LocalSum(local, dofs, i)
      {
        assert NotAMasterFor(c, dofs[..n], i);
        LocalSumStep(c, local, dofs, prev, i);
      }
    }
  }

  /** Handing zero to the masters changes nothing. */
  lemma {:induction false} AddToMastersZero(es: seq<Entry>, v: Vec)
    requires forall k :: 0 <= k < |es| ==> es[k].master < |v|
    ensures AddToMasters(es, 0.0, v) == v
    decreases |es|
  {
    if |es| > 0 {
      var m := es[0].master;
      assert v[m := v[m] + Share(es[0].weight, 0.0)] == v;
      AddToMastersZero(es[1..], v);
    }
  }

  /** An element vector of zeros adds nothing: skipping its assembly is
      harmless. */
  lemma {:induction false} DistributeZerosKeeps(c: ConstraintSet, local: Vec, dofs: seq<nat>, v: Vec)
    requires Closed(c, |v|)
    requires |local| == |dofs|
    requires forall j :: 0 <= j < |dofs| ==> dofs[j] < |v|
    requires forall j :: 0 <= j < |local| ==> local[j] == 0.0
    ensures DistributeLocalToGlobal(c, local, dofs, v) == v
    decreases |local|
  {
    if |local| > 0 {
      var n := |local| - 1;
      DistributeZerosKeeps(c, local[..n], dofs[..n], v);
      if dofs[n] in c {
        AddToMastersZero(c[dofs[n]].entries, v);
      } else {
        assert v[dofs[n] := v[dofs[n]] + 0.0] == v;
      }
    }
  }
}

=== FILE: grad_cache.dfy ===
/** The Poisson problem's cache of shape-function gradient integrals: one
    dofs_per_cell x dofs_per_cell block per locally owned cell, blocks in
    cell order, and inside a block the integral for (i, j) at j * d + i. */
module GradCache {
  import opened Vectors
  import opened Quadrature

  /** Every cell has d local DoFs, all below n. */
  predicate Uniform(cells: seq<Cell>, d: nat, n: nat)
  {
    forall e :: 0 <= e < |cells| ==>
      |cells[e].dofs| == d && forall j :: 0 <= j < d ==> cells[e].dofs[j] < n
  }

  /** The flattened position iElem * d * d + j * d + i. */
  function FlatIndex(k: nat, j: nat, i: nat, d: nat): nat
  {
    k * d * d + j * d + i
  }

  /** The number of locally owned cells: `iElem` after visiting cells. */
  function OwnedCount(cells: seq<Cell>): (r: nat)
    ensures r <= |cells|
    decreases |cells|
  {
    if |cells| == 0 then 0
    else OwnedCount(cells[..|cells| - 1]) + (if cells[|cells| - 1].owned then 1 else 0)
  }

  /** Visiting one more cell increases the count by one exactly when that
      cell is owned. */
  lemma OwnedCountStep(cells: seq<Cell>, e: nat)
    requires e < |cells|
    ensures OwnedCount(cells[..e + 1]) == OwnedCount(cells[..e]) + (if cells[e].owned then 1 else 0)
  {
    assert cells[..e + 1][..e] == cells[..e];
  }

  /** An owned cell before e has a smaller ordinal than the cells from e on. */
  lemma {:induction false} OwnedCountBefore(cells: seq<Cell>, e': nat, e: nat)
    requires e' < e <= |cells| && cells[e'].owned
    ensures OwnedCount(cells[..e']) < OwnedCount(cells[..e])
    decreases e - e'
  {
    OwnedCountStep(cells, e - 1);
    if e - 1 > e' {
      OwnedCountBefore(cells, e', e - 1);
    }
  }

  lemma MulMonotone(a: nat, b: nat, m: nat)
    requires a <= b
    ensures a * m <= b * m
  {
    assert b * m == a * m + (b - a) * m;
  }

  /** With offsets below the block size m, positions a * m + r order by
      block first. */
  lemma BlockOrder(a: nat, r: nat, b: nat, r2: nat, m: nat)
    requires a < b && r < m
    ensures a * m + r < b * m + r2
  {
    MulMonotone(a + 1, b, m);
    assert (a + 1) * m == a * m + m;
  }

  /** Within a block, (j, i) with j, i < d lies below d * d. */
  lemma BlockOffsetBound(j: nat, i: nat, d: nat)
    requires j < d && i < d
    ensures j * d + i < d * d
  {
    BlockOrder(j, i, d, 0, d);
  }

  lemma FlatIndexBlocks(k: nat, j: nat, i: nat, d: nat)
    ensures FlatIndex(k, j, i, d) == k * (d * d) + (j * d + i)
  {
    assert k * d * d == k * (d * d);
  }

  /** Positions grow with (k, j, i) in lexicographic order. */
  lemma FlatIndexOrder(k: nat, j: nat, i: nat, k2: nat, j2: nat, i2: nat, d: nat)
    requires j < d && i < d
    requires k < k2 || (k == k2 && (j < j2 || (j == j2 && i < i2)))
    ensures FlatIndex(k, j, i, d) < FlatIndex(k2, j2, i2, d)
  {
    FlatIndexBlocks(k, j, i, d);
    FlatIndexBlocks(k2, j2, i2, d);
    if k < k2 {
      BlockOffsetBound(j, i, d);
      BlockOrder(k, j * d + i, k2, j2 * d + i2, d * d);
    } else if j < j2 {
      BlockOrder(j, i, j2, i2, d);
    }
  }

  /** Every block of an array of m blocks lies inside it. */
  lemma FlatIndexBelow(k: nat, j: nat, i: nat, d: nat, m: nat)
    requires k < m && j < d && i < d
    ensures FlatIndex(k, j, i, d) < m * d * d
  {
    FlatIndexOrder(k, j, i, m, 0, 0, d);
  }

  /** Entries (j', i') before (j, i) of block k hold cell's integrals. */
  ghost predicate BlockFilled(cache: seq<real>, cell: Basis, k: nat, d: nat, j: nat, i: nat)
  {
    forall j': nat, i': nat :: j' < d && i' < d && (j' < j || (j' == j && i' < i)) ==>
      FlatIndex(k, j', i', d) < |cache| && cache[FlatIndex(k, j', i', d)] == GradIntegral(cell, i', j')
  }

  /** Every owned cell before e has its whole block filled. */
  ghost predicate Filled(cache: seq<real>, cells: seq<Cell>, d: nat, e: nat)
  {
    forall e' :: 0 <= e' < e && e' < |cells| && cells[e'].owned ==>
      BlockFilled(cache, CellBasis(cells[e']), OwnedCount(cells[..e']), d, d, 0)
  }

  /** The cache holds, for every owned cell and every i, j < d, the gradient
      integral of (i, j) at the position the right-hand side reads. */
  ghost predicate CacheHolds(cache: seq<real>, cells: seq<Cell>, d: nat)
  {
    forall e, j: nat, i: nat :: 0 <= e < |cells| && cells[e].owned && j < d && i < d ==>
      FlatIndex(OwnedCount(cells[..e]), j, i, d) < |cache| &&
      cache[FlatIndex(OwnedCount(cells[..e]), j, i, d)] == GradIntegral(CellBasis(cells[e]), i, j)
  }

  /** A write at a later position keeps a filled part of block k. */
  lemma WriteKeepsBlock(cache: seq<real>, cell: Basis, k: nat, d: nat, j: nat, i: nat,
                        k2: nat, j2: nat, i2: nat, x: real)
    requires BlockFilled(cache, cell, k, d, j, i)
    requires j2 < d && i2 < d && FlatIndex(k2, j2, i2, d) < |cache|
    requires k < k2 || (k == k2 && (j < j2 || (j == j2 && i <= i2)))
    ensures BlockFilled(cache[FlatIndex(k2, j2, i2, d) := x], cell, k, d, j, i)
  {
    forall j': nat, i': nat | j' < d && i' < d && (j' < j || (j' == j && i' < i))
      ensures FlatIndex(k, j', i', d) != FlatIndex(k2, j2, i2, d)
    {
      FlatIndexOrder(k, j', i', k2, j2, i2, d);
    }
  }

  /** A write into the block of the owned cell at e keeps the blocks of the
      owned cells before e. */
  lemma WriteKeepsFilled(cache: seq<real>, cells: seq<Cell>, d: nat, e: nat, j: nat, i: nat, x: real)
    requires e < |cells| && j < d && i < d
    requires Filled(cache, cells, d, e)
    requires FlatIndex(OwnedCount(cells[..e]), j, i, d) < |cache|
    ensures Filled(cache[FlatIndex(OwnedCount(cells[..e]), j, i, d) := x], cells, d, e)
  {
    var k := OwnedCount(cells[..e]);
    forall e' | 0 <= e' < e && cells[e'].owned
      ensures BlockFilled(cache[FlatIndex(k, j, i, d) := x], CellBasis(cells[e']), OwnedCount(cells[..e']), d, d, 0)
    {
      OwnedCountBefore(cells, e', e);
      WriteKeepsBlock(cache, CellBasis(cells[e']), OwnedCount(cells[..e']), d, d, 0, k, j, i, x);
    }
  }

  /** Passing cell e keeps every earlier block and adds its own when owned. */
  lemma FilledStep(cache: seq<real>, cells: seq<Cell>, d: nat, e: nat)
    requires e < |cells| && Filled(cache, cells, d, e)
    requires cells[e].owned ==> BlockFilled(cache, CellBasis(cells[e]), OwnedCount(cells[..e]), d, d, 0)
    ensures Filled(cache, cells, d, e + 1)
  {
  }

  /** Once every owned cell has its block, the cache holds every integral. */
  lemma FilledHolds(cache: seq<real>, cells: seq<Cell>, d: nat)
    requires Filled(cache, cells, d, |cells|)
    ensures CacheHolds(cache, cells, d)
  {
    forall e, j: nat, i: nat | 0 <= e < |cells| && cells[e].owned && j < d && i < d
      ensures FlatIndex(OwnedCount(cells[..e]), j, i, d) < |cache|
      ensures cache[FlatIndex(OwnedCount(cells[..e]), j, i, d)] == GradIntegral(CellBasis(cells[e]), i, j)
    {
      assert BlockFilled(cache, CellBasis(cells[e]), OwnedCount(cells[..e]), d, d, 0);
    }
  }

  /** The quadrature loop: sum over q of (grad phi_i . grad phi_j) JxW. */
  method IntegrateGradients(cell: Basis, i: nat, j: nat) returns (value: real)
    ensures value == GradIntegral(cell, i, j)
  {
    value := 0.0;
    var q := 0;
    while q < NumPoints(cell)
      invariant q <= NumPoints(cell)
      invariant value == SumTo(q, GradIntegrand(cell, i, j))
    {
      value := value + Dot3(Grad(cell, i, q), Grad(cell, j, q)) * JxW(cell, q);
      q := q + 1;
    }
  }

  /** The inner loop over i for one j of the block of the owned cell at e,
      whose ordinal among the owned cells is k. */
  method FillRow(cache: seq<real>, cells: seq<Cell>, d: nat, e: nat, k: nat, j: nat) returns (r: seq<real>)
    requires e < |cells| && cells[e].owned && k == OwnedCount(cells[..e]) && j < d
    requires |cache| == OwnedCount(cells) * d * d
    requires Filled(cache, cells, d, e)
    requires BlockFilled(cache, CellBasis(cells[e]), k, d, j, 0)
    ensures |r| == |cache|
    ensures Filled(r, cells, d, e)
    ensures BlockFilled(r, CellBasis(cells[e]), k, d, j + 1, 0)
  {
    var cell := CellBasis(cells[e]);
    OwnedCountBefore(cells, e, |cells|);
    assert cells[..|cells|] == cells;
    r := cache;
    var i := 0;
    while i < d
      invariant i <= d && |r| == |cache|
      invariant Filled(r, cells, d, e)
      invariant BlockFilled(r, cell, k, d, j, i)
    {
      var value := IntegrateGradients(cell, i, j);
      FlatIndexBelow(k, j, i, d, OwnedCount(cells));
      WriteKeepsFilled(r, cells, d, e, j, i, value);
      WriteKeepsBlock(r, cell, k, d, j, i, k, j, i, value);
      r := r[FlatIndex(k, j, i, d) := value];
      i := i + 1;
    }
  }

  /** The loops over j and i for the owned cell at e. */
  method FillBlock(cache: seq<real>, cells: seq<Cell>, d: nat, e: nat, k: nat) returns (r: seq<real>)
    requires e < |cells| && cells[e].owned && k == OwnedCount(cells[..e])
    requires |cache| == OwnedCount(cells) * d * d
    requires Filled(cache, cells, d, e)
    ensures |r| == |cache|
    ensures Filled(r, cells, d, e)
    ensures BlockFilled(r, CellBasis(cells[e]), k, d, d, 0)
  {
    r := cache;
    var j := 0;
    while j < d
      invariant j <= d && |r| == |cache|
      invariant Filled(r, cells, d, e)
      invariant BlockFilled(r, CellBasis(cells[e]), k, d, j, 0)
    {
      r := FillRow(r, cells, d, e, k, j);
      j := j + 1;
    }
  }

  /** precomputeShapeFunctionGradientIntegral: a zeroed array of one block
      per owned cell, then for every owned cell, in order, the integral for (i, j)
      written at iElem * d * d + j * d + i, iElem counting owned cells only. */
  method PrecomputeShapeGradIntegral(cells: seq<Cell>, d: nat) returns (cache: seq<real>)
    ensures |cache| == OwnedCount(cells) * d * d
    ensures CacheHolds(cache, cells, d)
  {
    cache := seq(OwnedCount(cells) * d * d, _ => 0.0);
    var e := 0;
    var k := 0;
    while e < |cells|
      invariant e <= |cells| && |cache| == OwnedCount(cells) * d * d
      invariant k == OwnedCount(cells[..e])
      invariant Filled(cache, cells, d, e)
    {
      if cells[e].owned {
        cache := FillBlock(cache, cells, d, e, k);
      }
      FilledStep(cache, cells, d, e);
      OwnedCountStep(cells, e);
      k := k + (if cells[e].owned then 1 else 0);
      e := e + 1;
    }
    FilledHolds(cache, cells, d);
  }
}

=== FILE: jacobi.dfy ===
/** The Jacobi preconditioner shared by the Poisson and Kerker problems:
    the last step of computeDiagonalA inverts the assembled diagonal at the
    unconstrained DoFs only, and precondition_Jacobi scales its input
    entry-wise by that vector. */
module Jacobi {
  import opened Vectors
  import opened Constraints
  import opened Options

  /** The assembled diagonal has no zero at an unconstrained DoF. The source
      divides there unguarded; a zero would produce inf or NaN. */
  predicate Invertible(c: ConstraintSet, d: Vec)
  {
    forall i :: 0 <= i < |d| && i !in c ==> d[i] != 0.0
  }

  /** The inverted diagonal: reciprocals at unconstrained DoFs, the assembled
      value kept at constrained ones. */
  function Reciprocals(c: ConstraintSet, d: Vec): (r: Vec)
    requires Invertible(c, d)
    ensures |r| == |d|
    ensures forall i :: 0 <= i < |d| && i in c ==> r[i] == d[i]
    ensures forall i :: 0 <= i < |d| && i !in c ==> r[i] * d[i] == 1.0
  {
    seq(|d|, i requires 0 <= i < |d| => if i in c then d[i] else 1.0 / d[i])
  }

  /** The inversion step of computeDiagonalA on an assembled diagonal d:
      None when an unconstrained entry is zero (the source would divide by
      zero there), otherwise the reciprocals. */
  function InvertedDiagonal(c: ConstraintSet, d: Vec): (r: Option<Vec>)
    ensures r.Some? <==> Invertible(c, d)
    ensures r.Some? ==> |r.value| == |d|
    ensures r.Some? ==> forall i :: 0 <= i < |d| && i in c ==> r.value[i] == d[i]
    ensures r.Some? ==> forall i :: 0 <= i < |d| && i !in c ==> r.value[i] * d[i] == 1.0
  {
    if Invertible(c, d) then Some(Reciprocals(c, d)) else None
  }

  /** Inverting twice gives back the assembled diagonal. */
  lemma ReciprocalsInvolution(c: ConstraintSet, d: Vec)
    requires Invertible(c, d)
    ensures Invertible(c, Reciprocals(c, d))
    ensures Reciprocals(c, Reciprocals(c, d)) == d
  {
    var r := Reciprocals(c, d);
    forall i | 0 <= i < |d| && i !in c
      ensures r[i] != 0.0
    {
      assert r[i] * d[i] == 1.0;
    }
    var rr := Reciprocals(c, r);
    forall i | 0 <= i < |d|
      ensures rr[i] == d[i]
    {
      if i !in c {
        assert rr[i] * r[i] == 1.0;
        assert d[i] * r[i] == 1.0;
        Cancel(rr[i], d[i], r[i]);
      }
    }
  }

  lemma Cancel(a: real, b: real, x: real)
    requires a * x == 1.0 && b * x == 1.0
    ensures a == b
  {
    assert a == a * (b * x);
    assert b == b * (a * x);
  }

  /** The inversion loop of computeDiagonalA, over i in [0, n), every index
      being locally owned on one rank. */
  method InvertDiagonal(c: ConstraintSet, d: Vec) returns (r: Vec)
    requires Invertible(c, d)
    ensures r == Reciprocals(c, d)
    ensures forall i :: 0 <= i < |d| && i !in c ==> r[i] != 0.0
  {
    r := d;
    var i := 0;
    while i < |d|
      invariant 0 <= i <= |d|
      invariant |r| == |d|
      invariant forall k :: 0 <= k < i ==> r[k] == Reciprocals(c, d)[k]
      invariant forall k :: i <= k < |d| ==> r[k] == d[k]
    {
      if i !in c {
        r := r[i := 1.0 / r[i]];
      }
      i := i + 1;
    }
    forall k | 0 <= k < |d| && k !in c
      ensures r[k] != 0.0
    {
      assert r[k] * d[k] == 1.0;
    }
  }

  /** precondition_Jacobi: dst = src scaled entry-wise by the inverted
      diagonal; the relaxation factor omega is accepted and ignored. */
  function PreconditionJacobi(src: Vec, inv: Vec, omega: real): (dst: Vec)
    requires |src| == |inv|
    ensures |dst| == |src|
    ensures forall i :: 0 <= i < |src| ==> dst[i] == src[i] * inv[i]
  {
    seq(|src|, i requires 0 <= i < |src| => src[i] * inv[i])
  }

  /** The preconditioner does not depend on omega. */
  lemma PreconditionIgnoresOmega(src: Vec, inv: Vec, omega: real, omega': real)
    requires |src| == |inv|
    ensures PreconditionJacobi(src, inv, omega) == PreconditionJacobi(src, inv, omega')
  {
  }

  /** Preconditioning the assembled diagonal with its inversion gives one at
      every unconstrained DoF; and when the assembled diagonal is zero on the
      constrained rows (assembly never writes them), the inversion is zero
      there and so is any preconditioned vector. */
  lemma PreconditionerInvertsDiagonal(c: ConstraintSet, d: Vec, inv: Vec, src: Vec, omega: real)
    requires InvertedDiagonal(c, d) == Some(inv)
    requires |src| == |d|
    ensures forall i :: 0 <= i < |d| && i !in c ==> inv[i] * d[i] == 1.0
    ensures forall i :: 0 <= i < |d| && i !in c ==> PreconditionJacobi(d, inv, omega)[i] == 1.0
    ensures forall i :: 0 <= i < |d| && i in c && d[i] == 0.0 ==>
      inv[i] == 0.0 && PreconditionJacobi(src, inv, omega)[i] == 0.0
  {
  }
}

=== FILE: kerker.dfy ===
/** kerkerSolverProblem: the screened Poisson problem
      -Laplace x + 4 pi gamma x = div(grad residual)
    of Kerker mixing, solved matrix-free with a Jacobi preconditioner and
    homogeneous hanging-node/periodic constraints. init binds the mesh, the
    constraints and gamma, lays out and zeroes the caller's vector and
    computes the inverted diagonal once; only reinit binds the solution
    vector and the residual gradients at the quadrature points. */
module Kerker {
  import opened Options
  import opened Vectors
  import opened Constraints
  import opened Quadrature
  import opened Assembly
  import opened Jacobi
  import opened Operator

  /** The residual gradient values of every cell, keyed by cell: three
      components per quadrature point. Cells are identified by their
      position in the active-cell sequence. */
  type ResidualValues = map<nat, Vec>

  /** The state after init and reinit: the bound constraints, mesh cells
      and mixing parameter, the inverted diagonal computed by init, and the
      solution vector and residual values, which stay unbound (None) until
      reinit binds them. */
  datatype Problem = Problem(
    c: ConstraintSet,
    cells: seq<Cell>,
    gamma: real,
    diagonal: Vec,
    x: Option<Vec>,
    residual: Option<ResidualValues>)

  /** The constraints and the cells fit the layout of the diagonal, and so
      does the solution vector once it is bound. */
  predicate Wf(p: Problem)
  {
    Closed(p.c, |p.diagonal|) && DofsBelow(p.cells, |p.diagonal|) &&
    (p.x.Some? ==> |p.x.value| == |p.diagonal|)
  }

  /** reinit has bound the solution vector and the residual values. */
  predicate Bound(p: Problem)
  {
    p.x.Some? && p.residual.Some?
  }

  // ---------------------------------------------------------------------
  // init and the diagonal

  /** The assembled diagonal before inversion: sum over q of
      (|grad phi_i|^2 + 4 pi gamma phi_i^2) JxW over the owned cells. */
  function AssembledDiagonal(c: ConstraintSet, cells: seq<Cell>, n: nat, gamma: real): (a: Vec)
    requires Closed(c, n) && DofsBelow(cells, n)
    ensures |a| == n
    ensures forall i :: 0 <= i < n && i in c ==> a[i] == 0.0
  {
    AssembleOwnedRows(c, cells, KerkerDiagonalVectors(cells, gamma), Zeros(n));
    AssembleOwned(c, cells, KerkerDiagonalVectors(cells, gamma), Zeros(n))
  }

  /** A problem after init, with the caller's vector as initialize_dof_vector
      leaves it. */
  datatype Setup = Ready(p: Problem, x: Vec) | SingularDiagonal

  /** init: bind the constraints, the cells and gamma; initialize_dof_vector
      lays out and zeroes the caller's vector without binding it;
      computeDiagonalA assembles and inverts the diagonal. SingularDiagonal
      stands for a zero assembled entry at an unconstrained DoF, where the
      source divides by zero. */
  function Init(c: ConstraintSet, cells: seq<Cell>, n: nat, gamma: real): (r: Setup)
    requires Closed(c, n) && DofsBelow(cells, n)
    ensures r.Ready? <==> Invertible(c, AssembledDiagonal(c, cells, n, gamma))
    ensures r.Ready? ==> Wf(r.p) && r.p.c == c && r.p.cells == cells && r.p.gamma == gamma
    ensures r.Ready? ==> r.p.x.None? && r.p.residual.None? && |r.p.diagonal| == n
    ensures r.Ready? ==> |r.x| == n && forall i :: 0 <= i < n ==> r.x[i] == 0.0
    ensures r.Ready? ==> forall i :: 0 <= i < n && i !in c ==>
      r.p.diagonal[i] * AssembledDiagonal(c, cells, n, gamma)[i] == 1.0
    ensures r.Ready? ==> forall i :: 0 <= i < n && i in c ==> r.p.diagonal[i] == 0.0
  {
    match InvertedDiagonal(c, AssembledDiagonal(c, cells, n, gamma))
    case None => SingularDiagonal
    case Some(d) => Ready(Problem(c, cells, gamma, d, None, None), Zeros(n))
  }

  /** With non-negative quadrature weights and gamma >= 0, every inverted
      diagonal entry at an unconstrained DoF that is a master of nothing is
      positive: the Jacobi preconditioner is positive there. */
  lemma InitDiagonalPositive(c: ConstraintSet, cells: seq<Cell>, n: nat, gamma: real, i: nat)
    requires Closed(c, n) && DofsBelow(cells, n)
    requires NonNegativeWeights(cells) && gamma >= 0.0
    requires Init(c, cells, n, gamma).Ready?
    requires i < n && i !in c && NotAMaster(c, i)
    ensures Init(c, cells, n, gamma).p.diagonal[i] > 0.0
  {
    var a := AssembledDiagonal(c, cells, n, gamma);
    var d := Init(c, cells, n, gamma).p.diagonal;
    AssembledDiagonalsSign(c, cells, gamma, n, i);
    assert a[i] >= 0.0 && a[i] != 0.0;
    assert d[i] * a[i] == 1.0;
    ReciprocalSign(d[i], a[i]);
  }

  lemma ReciprocalSign(x: real, a: real)
    requires a > 0.0 && x * a == 1.0
    ensures x > 0.0
  {
  }

  /** reinit: rebind the solution vector and the residual values; the
      constraints, the cells, gamma and the diagonal computed by init stay
      as they were. */
  function Reinit(p: Problem, x: Vec, residual: ResidualValues): (r: Problem)
    requires Wf(p) && |x| == |p.diagonal|
    ensures Wf(r) && Bound(r)
    ensures r.x == Some(x) && r.residual == Some(residual)
    ensures r.c == p.c && r.cells == p.cells && r.gamma == p.gamma && r.diagonal == p.diagonal
  {
    p.(x := Some(x), residual := Some(residual))
  }

  // ---------------------------------------------------------------------
  // precondition_Jacobi

  /** precondition_Jacobi: src scaled entry-wise by the stored diagonal. */
  function Precondition(p: Problem, src: Vec, omega: real): (dst: Vec)
    requires Wf(p) && |src| == |p.diagonal|
    ensures |dst| == |src|
    ensures forall i :: 0 <= i < |src| ==> dst[i] == src[i] * p.diagonal[i]
  {
    PreconditionJacobi(src, p.diagonal, omega)
  }

  /** After init, preconditioning the assembled diagonal gives one at every
      unconstrained DoF, and every preconditioned vector is zero at the
      constrained DoFs; reinit keeps both. */
  lemma PreconditionInvertsDiagonal(c: ConstraintSet, cells: seq<Cell>, n: nat, gamma: real,
                                    x: Vec, residual: ResidualValues, src: Vec, omega: real)
    requires Closed(c, n) && DofsBelow(cells, n)
    requires Init(c, cells, n, gamma).Ready?
    requires |x| == n && |src| == n
    ensures forall i :: 0 <= i < n && i !in c ==>
      Precondition(Reinit(Init(c, cells, n, gamma).p, x, residual), AssembledDiagonal(c, cells, n, gamma), omega)[i] == 1.0
    ensures forall i :: 0 <= i < n && i in c ==>
      Precondition(Reinit(Init(c, cells, n, gamma).p, x, residual), src, omega)[i] == 0.0
  {
    var a := AssembledDiagonal(c, cells, n, gamma);
    var p := Reinit(Init(c, cells, n, gamma).p, x, residual);
    PreconditionerInvertsDiagonal(c, a, p.diagonal, src, omega);
  }

  // ---------------------------------------------------------------------
  // distributeX

  /** distributeX: ConstraintMatrix::distribute on the bound vector. */
  function DistributeX(p: Problem): (r: Vec)
    requires Wf(p) && p.x.Some?
    ensures |r| == |p.x.value|
    ensures forall i :: 0 <= i < |r| && i !in p.c ==> r[i] == p.x.value[i]
    ensures Satisfied(p.c, r)
  {
    Constraints.Distribute(p.c, p.x.value)
  }

  /** Distributing an already distributed vector changes nothing. */
  lemma DistributeXIdempotent(p: Problem)
    requires Wf(p) && p.x.Some?
    ensures DistributeX(p.(x := Some(DistributeX(p)))) == DistributeX(p)
  {
    DistributeFixesSatisfied(p.c, DistributeX(p));
  }

  // ---------------------------------------------------------------------
  // computeRhs

  /** Every owned cell has residual values, three per quadrature point. The
      source looks each owned cell up with find and dereferences the result
      unchecked, then reads three values per point. */
  predicate Covered(cells: seq<Cell>, residual: ResidualValues)
  {
    forall e :: 0 <= e < |cells| && cells[e].owned ==>
      e in residual && |residual[e]| >= 3 * |cells[e].points|
  }

  /** The elemental right-hand side of every cell: grad phi_i integrated
      against the residual gradient, for the owned cells that have values. */
  function ResidualVectors(cells: seq<Cell>, residual: ResidualValues): (r: seq<Vec>)
    ensures |r| == |cells|
    ensures forall e :: 0 <= e < |cells| ==> |r[e]| == |cells[e].dofs|
  {
    seq(|cells|, e requires 0 <= e < |cells| =>
      ResidualGradientRhs(CellBasis(cells[e]), if e in residual then residual[e] else [], |cells[e].dofs|))
  }

  lemma ResidualVectorAt(cells: seq<Cell>, residual: ResidualValues, e: nat)
    requires e < |cells| && e in residual
    ensures ResidualVectors(cells, residual)[e] == ResidualGradientRhs(CellBasis(cells[e]), residual[e], |cells[e].dofs|)
  {
  }

  /** computeRhs: a zero vector laid out like x, every owned cell's
      elemental vector distributed into it, then set_zero. None stands for
      an owned cell without enough residual values. */
  function Rhs(p: Problem): (r: Option<Vec>)
    requires Wf(p) && Bound(p)
    ensures r.Some? <==> Covered(p.cells, p.residual.value)
    ensures r.Some? ==> |r.value| == |p.x.value|
    ensures r.Some? ==> forall i :: 0 <= i < |p.x.value| && i in p.c ==> r.value[i] == 0.0
    ensures r.Some? ==> forall i :: 0 <= i < |p.x.value| && i !in p.c && NotAMaster(p.c, i) ==>
      r.value[i] == SumTo(|p.cells|, Contribution(p.cells, ResidualVectors(p.cells, p.residual.value), i))
  {
    if !Covered(p.cells, p.residual.value) then None
    else
      var elems := ResidualVectors(p.cells, p.residual.value);
      AssembleOwnedRows(p.c, p.cells, elems, Zeros(|p.x.value|));
      Some(Constraints.SetZero(p.c, AssembleOwned(p.c, p.cells, elems, Zeros(|p.x.value|))))
  }

  /** The right-hand side is the weak form of the residual gradient: paired
      with any y that vanishes on the constrained rows it is the sum over
      owned cells of the elemental vector paired with the values read from y. */
  lemma RhsPairing(p: Problem, y: Vec)
    requires Wf(p) && Bound(p) && Covered(p.cells, p.residual.value) && |y| == |p.x.value|
    requires forall i :: 0 <= i < |y| && i in p.c ==> y[i] == 0.0
    ensures Dot(Rhs(p).value, y) == SumTo(|p.cells|, Pairing(p.c, p.cells, ResidualVectors(p.cells, p.residual.value), y))
  {
    var elems := ResidualVectors(p.cells, p.residual.value);
    var z := Zeros(|p.x.value|);
    var assembled := AssembleOwned(p.c, p.cells, elems, z);
    DotSetZero(p.c, assembled, y);
    AssembleOwnedAdjoint(p.c, p.cells, elems, z, y);
    DotZeroRight(y, z);
    DotSymmetric(y, z);
  }

  /** The lookups of the cell loop of computeRhs: does every owned cell
      find enough residual values? */
  method CheckCovered(cells: seq<Cell>, residual: ResidualValues) returns (ok: bool)
    ensures ok <==> Covered(cells, residual)
  {
    var e := 0;
    while e < |cells|
      invariant e <= |cells|
      invariant forall k :: 0 <= k < e && cells[k].owned ==>
        k in residual && |residual[k]| >= 3 * |cells[k].points|
    {
      if cells[e].owned && (e !in residual || |residual[e]| < 3 * |cells[e].points|) {
        return false;
      }
      e := e + 1;
    }
    return true;
  }

  /** The cell loop of computeRhs once every lookup succeeds: each owned
      cell's elemental vector distributed into a zero vector. */
  method AssembleResidual(p: Problem) returns (rhs: Vec)
    requires Wf(p) && Bound(p) && Covered(p.cells, p.residual.value)
    ensures rhs == AssembleOwned(p.c, p.cells, ResidualVectors(p.cells, p.residual.value), Zeros(|p.x.value|))
  {
    var residual := p.residual.value;
    var n := |p.x.value|;
    ghost var elems := ResidualVectors(p.cells, residual);
    assert Fits(p.cells, elems, n);
    rhs := Zeros(n);
    var e := 0;
    while e < |p.cells|
      invariant e <= |p.cells| && |rhs| == n
      invariant rhs == AssembleOwned(p.c, p.cells[..e], elems[..e], Zeros(n))
    {
      AssembleOwnedStep(p.c, p.cells, elems, Zeros(n), e);
      if p.cells[e].owned {
        var elem := ResidualGradientRhs(CellBasis(p.cells[e]), residual[e], |p.cells[e].dofs|);
        ResidualVectorAt(p.cells, residual, e);
        rhs := DistributeLocalToGlobal(p.c, elem, p.cells[e].dofs, rhs);
      }
      e := e + 1;
    }
    assert p.cells[..e] == p.cells && elems[..e] == elems;
  }

  /** computeRhs: the cell loop, then set_zero. The source looks up the
      values of every owned cell without checking that the entry exists or
      holds three values per point, which is undefined when it does not;
      here the lookups are checked first and such a map gives None. */
  method ComputeRhs(p: Problem) returns (r: Option<Vec>)
    requires Wf(p) && Bound(p)
    ensures r == Rhs(p)
  {
    var ok := CheckCovered(p.cells, p.residual.value);
    if !ok {
      return None;
    }
    var assembled := AssembleResidual(p);
    r := Some(Constraints.SetZero(p.c, assembled));
  }

  // ---------------------------------------------------------------------
  // vmult

  /** vmult: Ax = 0, then the cell loop of the Kerker kernel: gradient
      submitted unscaled, value submitted times 4 pi gamma. */
  function Vmult(p: Problem, x: Vec): (r: Vec)
    requires Wf(p) && |x| == |p.diagonal|
    ensures |r| == |x|
    ensures forall i :: 0 <= i < |x| && i in p.c ==> r[i] == 0.0
  {
    CellLoop(p.c, p.cells, KerkerShape(p.gamma), x)
  }

  /** The Kerker operator is self-adjoint, as conjugate gradients needs. */
  lemma VmultSelfAdjoint(p: Problem, x: Vec, y: Vec)
    requires Wf(p) && |x| == |p.diagonal| && |y| == |p.diagonal|
    ensures Dot(Vmult(p, x), y) == Dot(x, Vmult(p, y))
  {
    CellLoopSelfAdjoint(p.c, p.cells, KerkerShape(p.gamma), x, y);
  }

  /** With non-negative quadrature weights and gamma >= 0 the Kerker
      operator is positive semi-definite: x . Ax is the integral of
      |grad x_h|^2 + 4 pi gamma x_h^2. */
  lemma VmultNonNegative(p: Problem, x: Vec)
    requires Wf(p) && |x| == |p.diagonal| && NonNegativeWeights(p.cells) && p.gamma >= 0.0
    ensures Dot(Vmult(p, x), x) >= 0.0
  {
    assert KerkerShape(p.gamma).massScale >= 0.0;
    CellLoopNonNegative(p.c, p.cells, KerkerShape(p.gamma), x);
  }

  /** At a DoF that is neither constrained nor a master (on a mesh whose
      cells list each DoF once), vmult applied to the DoF's unit vector
      returns the entry computeDiagonalA assembles there, so the diagonal
      init stores is the reciprocal of the operator's own diagonal entry. */
  lemma VmultUnitDiagonal(p: Problem, i: nat)
    requires Wf(p) && DistinctCellDofs(p.cells)
    requires i < |p.diagonal| && i !in p.c && NotAMaster(p.c, i)
    ensures Vmult(p, Unit(|p.diagonal|, i))[i] == AssembledDiagonal(p.c, p.cells, |p.diagonal|, p.gamma)[i]
    ensures Init(p.c, p.cells, |p.diagonal|, p.gamma).Ready? ==>
      Init(p.c, p.cells, |p.diagonal|, p.gamma).p.diagonal[i] * Vmult(p, Unit(|p.diagonal|, i))[i] == 1.0
  {
    CellLoopUnitDiagonal(p.c, p.cells, p.gamma, |p.diagonal|, i);
  }
}

=== FILE: mean_value.dfy ===
/** The mean-value constraint of the periodic Poisson problem: one anchor
    DoF o, untouched by every other constraint and every point charge, is
    pinned to u[o] = w . u, where w is the vector of basis-function
    integrals scaled by -1/w[o] and with w[o] = 0. This removes the constant
    null space of a fully periodic Laplacian: the constrained solutions are
    exactly those with zero mean. */
module MeanValue {
  import opened Vectors
  import opened Constraints
  import opened Quadrature
  import opened Assembly

  /** A point charge sitting on a finite-element node: one entry of the
      `atoms` map, which is iterated in increasing DoF order. */
  datatype Atom = Atom(dof: nat, charge: real)

  predicate IsAtomDof(atoms: seq<Atom>, i: nat)
  {
    exists k :: 0 <= k < |atoms| && atoms[k].dof == i
  }

  /** The anchor and its weight vector. */
  datatype MeanValueConstraint = MeanValueConstraint(anchor: nat, w: Vec)

  /** The anchor lies in range and carries no weight of its own. */
  predicate Valid(m: MeanValueConstraint, n: nat)
  {
    m.anchor < n && |m.w| == n && m.w[m.anchor] == 0.0
  }

  /** A weight vector that is zero at o does not see the entry at o. */
  lemma DotIgnoresZeroWeight(w: Vec, v: Vec, o: nat, x: real)
    requires o < |w| == |v| && w[o] == 0.0
    ensures Dot(w, v[o := x]) == Dot(w, v)
  {
    SumExt(|w|, DotTerm(w, v[o := x]), DotTerm(w, v));
  }

  /** meanValueConstraintDistribute: only the anchor entry changes, and it
      is set so that the relation u[o] = w . u holds afterwards. */
  function Distribute(m: MeanValueConstraint, v: Vec): (r: Vec)
    requires Valid(m, |v|)
    ensures |r| == |v|
    ensures forall i :: 0 <= i < |v| && i != m.anchor ==> r[i] == v[i]
    ensures r[m.anchor] == Dot(m.w, r)
  {
    DotIgnoresZeroWeight(m.w, v, m.anchor, Dot(m.w, v));
    v[m.anchor := Dot(m.w, v)]
  }

  /** Since w[o] = 0, the result does not depend on the old anchor value. */
  lemma DistributeIgnoresAnchor(m: MeanValueConstraint, v: Vec, x: real)
    requires Valid(m, |v|)
    ensures Distribute(m, v[m.anchor := x]) == Distribute(m, v)
  {
    DotIgnoresZeroWeight(m.w, v, m.anchor, x);
  }

  lemma DistributeIdempotent(m: MeanValueConstraint, v: Vec)
    requires Valid(m, |v|)
    ensures Distribute(m, Distribute(m, v)) == Distribute(m, v)
  {
    DistributeIgnoresAnchor(m, v, Dot(m.w, v));
  }

  /** meanValueConstraintSetZero (with the flag set): zero the anchor. */
  function SetZero(m: MeanValueConstraint, v: Vec): (r: Vec)
    requires m.anchor < |v|
    ensures |r| == |v|
    ensures r[m.anchor] == 0.0
    ensures forall i :: 0 <= i < |v| && i != m.anchor ==> r[i] == v[i]
  {
    v[m.anchor := 0.0]
  }

  /** meanValueConstraintDistributeSlaveToMaster: hand the anchor's value to
      every other DoF in proportion to w, then zero the anchor. */
  function SlaveToMaster(m: MeanValueConstraint, v: Vec): (r: Vec)
    requires Valid(m, |v|)
    ensures |r| == |v|
    ensures r[m.anchor] == 0.0
    ensures forall i :: 0 <= i < |v| && i != m.anchor ==> r[i] == v[i] + v[m.anchor] * m.w[i]
  {
    SetZero(m, Add(v, Scale(v[m.anchor], m.w)))
  }

  lemma SlaveToMasterIdempotent(m: MeanValueConstraint, v: Vec)
    requires Valid(m, |v|)
    ensures SlaveToMaster(m, SlaveToMaster(m, v)) == SlaveToMaster(m, v)
  {
  }

  /** u_i v_i away from the anchor, 0 at it. */
  function OffAnchorTerm(a: Vec, b: Vec, o: nat): nat -> real
  {
    (i: nat) => if i == o then 0.0 else DotTerm(a, b)(i)
  }

  /** Dot(a, b) splits into its off-anchor part and the anchor term. */
  lemma DotSplitAtAnchor(a: Vec, b: Vec, o: nat)
    requires o < |a| == |b|
    ensures Dot(a, b) == SumTo(|a|, OffAnchorTerm(a, b, o)) + a[o] * b[o]
  {
    SumPoint(|a|, o, PointTerm(o, a[o] * b[o]));
    SumAdd(|a|, OffAnchorTerm(a, b, o), PointTerm(o, a[o] * b[o]), DotTerm(a, b));
  }

  /** One term of the inner product of SlaveToMaster(m, v) with u: the
      off-anchor part of v . u plus v[o] times the weighted term of u. */
  lemma SlaveToMasterTermAt(m: MeanValueConstraint, v: Vec, u: Vec, i: nat)
    requires Valid(m, |v|) && |u| == |v| && i < |v|
    ensures DotTerm(SlaveToMaster(m, v), u)(i) ==
      OffAnchorTerm(v, u, m.anchor)(i) + ScaledTerm(v[m.anchor], DotTerm(m.w, u))(i)
  {
    var o := m.anchor;
    var s := SlaveToMaster(m, v);
    var vo := v[o];
    assert DotTerm(s, u)(i) == s[i] * u[i];
    assert ScaledTerm(vo, DotTerm(m.w, u))(i) == vo * (m.w[i] * u[i]);
    if i != o {
      assert OffAnchorTerm(v, u, o)(i) == DotTerm(v, u)(i) == v[i] * u[i];
      Distributes(v[i], vo, m.w[i], u[i]);
    } else {
      assert m.w[i] == 0.0 && s[i] == 0.0;
      ZeroProducts(vo, u[i]);
    }
  }

  /** Distribute changes only the anchor, which the off-anchor part skips. */
  lemma OffAnchorOfDistribute(m: MeanValueConstraint, v: Vec, u: Vec)
    requires Valid(m, |v|) && |u| == |v|
    ensures SumTo(|v|, OffAnchorTerm(v, Distribute(m, u), m.anchor)) == SumTo(|v|, OffAnchorTerm(v, u, m.anchor))
  {
    var d := Distribute(m, u);
    forall i: nat | i < |v|
      ensures OffAnchorTerm(v, d, m.anchor)(i) == OffAnchorTerm(v, u, m.anchor)(i)
    {
      if i != m.anchor {
        assert OffAnchorTerm(v, d, m.anchor)(i) == DotTerm(v, d)(i) == v[i] * d[i];
        assert OffAnchorTerm(v, u, m.anchor)(i) == DotTerm(v, u)(i) == v[i] * u[i];
        TimesEqual(v[i], d[i], u[i]);
      }
    }
    SumExt(|v|, OffAnchorTerm(v, d, m.anchor), OffAnchorTerm(v, u, m.anchor));
  }

  lemma TimesEqual(a: real, b: real, c: real)
    requires b == c
    ensures a * b == a * c
  {
  }

  /** SlaveToMaster(m, v) . u is the off-anchor part of v . u plus the
      terms of w . u scaled by v[o]. */
  lemma DotSlaveToMaster(m: MeanValueConstraint, v: Vec, u: Vec)
    requires Valid(m, |v|) && |u| == |v|
    ensures Dot(SlaveToMaster(m, v), u) ==
      SumTo(|v|, OffAnchorTerm(v, u, m.anchor)) + SumTo(|v|, ScaledTerm(v[m.anchor], DotTerm(m.w, u)))
  {
    var o := m.anchor;
    var wu := DotTerm(m.w, u);
    forall i: nat | i < |v|
      ensures DotTerm(SlaveToMaster(m, v), u)(i) == OffAnchorTerm(v, u, o)(i) + ScaledTerm(v[o], wu)(i)
    {
      SlaveToMasterTermAt(m, v, u, i);
    }
    SumAdd(|v|, OffAnchorTerm(v, u, o), ScaledTerm(v[o], wu), DotTerm(SlaveToMaster(m, v), u));
  }

  /** v . Distribute(m, u) is the same off-anchor part plus v[o] times
      w . u. */
  lemma DotDistribute(m: MeanValueConstraint, v: Vec, u: Vec)
    requires Valid(m, |v|) && |u| == |v|
    ensures Dot(v, Distribute(m, u)) ==
      SumTo(|v|, OffAnchorTerm(v, u, m.anchor)) + v[m.anchor] * SumTo(|v|, DotTerm(m.w, u))
  {
    var d := Distribute(m, u);
    DotSplitAtAnchor(v, d, m.anchor);
    OffAnchorOfDistribute(m, v, u);
    TimesEqual(v[m.anchor], d[m.anchor], SumTo(|v|, DotTerm(m.w, u)));
  }

  /** The two projections are adjoint: moving SlaveToMaster across the inner
      product turns it into Distribute. This is what keeps the projected
      operator of vmult symmetric. */
  lemma SlaveToMasterAdjoint(m: MeanValueConstraint, v: Vec, u: Vec)
    requires Valid(m, |v|) && |u| == |v|
    ensures Dot(SlaveToMaster(m, v), u) == Dot(v, Distribute(m, u))
  {
    DotSlaveToMaster(m, v, u);
    DotDistribute(m, v, u);
    SumScale(|v|, v[m.anchor], DotTerm(m.w, u), ScaledTerm(v[m.anchor], DotTerm(m.w, u)));
  }

  /** The unscaled weights w scaled by -1/w[o] (deal.II divides by
      multiplying with the reciprocal), with the anchor entry zeroed: the
      last two steps of computeMeanValueConstraint. */
  function Normalise(w: Vec, o: nat): (r: Vec)
    requires o < |w| && w[o] != 0.0
    ensures |r| == |w|
    ensures r[o] == 0.0
    ensures forall i :: 0 <= i < |w| && i != o ==> r[i] == (1.0 / (-w[o])) * w[i]
  {
    Scale(1.0 / (-w[o]), w)[o := 0.0]
  }

  /** One term of DotScaledOffAnchor. */
  lemma ScaledOffAnchorAt(w: Vec, nw: Vec, o: nat, u: Vec, c: real, i: nat)
    requires o < |w| && |w| == |u| == |nw| && i < |w|
    requires i == o ==> nw[i] == 0.0
    requires i != o ==> nw[i] == c * w[i]
    ensures DotTerm(nw, u)(i) == ScaledTerm(c, OffAnchorTerm(w, u, o))(i)
  {
    var off := OffAnchorTerm(w, u, o);
    assert DotTerm(nw, u)(i) == nw[i] * u[i];
    assert ScaledTerm(c, off)(i) == c * off(i);
    if i != o {
      assert off(i) == DotTerm(w, u)(i) == w[i] * u[i];
      Associates(c, w[i], u[i]);
    } else {
      assert off(i) == 0.0;
    }
  }

  /** A vector that is c w away from o and 0 at o has inner product with u
      equal to c times the off-anchor part of w . u. */
  lemma DotScaledOffAnchor(w: Vec, nw: Vec, o: nat, u: Vec, c: real)
    requires o < |w| && |w| == |u| == |nw|
    requires nw[o] == 0.0
    requires forall i :: 0 <= i < |w| && i != o ==> nw[i] == c * w[i]
    ensures Dot(nw, u) == c * SumTo(|w|, OffAnchorTerm(w, u, o))
  {
    var off := OffAnchorTerm(w, u, o);
    forall i: nat | i < |w|
      ensures DotTerm(nw, u)(i) == ScaledTerm(c, off)(i)
    {
      ScaledOffAnchorAt(w, nw, o, u, c, i);
    }
    SumExt(|w|, DotTerm(nw, u), ScaledTerm(c, off));
    SumScale(|w|, c, off, ScaledTerm(c, off));
  }

  /** For any u, w . u = w[o] (u[o] - nw . u) with nw the normalised
      weights. */
  lemma NormalisedRelation(w: Vec, o: nat, u: Vec)
    requires o < |w| == |u| && w[o] != 0.0
    ensures Dot(w, u) == w[o] * (u[o] - Dot(Normalise(w, o), u))
  {
    var c := 1.0 / (-w[o]);
    DotScaledOffAnchor(w, Normalise(w, o), o, u, c);
    DotSplitAtAnchor(w, u, o);
    AnchorArithmetic(Dot(w, u), Dot(Normalise(w, o), u), SumTo(|w|, OffAnchorTerm(w, u, o)), w[o], u[o], c);
  }

  lemma Distributes(a: real, b: real, c: real, d: real)
    ensures (a + b * c) * d == a * d + b * (c * d)
  {
  }

  lemma Associates(a: real, b: real, c: real)
    ensures (a * b) * c == a * (b * c)
  {
  }

  lemma ZeroProducts(a: real, b: real)
    ensures 0.0 * b == 0.0 && a * (0.0 * b) == 0.0
  {
  }

  lemma AnchorArithmetic(dw: real, dn: real, so: real, wo: real, uo: real, c: real)
    requires wo != 0.0 && c == 1.0 / (-wo)
    requires dw == so + wo * uo
    requires dn == c * so
    ensures dw == wo * (uo - dn)
  {
    assert wo * c == -1.0;
    assert wo * dn == (wo * c) * so;
  }

  /** The relation the constraint imposes, u[o] = nw . u, holds exactly when
      u has zero mean with respect to the basis-function integrals w. */
  lemma RelationIffZeroMean(w: Vec, o: nat, u: Vec)
    requires o < |w| == |u| && w[o] != 0.0
    ensures u[o] == Dot(Normalise(w, o), u) <==> Dot(w, u) == 0.0
  {
    NormalisedRelation(w, o, u);
    var g := u[o] - Dot(Normalise(w, o), u);
    assert Dot(w, u) == w[o] * g;
    if Dot(w, u) == 0.0 {
      assert g == 0.0;
    }
  }

  /** Distributing with the normalised constraint always yields a field of
      zero mean. */
  lemma DistributeZeroesMean(w: Vec, o: nat, v: Vec)
    requires o < |w| == |v| && w[o] != 0.0
    ensures Dot(w, Distribute(MeanValueConstraint(o, Normalise(w, o)), v)) == 0.0
  {
    RelationIffZeroMean(w, o, Distribute(MeanValueConstraint(o, Normalise(w, o)), v));
  }

  // ---------------------------------------------------------------------
  // Choosing the anchor

  /** Touched by the existing constraints (as a constrained DoF or as a
      master) or by a point charge: not a candidate for the anchor. */
  predicate Touched(c: ConstraintSet, atoms: seq<Atom>, i: nat)
  {
    i in c || !NotAMaster(c, i) || IsAtomDof(atoms, i)
  }

  /** The constrained DoFs below k, and their masters. */
  predicate TouchedByLinesBelow(c: ConstraintSet, k: nat, x: nat)
  {
    exists d :: d < k && d in c && (x == d || HasMaster(c, d, x))
  }

  /** allIndicesTouchedByConstraints: every constrained DoF and its masters,
      then every atom DoF. */
  method TouchedIndices(c: ConstraintSet, atoms: seq<Atom>, n: nat) returns (t: set<nat>)
    requires Closed(c, n)
    ensures forall x :: x in t <==> Touched(c, atoms, x)
  {
    t := {};
    var i := 0;
    while i < n
      invariant 0 <= i <= n
      invariant forall x :: x in t <==> TouchedByLinesBelow(c, i, x)
    {
      if i in c {
        var es := c[i].entries;
        var before := t;
        t := t + {i};
        var k := 0;
        while k < |es|
          invariant 0 <= k <= |es|
          invariant forall x :: x in t <==> (x in before || x == i || exists j :: 0 <= j < k && es[j].master == x)
        {
          t := t + {es[k].master};
          k := k + 1;
        }
        forall x | x in t
          ensures TouchedByLinesBelow(c, i + 1, x)
        {
          if x !in before && x != i {
            assert HasMaster(c, i, x);
          }
        }
        forall x | TouchedByLinesBelow(c, i + 1, x)
          ensures x in t
        {
          var d :| d < i + 1 && d in c && (x == d || HasMaster(c, d, x));
          if d == i && x != i {
            var j :| 0 <= j < |es| && es[j].master == x;
          }
        }
      }
      i := i + 1;
    }
    var lines := t;
    var a := 0;
    while a < |atoms|
      invariant 0 <= a <= |atoms|
      invariant forall x :: x in t <==> (x in lines || exists k :: 0 <= k < a && atoms[k].dof == x)
    {
      t := t + {atoms[a].dof};
      a := a + 1;
    }
    forall x
      ensures x in lines <==> (x in c || !NotAMaster(c, x))
    {
      if x in c {
        assert TouchedByLinesBelow(c, n, x);
      }
      if !NotAMaster(c, x) {
        var d :| d in c && HasMaster(c, d, x);
        assert TouchedByLinesBelow(c, n, x);
      }
    }
  }

  datatype Choice = Anchor(o: nat) | NoCandidate

  /** o is the first locally owned index outside the touched set. */
  predicate FirstUntouched(c: ConstraintSet, atoms: seq<Atom>, n: nat, o: nat)
  {
    o < n && !Touched(c, atoms, o) && forall j :: 0 <= j < o ==> Touched(c, atoms, j)
  }

  /** There is at most one first untouched index, so the anchor is
      determined by the constraints and the atoms alone. */
  lemma FirstUntouchedUnique(c: ConstraintSet, atoms: seq<Atom>, n: nat, o: nat, o': nat)
    requires FirstUntouched(c, atoms, n, o) && FirstUntouched(c, atoms, n, o')
    ensures o == o'
  {
  }

  /** The anchor is the first locally owned index outside the touched set.
      With no such index the source dereferences the first element of an
      empty index set; the model reports NoCandidate instead. */
  method ChooseAnchor(c: ConstraintSet, atoms: seq<Atom>, n: nat) returns (r: Choice)
    requires Closed(c, n)
    ensures r.Anchor? ==> FirstUntouched(c, atoms, n, r.o)
    ensures r.Anchor? ==> r.o !in c && NotAMaster(c, r.o)
    ensures r.NoCandidate? <==> forall j :: 0 <= j < n ==> Touched(c, atoms, j)
  {
    var t := TouchedIndices(c, atoms, n);
    var i := 0;
    while i < n
      invariant 0 <= i <= n
      invariant forall j :: 0 <= j < i ==> Touched(c, atoms, j)
    {
      if i !in t {
        return Anchor(i);
      }
      i := i + 1;
    }
    return NoCandidate;
  }

  /** The result of computeMeanValueConstraint. ZeroAnchorWeight stands for
      the case where the source divides by a zero anchor weight. */
  datatype Outcome = Built(m: MeanValueConstraint) | NoAnchorCandidate | ZeroAnchorWeight

  /** The assembled basis-function integrals, w_i = integral of phi_i. */
  function AssembledWeights(c: ConstraintSet, cells: seq<Cell>, n: nat): (w: Vec)
    requires Closed(c, n)
    requires DofsBelow(cells, n)
    ensures |w| == n
    ensures forall i :: 0 <= i < n && i in c ==> w[i] == 0.0
  {
    AssembleOwnedRows(c, cells, ShapeIntegralVectors(cells), Zeros(n));
    AssembleOwned(c, cells, ShapeIntegralVectors(cells), Zeros(n))
  }

  /** The first untouched index exists and carries a zero assembled weight:
      the case where the source divides by zero. */
  predicate AnchorWeightZero(c: ConstraintSet, cells: seq<Cell>, atoms: seq<Atom>, n: nat)
    requires Closed(c, n)
    requires DofsBelow(cells, n)
  {
    exists o: nat :: o < n && FirstUntouched(c, atoms, n, o) && AssembledWeights(c, cells, n)[o] == 0.0
  }

  /** The first untouched index exists and carries a non-zero assembled
      weight: the case where a constraint is built. */
  predicate AnchorBuildable(c: ConstraintSet, cells: seq<Cell>, atoms: seq<Atom>, n: nat)
    requires Closed(c, n)
    requires DofsBelow(cells, n)
  {
    exists o: nat :: o < n && FirstUntouched(c, atoms, n, o) && AssembledWeights(c, cells, n)[o] != 0.0
  }

  /** With every owned index touched there is no first untouched one. */
  lemma NoFirstUntouched(c: ConstraintSet, atoms: seq<Atom>, n: nat)
    requires forall j :: 0 <= j < n ==> Touched(c, atoms, j)
    ensures forall o: nat :: !FirstUntouched(c, atoms, n, o)
  {
  }

  /** computeMeanValueConstraint: assemble w, choose the anchor, normalise.
      A built constraint is valid, its anchor is untouched by every other
      constraint and atom, and its weights are the assembled ones scaled by
      -1/w[o]; so every vector it distributes has zero mean. */
  method ComputeMeanValueConstraint(c: ConstraintSet, cells: seq<Cell>, atoms: seq<Atom>, n: nat) returns (r: Outcome)
    requires Closed(c, n)
    requires DofsBelow(cells, n)
    ensures r.Built? ==> Valid(r.m, n) && FirstUntouched(c, atoms, n, r.m.anchor)
    ensures r.Built? ==> AssembledWeights(c, cells, n)[r.m.anchor] != 0.0
    ensures r.Built? ==> r.m.w == Normalise(AssembledWeights(c, cells, n), r.m.anchor)
    ensures r.NoAnchorCandidate? <==> forall j :: 0 <= j < n ==> Touched(c, atoms, j)
    ensures r.ZeroAnchorWeight? <==> AnchorWeightZero(c, cells, atoms, n)
    ensures r.Built? <==> AnchorBuildable(c, cells, atoms, n)
  {
    var w := AssembledWeights(c, cells, n);
    var choice := ChooseAnchor(c, atoms, n);
    if choice.NoCandidate? {
      NoFirstUntouched(c, atoms, n);
      return NoAnchorCandidate;
    }
    var o := choice.o;
    forall o' | FirstUntouched(c, atoms, n, o')
      ensures o' == o
    {
      FirstUntouchedUnique(c, atoms, n, o, o');
    }
    if w[o] == 0.0 {
      return ZeroAnchorWeight;
    }
    return Built(MeanValueConstraint(o, Normalise(w, o)));
  }

  /** The anchor of a built constraint is unconstrained and a master of
      nothing, so its assembled weight is the sum of the owned cells' basis
      integrals at it. */
  lemma AnchorWeightIsIntegral(c: ConstraintSet, cells: seq<Cell>, atoms: seq<Atom>, n: nat, o: nat)
    requires Closed(c, n)
    requires DofsBelow(cells, n)
    requires o < n && !Touched(c, atoms, o)
    ensures AssembledWeights(c, cells, n)[o] == SumTo(|cells|, Contribution(cells, ShapeIntegralVectors(cells), o))
  {
    AssembleOwnedRows(c, cells, ShapeIntegralVectors(cells), Zeros(n));
  }
}

=== FILE: mesh_movement.dfy ===
/** meshMovementAffineTransform: moving the mesh under an affine map
    x -> F x. computeIncrement walks the active cells, skips the artificial
    ones, and visits every global vertex at most once (vertex_touched),
    writing each component of F x - x at that vertex's DoF for the
    component, into the parallel or the serial increment vector. */
module MeshMovement {
  import opened Vectors

  /** GeometryInfo<3>::vertices_per_cell. */
  const VerticesPerCell: nat := 8

  /** A 3 x 3 deformation gradient, by rows. */
  datatype Mat3 = Mat3(r0: V3, r1: V3, r2: V3)

  const Identity: Mat3 := Mat3(V3(1.0, 0.0, 0.0), V3(0.0, 1.0, 0.0), V3(0.0, 0.0, 1.0))

  /** F x. */
  function Apply(f: Mat3, x: V3): V3
  {
    V3(Dot3(f.r0, x), Dot3(f.r1, x), Dot3(f.r2, x))
  }

  /** The displacement of a vertex at x under F: F x - x. Moving the vertex
      by it lands on F x; the identity moves nothing. */
  function Increment(f: Mat3, x: V3): (r: V3)
    ensures Plus3(x, r) == Apply(f, x)
  {
    Minus3(Apply(f, x), x)
  }

  lemma IdentityIncrementZero(x: V3)
    ensures Increment(Identity, x) == Origin
  {
  }

  /** An active cell: artificial or not, and its global vertex numbers. */
  datatype MeshCell = MeshCell(artificial: bool, vertices: seq<nat>)

  /** The triangulation as the loop sees it: the active cells, the position
      of every global vertex, and the DoF of every vertex and component. */
  datatype Mesh = Mesh(cells: seq<MeshCell>, positions: seq<V3>, vertexDofs: seq<seq<nat>>)

  /** Every cell has VerticesPerCell vertices, all numbered below the
      vertex count, and each vertex has one DoF per component, below n. */
  predicate MeshWf(m: Mesh, n: nat)
  {
    |m.vertexDofs| == |m.positions| &&
    (forall e :: 0 <= e < |m.cells| ==> |m.cells[e].vertices| == VerticesPerCell) &&
    (forall e, i :: 0 <= e < |m.cells| && 0 <= i < |m.cells[e].vertices| ==>
      m.cells[e].vertices[i] < |m.positions|) &&
    (forall v :: 0 <= v < |m.vertexDofs| ==>
      |m.vertexDofs[v]| == 3 && forall d :: 0 <= d < 3 ==> m.vertexDofs[v][d] < n)
  }

  /** Different (vertex, component) pairs have different DoFs, as the
      DoF handler numbers them. */
  predicate DofsDistinct(m: Mesh)
  {
    forall v, w, d, d' ::
      (0 <= v < |m.vertexDofs| && 0 <= w < |m.vertexDofs| && 0 <= d < |m.vertexDofs[v]| && 0 <= d' < |m.vertexDofs[w]| &&
       (v != w || d != d')) ==>
      m.vertexDofs[v][d] != m.vertexDofs[w][d']
  }

  // ---------------------------------------------------------------------
  // The reference definition

  /** The global vertex numbers in the order the loop meets them: the
      vertices of every non-artificial cell, cell by cell. */
  function Visits(cells: seq<MeshCell>): seq<nat>
    decreases |cells|
  {
    if |cells| == 0 then []
    else
      var k := |cells| - 1;
      Visits(cells[..k]) + (if cells[k].artificial then [] else cells[k].vertices)
  }

  /** One more cell adds its vertices to the visits, unless it is
      artificial. */
  lemma VisitsStep(cells: seq<MeshCell>, e: nat)
    requires e < |cells|
    ensures Visits(cells[..e + 1]) == Visits(cells[..e]) + (if cells[e].artificial then [] else cells[e].vertices)
  {
    assert cells[..e + 1][..e] == cells[..e];
  }

  /** The first occurrences of s, in order: the vertices the loop
      processes. */
  function FirstOccurrences(s: seq<nat>): seq<nat>
    decreases |s|
  {
    if |s| == 0 then []
    else
      var p := FirstOccurrences(s[..|s| - 1]);
      var x := s[|s| - 1];
      if x in p then p else p + [x]
  }

  /** No element occurs twice. */
  predicate Distinct(s: seq<nat>)
  {
    forall i, j :: 0 <= i < j < |s| ==> s[i] != s[j]
  }

  /** Each element of s occurs in FirstOccurrences(s) exactly once, and
      nothing else does. */
  lemma {:induction false} FirstOccurrencesMembers(s: seq<nat>)
    ensures forall x :: x in FirstOccurrences(s) <==> x in s
    ensures Distinct(FirstOccurrences(s))
    decreases |s|
  {
    if |s| > 0 {
      var x := s[|s| - 1];
      FirstOccurrencesMembers(s[..|s| - 1]);
      assert s == s[..|s| - 1] + [x];
    }
  }

  lemma FirstOccurrencesSnoc(s: seq<nat>, x: nat)
    ensures FirstOccurrences(s + [x]) ==
      if x in FirstOccurrences(s) then FirstOccurrences(s) else FirstOccurrences(s) + [x]
  {
    assert (s + [x])[..|s|] == s;
  }

  /** Components 0 .. k - 1 of inc written at their DoFs. */
  function WriteComponents(dofs: seq<nat>, inc: V3, k: nat, vec: Vec): (r: Vec)
    requires k <= 3 && |dofs| == 3
    requires forall d :: 0 <= d < 3 ==> dofs[d] < |vec|
    ensures |r| == |vec|
    decreases k
  {
    if k == 0 then vec else WriteComponents(dofs, inc, k - 1, vec)[dofs[k - 1] := Component(inc, k - 1)]
  }

  /** The increment of vertex v written at its three DoFs. */
  function WriteVertex(m: Mesh, f: Mat3, v: nat, vec: Vec): (r: Vec)
    requires MeshWf(m, |vec|) && v < |m.positions|
    ensures |r| == |vec|
  {
    WriteComponents(m.vertexDofs[v], Increment(f, m.positions[v]), 3, vec)
  }

  predicate VerticesBelow(m: Mesh, order: seq<nat>)
  {
    forall k :: 0 <= k < |order| ==> order[k] < |m.positions|
  }

  /** The increments of the vertices in order, written one after another. */
  function WriteAll(m: Mesh, f: Mat3, order: seq<nat>, vec: Vec): (r: Vec)
    requires MeshWf(m, |vec|) && VerticesBelow(m, order)
    ensures |r| == |vec|
    decreases |order|
  {
    if |order| == 0 then vec
    else
      var k := |order| - 1;
      WriteVertex(m, f, order[k], WriteAll(m, f, order[..k], vec))
  }

  /** What computeIncrement writes, from the increment vector it starts
      with. */
  function IncrementField(m: Mesh, f: Mat3, vec: Vec): (r: Vec)
    requires MeshWf(m, |vec|)
    ensures |r| == |vec|
  {
    VisitsBelow(m, m.cells);
    WriteAll(m, f, FirstOccurrences(Visits(m.cells)), vec)
  }

  // ---------------------------------------------------------------------
  // Properties of the reference definition

  /** Some non-artificial cell has vertex x. */
  predicate InSomeCell(cells: seq<MeshCell>, x: nat)
  {
    exists e, i :: 0 <= e < |cells| && !cells[e].artificial && 0 <= i < |cells[e].vertices| && cells[e].vertices[i] == x
  }

  /** Peeling the last cell off InSomeCell. */
  lemma InSomeCellStep(cells: seq<MeshCell>, x: nat)
    requires |cells| > 0
    ensures InSomeCell(cells, x) <==>
      InSomeCell(cells[..|cells| - 1], x) || (!cells[|cells| - 1].artificial && x in cells[|cells| - 1].vertices)
  {
    var k := |cells| - 1;
    if InSomeCell(cells, x) {
      var e, i :| 0 <= e < |cells| && !cells[e].artificial && 0 <= i < |cells[e].vertices| && cells[e].vertices[i] == x;
      if e < k {
        assert cells[..k][e] == cells[e];
      }
    }
    if InSomeCell(cells[..k], x) {
      var e, i :| 0 <= e < k && !cells[..k][e].artificial && 0 <= i < |cells[..k][e].vertices| && cells[..k][e].vertices[i] == x;
      assert cells[e] == cells[..k][e];
    }
    if !cells[k].artificial && x in cells[k].vertices {
      var i :| 0 <= i < |cells[k].vertices| && cells[k].vertices[i] == x;
    }
  }

  /** A vertex is visited exactly when some non-artificial cell has it:
      artificial cells contribute nothing. */
  lemma {:induction false} VisitsCells(cells: seq<MeshCell>, x: nat)
    ensures x in Visits(cells) <==> InSomeCell(cells, x)
    decreases |cells|
  {
    if |cells| > 0 {
      var k := |cells| - 1;
      VisitsCells(cells[..k], x);
      InSomeCellStep(cells, x);
    }
  }

  lemma {:induction false} VisitsBelow(m: Mesh, cells: seq<MeshCell>)
    requires forall e, i :: 0 <= e < |cells| && 0 <= i < |cells[e].vertices| ==> cells[e].vertices[i] < |m.positions|
    ensures VerticesBelow(m, FirstOccurrences(Visits(cells)))
    decreases |cells|
  {
    var order := FirstOccurrences(Visits(cells));
    FirstOccurrencesMembers(Visits(cells));
    forall k | 0 <= k < |order|
      ensures order[k] < |m.positions|
    {
      VisitsCells(cells, order[k]);
    }
  }

  /** The k-th component written lands at the k-th DoF, and nothing else
      is touched. */
  lemma {:induction false} WriteComponentsAt(dofs: seq<nat>, inc: V3, k: nat, vec: Vec, j: nat)
    requires k <= 3 && |dofs| == 3
    requires forall d :: 0 <= d < 3 ==> dofs[d] < |vec|
    requires dofs[0] != dofs[1] && dofs[0] != dofs[2] && dofs[1] != dofs[2]
    requires j < |vec|
    ensures forall d :: 0 <= d < k && dofs[d] == j ==> WriteComponents(dofs, inc, k, vec)[j] == Component(inc, d)
    ensures (forall d :: 0 <= d < k ==> dofs[d] != j) ==> WriteComponents(dofs, inc, k, vec)[j] == vec[j]
    decreases k
  {
    if k > 0 {
      WriteComponentsAt(dofs, inc, k - 1, vec, j);
    }
  }

  /** Writing one vertex sets each of its three DoFs to its component of
      the increment. */
  lemma WriteVertexOwn(m: Mesh, f: Mat3, v: nat, vec: Vec, d: nat)
    requires MeshWf(m, |vec|) && DofsDistinct(m) && v < |m.positions| && d < 3
    ensures WriteVertex(m, f, v, vec)[m.vertexDofs[v][d]] == Component(Increment(f, m.positions[v]), d)
  {
    var dofs := m.vertexDofs[v];
    assert dofs[0] != dofs[1] && dofs[0] != dofs[2] && dofs[1] != dofs[2];
    WriteComponentsAt(dofs, Increment(f, m.positions[v]), 3, vec, dofs[d]);
  }

  /** Writing one vertex leaves every entry that is not one of its DoFs. */
  lemma WriteVertexOther(m: Mesh, f: Mat3, v: nat, vec: Vec, k: nat)
    requires MeshWf(m, |vec|) && DofsDistinct(m) && v < |m.positions| && k < |vec|
    requires k !in m.vertexDofs[v]
    ensures WriteVertex(m, f, v, vec)[k] == vec[k]
  {
    var dofs := m.vertexDofs[v];
    assert dofs[0] != dofs[1] && dofs[0] != dofs[2] && dofs[1] != dofs[2];
    WriteComponentsAt(dofs, Increment(f, m.positions[v]), 3, vec, k);
  }

  /** Is k the DoF of some component of some vertex in order? */
  predicate WrittenBy(m: Mesh, order: seq<nat>, k: nat)
  {
    exists j :: 0 <= j < |order| && order[j] < |m.vertexDofs| && k in m.vertexDofs[order[j]]
  }

  /** Writing vertices one after another leaves every entry that is no
      DoF of theirs as it was. */
  lemma {:induction false} WriteAllKeeps(m: Mesh, f: Mat3, order: seq<nat>, vec: Vec, k: nat)
    requires MeshWf(m, |vec|) && DofsDistinct(m) && VerticesBelow(m, order)
    requires k < |vec| && !WrittenBy(m, order, k)
    ensures WriteAll(m, f, order, vec)[k] == vec[k]
    decreases |order|
  {
    if |order| > 0 {
      var n := |order| - 1;
      var prefix := order[..n];
      assert k !in m.vertexDofs[order[n]];
      WriteAllKeeps(m, f, prefix, vec, k);
      WriteVertexOther(m, f, order[n], WriteAll(m, f, prefix, vec), k);
    }
  }

  /** Writing distinct vertices one after another leaves each of their DoFs
      holding its own component of the increment. */
  lemma {:induction false} WriteAllSets(m: Mesh, f: Mat3, order: seq<nat>, vec: Vec, j: nat, d: nat)
    requires MeshWf(m, |vec|) && DofsDistinct(m) && VerticesBelow(m, order)
    requires Distinct(order)
    requires j < |order| && d < 3
    ensures WriteAll(m, f, order, vec)[m.vertexDofs[order[j]][d]] == Component(Increment(f, m.positions[order[j]]), d)
    decreases |order|
  {
    var n := |order| - 1;
    var prefix := order[..n];
    var prev := WriteAll(m, f, prefix, vec);
    var v := order[n];
    if j == n {
      WriteVertexOwn(m, f, v, prev, d);
    } else {
      var w := order[j];
      assert prefix[j] == w;
      assert w != v;
      var k := m.vertexDofs[w][d];
      assert k !in m.vertexDofs[v] by {
        forall d' | 0 <= d' < 3
          ensures k != m.vertexDofs[v][d']
        {
        }
      }
      WriteAllSets(m, f, prefix, vec, j, d);
      WriteVertexOther(m, f, v, prev, k);
    }
  }

  /** computeIncrement, stated on its result: every DoF of a vertex of a
      non-artificial cell holds that component of F x - x, and every DoF of
      no such vertex keeps its value. */
  lemma IncrementFieldEffect(m: Mesh, f: Mat3, vec: Vec)
    requires MeshWf(m, |vec|) && DofsDistinct(m)
    ensures forall e, i, d :: 0 <= e < |m.cells| && !m.cells[e].artificial && 0 <= i < VerticesPerCell && 0 <= d < 3 ==>
      IncrementField(m, f, vec)[m.vertexDofs[m.cells[e].vertices[i]][d]]
        == Component(Increment(f, m.positions[m.cells[e].vertices[i]]), d)
    ensures forall k :: 0 <= k < |vec| && !WrittenBy(m, FirstOccurrences(Visits(m.cells)), k) ==>
      IncrementField(m, f, vec)[k] == vec[k]
  {
    var order := FirstOccurrences(Visits(m.cells));
    FirstOccurrencesMembers(Visits(m.cells));
    VisitsBelow(m, m.cells);
    forall e, i, d | 0 <= e < |m.cells| && !m.cells[e].artificial && 0 <= i < VerticesPerCell && 0 <= d < 3
      ensures IncrementField(m, f, vec)[m.vertexDofs[m.cells[e].vertices[i]][d]]
        == Component(Increment(f, m.positions[m.cells[e].vertices[i]]), d)
    {
      var v := m.cells[e].vertices[i];
      VisitsCells(m.cells, v);
      var j :| 0 <= j < |order| && order[j] == v;
      WriteAllSets(m, f, order, vec, j, d);
    }
    forall k | 0 <= k < |vec| && !WrittenBy(m, order, k)
      ensures IncrementField(m, f, vec)[k] == vec[k]
    {
      WriteAllKeeps(m, f, order, vec, k);
    }
  }

  /** Under the identity every vertex of a non-artificial cell gets a zero
      increment. */
  lemma IdentityWritesZeros(m: Mesh, vec: Vec)
    requires MeshWf(m, |vec|) && DofsDistinct(m)
    ensures forall e, i, d :: 0 <= e < |m.cells| && !m.cells[e].artificial && 0 <= i < VerticesPerCell && 0 <= d < 3 ==>
      IncrementField(m, Identity, vec)[m.vertexDofs[m.cells[e].vertices[i]][d]] == 0.0
  {
    IncrementFieldEffect(m, Identity, vec);
    forall x: V3
      ensures Increment(Identity, x) == Origin
    {
      IdentityIncrementZero(x);
    }
  }

  // ---------------------------------------------------------------------
  // The loop

  /** The state of the mover: the stored deformation gradient, the mesh,
      the parallel flag, both increment vectors and the domain bounding
      vectors. */
  datatype Mover = Mover(f: Mat3, mesh: Mesh, isParallel: bool, parallel: Vec, serial: Vec, bounding: seq<V3>)

  /** The increment vector computeIncrement writes into. */
  function Target(s: Mover): Vec
  {
    if s.isParallel then s.parallel else s.serial
  }

  predicate MoverWf(s: Mover)
  {
    MeshWf(s.mesh, |Target(s)|)
  }

  /** touched marks exactly the vertices in processed. */
  predicate Marks(touched: seq<bool>, processed: seq<nat>)
  {
    forall w :: 0 <= w < |touched| ==> (touched[w] <==> w in processed)
  }

  lemma MarkStep(touched: seq<bool>, processed: seq<nat>, v: nat)
    requires Marks(touched, processed) && v < |touched|
    ensures Marks(touched[v := true], processed + [v])
  {
  }

  /** r differs from s at most in the increment vector computeIncrement
      writes into, and that keeps its length. */
  predicate OnlyTargetChanged(s: Mover, r: Mover)
  {
    r == s.(parallel := r.parallel, serial := r.serial) &&
    |Target(r)| == |Target(s)| &&
    (s.isParallel ==> r.serial == s.serial) &&
    (!s.isParallel ==> r.parallel == s.parallel)
  }

  /** The idim loop: the components of F x - x for vertex v, each at its
      DoF, in the vector d_isParallelMesh selects. */
  method WriteIncrement(s: Mover, v: nat) returns (r: Mover)
    requires MoverWf(s) && v < |s.mesh.positions|
    ensures OnlyTargetChanged(s, r)
    ensures Target(r) == WriteVertex(s.mesh, s.f, v, Target(s))
  {
    var m := s.mesh;
    var inc := Increment(s.f, m.positions[v]);
    r := s;
    var idim := 0;
    while idim < 3
      invariant idim <= 3
      invariant OnlyTargetChanged(s, r)
      invariant Target(r) == WriteComponents(m.vertexDofs[v], inc, idim, Target(s))
    {
      var dof := m.vertexDofs[v][idim];
      if s.isParallel {
        r := r.(parallel := r.parallel[dof := Component(inc, idim)]);
      } else {
        r := r.(serial := r.serial[dof := Component(inc, idim)]);
      }
      idim := idim + 1;
    }
  }

  /** The state of the cell loop: the touched flags, the vertices processed
      so far, and the mover holding the increment vectors. */
  datatype Walk = Walk(touched: seq<bool>, processed: seq<nat>, mover: Mover)

  /** After meeting the vertices seen, starting from s whose target held
      start: the processed vertices are the first occurrences in seen,
      touched marks exactly them, and their increments have been written
      over start into the target of s, the rest of s untouched. */
  predicate Walked(s: Mover, w: Walk, seen: seq<nat>, start: Vec)
  {
    MoverWf(s) &&
    w.processed == FirstOccurrences(seen) &&
    VerticesBelow(s.mesh, w.processed) &&
    |w.touched| == |s.mesh.positions| && Marks(w.touched, w.processed) &&
    OnlyTargetChanged(s, w.mover) &&
    |start| == |Target(s)| &&
    Target(w.mover) == WriteAll(s.mesh, s.f, w.processed, start)
  }

  /** Meeting a touched vertex again changes nothing. */
  lemma WalkedSkip(s: Mover, w: Walk, seen: seq<nat>, v: nat, start: Vec)
    requires Walked(s, w, seen, start) && v < |s.mesh.positions| && w.touched[v]
    ensures Walked(s, w, seen + [v], start)
  {
    FirstOccurrencesSnoc(seen, v);
  }

  /** Meeting an untouched vertex marks it, processes it and writes its
      increment. */
  lemma WalkedTake(s: Mover, w: Walk, seen: seq<nat>, v: nat, start: Vec, r: Mover)
    requires Walked(s, w, seen, start) && v < |s.mesh.positions| && !w.touched[v]
    requires OnlyTargetChanged(w.mover, r) && Target(r) == WriteVertex(s.mesh, s.f, v, Target(w.mover))
    ensures Walked(s, Walk(w.touched[v := true], w.processed + [v], r), seen + [v], start)
  {
    FirstOccurrencesSnoc(seen, v);
    MarkStep(w.touched, w.processed, v);
    assert (w.processed + [v])[..|w.processed|] == w.processed;
  }

  /** One vertex of a non-artificial cell: if it is not yet touched it is
      marked, processed and written; otherwise nothing happens. */
  method VisitVertex(s: Mover, w: Walk, v: nat, ghost seen: seq<nat>, ghost start: Vec) returns (w': Walk)
    requires Walked(s, w, seen, start) && v < |s.mesh.positions|
    ensures Walked(s, w', seen + [v], start)
  {
    if w.touched[v] {
      WalkedSkip(s, w, seen, v, start);
      w' := w;
    } else {
      var r := WriteIncrement(w.mover, v);
      WalkedTake(s, w, seen, v, start, r);
      w' := Walk(w.touched[v := true], w.processed + [v], r);
    }
  }

  /** The vertex loop of one non-artificial cell. */
  method ProcessCell(s: Mover, w: Walk, e: nat, ghost prior: seq<nat>, ghost start: Vec) returns (w': Walk)
    requires Walked(s, w, prior, start) && e < |s.mesh.cells|
    ensures Walked(s, w', prior + s.mesh.cells[e].vertices, start)
  {
    var vertices := s.mesh.cells[e].vertices;
    assert |vertices| == VerticesPerCell && forall i :: 0 <= i < |vertices| ==> vertices[i] < |s.mesh.positions|;
    w' := w;
    ghost var seen := prior;
    var i := 0;
    while i < VerticesPerCell
      invariant i <= VerticesPerCell
      invariant seen == prior + vertices[..i]
      invariant Walked(s, w', seen, start)
    {
      var v := vertices[i];
      assert vertices[..i + 1] == vertices[..i] + [v];
      w' := VisitVertex(s, w', v, seen, start);
      seen := seen + [v];
      i := i + 1;
    }
    assert vertices[..VerticesPerCell] == vertices;
  }

  /** computeIncrement with the stored F: touched marks exactly the
      processed vertices, the vertices are processed in order of first
      visit, each once, their increments land in the vector d_isParallelMesh
      selects, and the other vector is untouched. */
  method ComputeIncrement(s: Mover) returns (r: Mover, touched: seq<bool>, processed: seq<nat>)
    requires MoverWf(s)
    ensures processed == FirstOccurrences(Visits(s.mesh.cells))
    ensures Distinct(processed)
    ensures |touched| == |s.mesh.positions| && Marks(touched, processed)
    ensures OnlyTargetChanged(s, r)
    ensures Target(r) == IncrementField(s.mesh, s.f, Target(s))
  {
    var cells := s.mesh.cells;
    var w := Walk(seq(|s.mesh.positions|, _ => false), [], s);
    var e := 0;
    while e < |cells|
      invariant e <= |cells|
      invariant Walked(s, w, Visits(cells[..e]), Target(s))
    {
      ghost var before := Visits(cells[..e]);
      VisitsStep(cells, e);
      if !cells[e].artificial {
        w := ProcessCell(s, w, e, before, Target(s));
      } else {
        assert before + [] == before;
      }
      e := e + 1;
    }
    assert cells[..e] == cells;
    FirstOccurrencesMembers(Visits(cells));
    r, touched, processed := w.mover, w.touched, w.processed;
  }

  // ---------------------------------------------------------------------
  // transform

  /** The collaborators transform calls that are not part of this model:
      dftUtils::transformDomainBoundingVectors, updateTriangulationVertices
      and movedMeshCheck (the pair it returns: whether the moved mesh is
      acceptable, and a quality measure). */
  datatype Collaborators = Collaborators(
    transformBounding: (seq<V3>, Mat3) -> seq<V3>,
    updateVertices: Mover -> Mover,
    check: Mover -> (bool, real))

  /** transform: store F, reset the increment field to zero
      (initIncrementField), compute the increments with the stored F,
      transform the bounding vectors, move the vertices and report the
      check's verdict on the moved mesh. The increment vector the mesh mode
      does not select stays zero. */
  method Transform(s: Mover, f: Mat3, k: Collaborators) returns (result: (bool, real), r: Mover)
    requires MoverWf(s)
    ensures result == k.check(r)
    ensures exists computed: Mover ::
      computed.f == f && computed.mesh == s.mesh && computed.isParallel == s.isParallel &&
      Target(computed) == IncrementField(s.mesh, f, Zeros(|Target(s)|)) &&
      (if s.isParallel then computed.serial == Zeros(|s.serial|) else computed.parallel == Zeros(|s.parallel|)) &&
      r == k.updateVertices(computed.(bounding := k.transformBounding(s.bounding, f)))
  {
    var stored := s.(f := f, parallel := Zeros(|s.parallel|), serial := Zeros(|s.serial|));
    var computed, _, _ := ComputeIncrement(stored);
    var bounded := computed.(bounding := k.transformBounding(computed.bounding, f));
    r := k.updateVertices(bounded);
    result := k.check(r);
  }
}

=== FILE: operator.dfy ===
/** The matrix-free cell loop behind both vmult functions: for every locally
    owned cell, FEEvaluation reads the cell's DoF values from the source
    vector (resolving constrained DoFs through their masters, homogeneously),
    applies the AX kernel of the operator shape and hands the result to
    distribute_local_to_global on the destination. Reading and distributing
    are transposes of each other, which makes the assembled operator
    symmetric. */
module Operator {
  import opened Vectors
  import opened Constraints
  import opened Quadrature
  import opened Assembly

  /** The value FEEvaluation::read_dof_values sees at global DoF d: the
      master combination of a constrained DoF (inhomogeneity dropped, so a
      Dirichlet DoF reads 0), the entry itself otherwise. */
  function ReadOne(c: ConstraintSet, d: nat, v: Vec): real
  {
    if d in c then SumTo(|c[d].entries|, EntryTerm(c[d].entries, v)) else At(v, d)
  }

  /** read_dof_values on one cell. */
  function ReadDofValues(c: ConstraintSet, dofs: seq<nat>, v: Vec): (r: Vec)
    ensures |r| == |dofs|
  {
    seq(|dofs|, j requires 0 <= j < |dofs| => ReadOne(c, dofs[j], v))
  }

  /** A Dirichlet DoF (a line without masters) reads as zero, whatever its
      inhomogeneity and whatever v holds there. */
  lemma DirichletReadsZero(c: ConstraintSet, dofs: seq<nat>, v: Vec, j: nat)
    requires j < |dofs| && dofs[j] in c && |c[dofs[j]].entries| == 0
    ensures ReadDofValues(c, dofs, v)[j] == 0.0
  {
  }

  /** The arithmetic of one AddToMastersAdjoint step: val times the read
      value splits into the first master's share and the rest's. */
  lemma ShareSplit(val: real, wt: real, ym: real, rest: real, total: real)
    requires total == Share(wt, ym) + rest
    ensures Share(val, total) == Share(Share(wt, val), ym) + Share(val, rest)
  {
    assert val * (wt * ym) == (wt * val) * ym;
  }

  lemma AddToMastersFront(es: seq<Entry>, val: real, v: Vec)
    requires forall k :: 0 <= k < |es| ==> es[k].master < |v|
    requires |es| > 0
    ensures AddToMasters(es, val, v) ==
      AddToMasters(es[1..], val, v[es[0].master := v[es[0].master] + Share(es[0].weight, val)])
  {
  }

  lemma EntryTermShift(es: seq<Entry>, y: Vec, j: nat)
    requires j + 1 < |es|
    ensures Shift(EntryTerm(es, y))(j) == EntryTerm(es[1..], y)(j)
  {
    assert es[1..][j] == es[j + 1];
  }

  lemma ShiftedEntries(es: seq<Entry>, y: Vec)
    requires |es| > 0
    ensures SumTo(|es| - 1, Shift(EntryTerm(es, y))) == SumTo(|es| - 1, EntryTerm(es[1..], y))
  {
    forall j: nat | j < |es| - 1
      ensures Shift(EntryTerm(es, y))(j) == EntryTerm(es[1..], y)(j)
    {
      EntryTermShift(es, y, j);
    }
    SumExt(|es| - 1, Shift(EntryTerm(es, y)), EntryTerm(es[1..], y));
  }

  /** Reading through es is the first entry's term plus reading through
      the rest. */
  lemma EntrySumFront(es: seq<Entry>, y: Vec)
    requires |es| > 0
    requires es[0].master < |y|
    ensures SumTo(|es|, EntryTerm(es, y)) == Share(es[0].weight, y[es[0].master]) + SumTo(|es[1..]|, EntryTerm(es[1..], y))
  {
    SumFront(|es|, EntryTerm(es, y));
    ShiftedEntries(es, y);
    assert EntryTerm(es, y)(0) == Share(es[0].weight, y[es[0].master]);
  }

  /** Handing val to the masters of es is the transpose of reading through
      es: it moves the inner product with y by val times the read value. */
  lemma {:induction false} AddToMastersAdjoint(es: seq<Entry>, val: real, v: Vec, y: Vec)
    requires forall k :: 0 <= k < |es| ==> es[k].master < |v|
    requires |v| == |y|
    ensures Dot(AddToMasters(es, val, v), y) == Dot(v, y) + Share(val, SumTo(|es|, EntryTerm(es, y)))
    decreases |es|
  {
    if |es| > 0 {
      var m := es[0].master;
      var wt := es[0].weight;
      var v' := v[m := v[m] + Share(wt, val)];
      var rest := es[1..];
      var restSum := SumTo(|rest|, EntryTerm(rest, y));
      var total := SumTo(|es|, EntryTerm(es, y));
      AddToMastersFront(es, val, v);
      AddToMastersAdjoint(rest, val, v', y);
      DotAddAt(v, y, m, Share(wt, val));
      EntrySumFront(es, y);
      ShareSplit(val, wt, y[m], restSum, total);
    } else {
      assert Share(val, 0.0) == 0.0;
    }
  }

  /** One local entry of distribute_local_to_global against y is val times
      the value read at its DoF. */
  lemma AddEntryAdjoint(c: ConstraintSet, d: nat, val: real, v: Vec, y: Vec)
    requires Closed(c, |v|) && d < |v| && |v| == |y|
    ensures Dot(AddEntry(c, d, val, v), y) == Dot(v, y) + Share(val, ReadOne(c, d, y))
  {
    if d in c {
      AddToMastersAdjoint(c[d].entries, val, v, y);
    } else {
      DotAddAt(v, y, d, val);
    }
  }

  lemma DistributeLocalToGlobalUnfold(c: ConstraintSet, local: Vec, dofs: seq<nat>, v: Vec, n: nat)
    requires Closed(c, |v|) && |local| == |dofs| == n + 1
    requires forall j :: 0 <= j < |dofs| ==> dofs[j] < |v|
    ensures forall j :: 0 <= j < n ==> dofs[..n][j] < |v|
    ensures DistributeLocalToGlobal(c, local, dofs, v) ==
      AddEntry(c, dofs[n], local[n], DistributeLocalToGlobal(c, local[..n], dofs[..n], v))
  {
  }

  /** The last local entry's share of (DLTG local) . y. */
  lemma DistributeLocalToGlobalLast(c: ConstraintSet, local: Vec, dofs: seq<nat>, v: Vec, y: Vec, n: nat)
    requires Closed(c, |v|) && |local| == |dofs| == n + 1 && |v| == |y|
    requires forall j :: 0 <= j < |dofs| ==> dofs[j] < |v|
    ensures Dot(DistributeLocalToGlobal(c, local, dofs, v), y) ==
      Dot(DistributeLocalToGlobal(c, local[..n], dofs[..n], v), y) + Share(local[n], ReadOne(c, dofs[n], y))
  {
    DistributeLocalToGlobalUnfold(c, local, dofs, v, n);
    AddEntryAdjoint(c, dofs[n], local[n], DistributeLocalToGlobal(c, local[..n], dofs[..n], v), y);
  }

  /** One step of a running total: a = p + t, p = d + l and total = l + t. */
  lemma Telescope(a: real, p: real, d: real, l: real, t: real, total: real)
    requires a == p + t && p == d + l && total == l + t
    ensures a == d + total
  {
  }

  /** Splitting off the last local entry n of local . (read y). */
  lemma LocalPairingLast(c: ConstraintSet, local: Vec, dofs: seq<nat>, y: Vec, n: nat)
    requires |local| == |dofs| == n + 1
    ensures Dot(local, ReadDofValues(c, dofs, y)) ==
      Dot(local[..n], ReadDofValues(c, dofs[..n], y)) + Share(local[n], ReadOne(c, dofs[n], y))
  {
    var read := ReadDofValues(c, dofs, y);
    assert ReadDofValues(c, dofs[..n], y) == read[..n];
    SumExt(n, DotTerm(local[..n], read[..n]), DotTerm(local, read));
  }

  /** distribute_local_to_global is the transpose of read_dof_values:
      (DLTG local) . y == local . (read y). */
  lemma {:induction false} DistributeLocalToGlobalAdjoint(c: ConstraintSet, local: Vec, dofs: seq<nat>, v: Vec, y: Vec)
    requires Closed(c, |v|) && |local| == |dofs| && |v| == |y|
    requires forall j :: 0 <= j < |dofs| ==> dofs[j] < |v|
    ensures Dot(DistributeLocalToGlobal(c, local, dofs, v), y) == Dot(v, y) + Dot(local, ReadDofValues(c, dofs, y))
    decreases |local|
  {
    if |local| > 0 {
      var n := |local| - 1;
      var lp, dp := local[..n], dofs[..n];
      DistributeLocalToGlobalLast(c, local, dofs, v, y, n);
      assert forall j :: 0 <= j < |dp| ==> dp[j] == dofs[j];
      DistributeLocalToGlobalAdjoint(c, lp, dp, v, y);
      LocalPairingLast(c, local, dofs, y, n);
      Telescope(Dot(DistributeLocalToGlobal(c, local, dofs, v), y), Dot(DistributeLocalToGlobal(c, lp, dp, v), y), Dot(v, y),
        Dot(lp, ReadDofValues(c, dp, y)), Share(local[n], ReadOne(c, dofs[n], y)), Dot(local, ReadDofValues(c, dofs, y)));
    } else {
      assert DistributeLocalToGlobal(c, local, dofs, v) == v;
      assert Dot(local, ReadDofValues(c, dofs, y)) == 0.0;
    }
  }

  /** Cell e's share of AssembleOwned(..) . y. */
  function PairingAt(c: ConstraintSet, cells: seq<Cell>, elems: seq<Vec>, y: Vec, e: nat): real
  {
    if e < |cells| && e < |elems| && cells[e].owned then Dot(elems[e], ReadDofValues(c, cells[e].dofs, y)) else 0.0
  }

  function Pairing(c: ConstraintSet, cells: seq<Cell>, elems: seq<Vec>, y: Vec): nat -> real
  {
    (e: nat) => PairingAt(c, cells, elems, y, e)
  }

  lemma AssembleOwnedLast(c: ConstraintSet, cells: seq<Cell>, elems: seq<Vec>, v: Vec)
    requires Closed(c, |v|) && Fits(cells, elems, |v|) && |cells| > 0
    ensures Fits(cells[..|cells| - 1], elems[..|cells| - 1], |v|)
    ensures AssembleOwned(c, cells, elems, v) ==
      var k := |cells| - 1;
      if cells[k].owned then DistributeLocalToGlobal(c, elems[k], cells[k].dofs, AssembleOwned(c, cells[..k], elems[..k], v))
      else AssembleOwned(c, cells[..k], elems[..k], v)
  {
  }

  lemma PairingLast(c: ConstraintSet, cells: seq<Cell>, elems: seq<Vec>, y: Vec)
    requires |cells| > 0 && |elems| == |cells|
    ensures SumTo(|cells|, Pairing(c, cells, elems, y)) ==
      SumTo(|cells| - 1, Pairing(c, cells[..|cells| - 1], elems[..|cells| - 1], y)) + PairingAt(c, cells, elems, y, |cells| - 1)
  {
    var k := |cells| - 1;
    SumExt(k, Pairing(c, cells[..k], elems[..k], y), Pairing(c, cells, elems, y));
  }

  /** Assembling over the owned cells against y: each owned cell's elemental
      vector paired with the values read on that cell. */
  lemma {:induction false} AssembleOwnedAdjoint(c: ConstraintSet, cells: seq<Cell>, elems: seq<Vec>, v: Vec, y: Vec)
    requires Closed(c, |v|) && Fits(cells, elems, |v|) && |v| == |y|
    ensures Dot(AssembleOwned(c, cells, elems, v), y) == Dot(v, y) + SumTo(|cells|, Pairing(c, cells, elems, y))
    decreases |cells|
  {
    if |cells| > 0 {
      var k := |cells| - 1;
      AssembleOwnedLast(c, cells, elems, v);
      AssembleOwnedAdjoint(c, cells[..k], elems[..k], v, y);
      PairingLast(c, cells, elems, y);
      if cells[k].owned {
        DistributeLocalToGlobalAdjoint(c, elems[k], cells[k].dofs, AssembleOwned(c, cells[..k], elems[..k], v), y);
      }
    } else {
      assert AssembleOwned(c, cells, elems, v) == v;
    }
  }

  // ---------------------------------------------------------------------
  // The cell kernel is symmetric

  lemma StiffnessSymmetric(cell: Basis, s: Shape, i: nat, j: nat)
    ensures Stiffness(cell, s, i, j) == Stiffness(cell, s, j, i)
  {
    forall q: nat | q < NumPoints(cell)
      ensures Integrand(cell, s, i, j)(q) == Integrand(cell, s, j, i)(q)
    {
      var a := Value(cell, i, q);
      var b := Value(cell, j, q);
      assert s.massScale * a * b == s.massScale * b * a;
    }
    SumExt(NumPoints(cell), Integrand(cell, s, i, j), Integrand(cell, s, j, i));
  }

  /** w_i K_ij u_j. */
  function SymTermAt(cell: Basis, s: Shape, u: Vec, w: Vec, i: nat, j: nat): real
  {
    At(w, i) * RowTermAt(cell, s, u, i, j)
  }

  function SymTerm(cell: Basis, s: Shape, u: Vec, w: Vec): (nat, nat) -> real
  {
    (i: nat, j: nat) => SymTermAt(cell, s, u, w, i, j)
  }

  lemma RowSide(cell: Basis, s: Shape, u: Vec, w: Vec, i: nat)
    requires |u| == |w| && i < |u|
    ensures DotTerm(CellAX(cell, s, u), w)(i) == RowSums(SymTerm(cell, s, u, w), |u|)(i)
  {
    var f := SymTerm(cell, s, u, w);
    CellAXIsStiffness(cell, s, u, i);
    SumScale(|u|, At(w, i), RowTerm(cell, s, u, i), Row(f, i));
  }

  lemma Rearrange(a: real, b: real, c: real)
    ensures a * (b * c) == c * (b * a)
  {
  }

  /** Entry (i, j) of the double sum, read down column j: u_j times the
      (j, i) stiffness entry times w_i, by symmetry of the stiffness. */
  lemma ColumnEntry(cell: Basis, s: Shape, u: Vec, w: Vec, i: nat, j: nat)
    ensures Column(SymTerm(cell, s, u, w), j)(i) == At(u, j) * RowTerm(cell, s, w, j)(i)
  {
    StiffnessSymmetric(cell, s, i, j);
    Rearrange(At(w, i), Stiffness(cell, s, i, j), At(u, j));
  }

  lemma ColumnSide(cell: Basis, s: Shape, u: Vec, w: Vec, j: nat)
    requires |u| == |w| && j < |u|
    ensures DotTerm(u, CellAX(cell, s, w))(j) == ColumnSums(SymTerm(cell, s, u, w), |u|)(j)
  {
    var f := SymTerm(cell, s, u, w);
    forall i: nat | i < |u|
      ensures Column(f, j)(i) == At(u, j) * RowTerm(cell, s, w, j)(i)
    {
      ColumnEntry(cell, s, u, w, i, j);
    }
    SumScale(|u|, At(u, j), RowTerm(cell, s, w, j), Column(f, j));
    CellAXIsStiffness(cell, s, w, j);
  }

  /** The cell kernel is a symmetric bilinear form on local values:
      (AX u) . w == u . (AX w). */
  lemma CellAXSymmetric(cell: Basis, s: Shape, u: Vec, w: Vec)
    requires |u| == |w|
    ensures Dot(CellAX(cell, s, u), w) == Dot(u, CellAX(cell, s, w))
  {
    var f := SymTerm(cell, s, u, w);
    var m := |u|;
    forall i: nat | i < m
      ensures DotTerm(CellAX(cell, s, u), w)(i) == RowSums(f, m)(i)
    {
      RowSide(cell, s, u, w, i);
    }
    forall j: nat | j < m
      ensures DotTerm(u, CellAX(cell, s, w))(j) == ColumnSums(f, m)(j)
    {
      ColumnSide(cell, s, u, w, j);
    }
    SumExt(m, DotTerm(CellAX(cell, s, u), w), RowSums(f, m));
    SumExt(m, DotTerm(u, CellAX(cell, s, w)), ColumnSums(f, m));
    SumSwap(m, m, f);
  }

  // ---------------------------------------------------------------------
  // The global operator

  /** AX on every cell's read values. */
  function AXVectors(c: ConstraintSet, cells: seq<Cell>, s: Shape, src: Vec): (r: seq<Vec>)
    ensures |r| == |cells|
    ensures forall e :: 0 <= e < |cells| ==> |r[e]| == |cells[e].dofs|
  {
    seq(|cells|, e requires 0 <= e < |cells| => CellAX(CellBasis(cells[e]), s, ReadDofValues(c, cells[e].dofs, src)))
  }

  /** cell_loop(AX, dst, src) on dst = 0: constrained rows are never
      written, so they stay zero. */
  function CellLoop(c: ConstraintSet, cells: seq<Cell>, s: Shape, src: Vec): (r: Vec)
    requires Closed(c, |src|) && DofsBelow(cells, |src|)
    ensures |r| == |src|
    ensures forall i :: 0 <= i < |src| && i in c ==> r[i] == 0.0
  {
    AssembleOwnedRows(c, cells, AXVectors(c, cells, s, src), Zeros(|src|));
    AssembleOwned(c, cells, AXVectors(c, cells, s, src), Zeros(|src|))
  }

  /** The global operator paired with y is the sum over owned cells of
      the cell kernel on the values read from src and from y. */
  lemma CellLoopPairing(c: ConstraintSet, cells: seq<Cell>, s: Shape, src: Vec, y: Vec)
    requires Closed(c, |src|) && DofsBelow(cells, |src|) && |y| == |src|
    ensures Dot(CellLoop(c, cells, s, src), y) == SumTo(|cells|, Pairing(c, cells, AXVectors(c, cells, s, src), y))
  {
    var ax := AXVectors(c, cells, s, src);
    assert Fits(cells, ax, |src|);
    AssembleOwnedAdjoint(c, cells, ax, Zeros(|src|), y);
    DotZeroRight(y, Zeros(|src|));
    DotSymmetric(y, Zeros(|src|));
  }

  /** The matrix-free operator is symmetric: (A x) . y == x . (A y), for the
      Poisson and the Kerker shape alike. This is what conjugate gradients
      requires of vmult. */
  lemma CellLoopSelfAdjoint(c: ConstraintSet, cells: seq<Cell>, s: Shape, x: Vec, y: Vec)
    requires Closed(c, |x|) && DofsBelow(cells, |x|) && |y| == |x|
    ensures Dot(CellLoop(c, cells, s, x), y) == Dot(x, CellLoop(c, cells, s, y))
  {
    var ax := AXVectors(c, cells, s, x);
    var ay := AXVectors(c, cells, s, y);
    forall e: nat | e < |cells|
      ensures Pairing(c, cells, ax, y)(e) == Pairing(c, cells, ay, x)(e)
    {
      if cells[e].owned {
        var rx := ReadDofValues(c, cells[e].dofs, x);
        var ry := ReadDofValues(c, cells[e].dofs, y);
        var b := CellBasis(cells[e]);
        CellAXSymmetric(b, s, rx, ry);
        DotSymmetric(rx, CellAX(b, s, ry));
      }
    }
    CellLoopPairing(c, cells, s, x, y);
    CellLoopPairing(c, cells, s, y, x);
    SumExt(|cells|, Pairing(c, cells, ax, y), Pairing(c, cells, ay, x));
    DotSymmetric(x, CellLoop(c, cells, s, y));
  }

  /** The matrix-free operator is positive semi-definite: x . (A x) is the
      sum over owned cells of JxW (a |grad x_h|^2 + b x_h^2) at every
      quadrature point, given non-negative weights and scales. */
  lemma CellLoopNonNegative(c: ConstraintSet, cells: seq<Cell>, s: Shape, x: Vec)
    requires Closed(c, |x|) && DofsBelow(cells, |x|) && NonNegativeWeights(cells)
    requires s.gradScale >= 0.0 && s.massScale >= 0.0
    ensures Dot(CellLoop(c, cells, s, x), x) >= 0.0
  {
    var ax := AXVectors(c, cells, s, x);
    forall e: nat | e < |cells|
      ensures Pairing(c, cells, ax, x)(e) >= 0.0
    {
      if cells[e].owned {
        var b := CellBasis(cells[e]);
        assert forall q: nat :: q < b.nq ==> b.jxw(q) >= 0.0;
        CellAXNonNegative(b, s, ReadDofValues(c, cells[e].dofs, x));
      }
    }
    CellLoopPairing(c, cells, s, x, x);
    SumNonNegative(|cells|, Pairing(c, cells, ax, x));
  }

  // ---------------------------------------------------------------------
  // The diagonal of the cell loop

  /** Reading the i-th unit vector, for i neither constrained nor a master,
      gives 1 exactly where the cell lists i and 0 elsewhere: no constraint
      line can see i. */
  lemma ReadUnit(c: ConstraintSet, dofs: seq<nat>, n: nat, i: nat)
    requires Closed(c, n) && i < n && i !in c && NotAMaster(c, i)
    requires forall j :: 0 <= j < |dofs| ==> dofs[j] < n
    ensures forall j :: 0 <= j < |dofs| ==>
      ReadDofValues(c, dofs, Unit(n, i))[j] == (if dofs[j] == i then 1.0 else 0.0)
  {
    var u := Unit(n, i);
    forall j | 0 <= j < |dofs| && dofs[j] in c
      ensures ReadOne(c, dofs[j], u) == 0.0
    {
      var es := c[dofs[j]].entries;
      forall k: nat | k < |es|
        ensures EntryTerm(es, u)(k) == 0.0
      {
        assert !HasMaster(c, dofs[j], i);
        assert es[k].master != i;
      }
      SumZero(|es|, EntryTerm(es, u));
    }
  }

  /** The entries a cell with distinct DoFs aims at i are its single entry
      at the position of i. */
  lemma LocalSumAt(local: Vec, dofs: seq<nat>, i: nat, l: nat)
    requires |local| == |dofs| && l < |dofs| && dofs[l] == i
    requires forall j, k :: 0 <= j < k < |dofs| ==> dofs[j] != dofs[k]
    ensures LocalSum(local, dofs, i) == local[l]
  {
    forall j: nat | j < |local| && j != l
      ensures LocalTerm(local, dofs, i)(j) == 0.0
    {
      assert dofs[j] != dofs[l];
    }
    SumPoint(|local|, l, LocalTerm(local, dofs, i));
  }

  /** A cell that does not list i aims nothing at it. */
  lemma LocalSumAbsent(local: Vec, dofs: seq<nat>, i: nat)
    requires |local| == |dofs| && forall j :: 0 <= j < |dofs| ==> dofs[j] != i
    ensures LocalSum(local, dofs, i) == 0.0
  {
    SumZero(|local|, LocalTerm(local, dofs, i));
  }

  /** One owned cell contributes the same to row i of the cell loop on the
      i-th unit vector as to row i of the assembled Jacobi diagonal. */
  lemma UnitContribution(c: ConstraintSet, cells: seq<Cell>, gamma: real, n: nat, i: nat, e: nat)
    requires Closed(c, n) && DofsBelow(cells, n) && DistinctCellDofs(cells)
    requires i < n && i !in c && NotAMaster(c, i) && e < |cells|
    ensures Contribution(cells, AXVectors(c, cells, PoissonShape, Unit(n, i)), i)(e) ==
            Contribution(cells, PoissonDiagonalVectors(cells), i)(e)
    ensures Contribution(cells, AXVectors(c, cells, KerkerShape(gamma), Unit(n, i)), i)(e) ==
            Contribution(cells, KerkerDiagonalVectors(cells, gamma), i)(e)
  {
    var dofs := cells[e].dofs;
    var b := CellBasis(cells[e]);
    var pa := AXVectors(c, cells, PoissonShape, Unit(n, i))[e];
    var ka := AXVectors(c, cells, KerkerShape(gamma), Unit(n, i))[e];
    var pd := PoissonDiagonalVectors(cells)[e];
    var kd := KerkerDiagonalVectors(cells, gamma)[e];
    if l :| 0 <= l < |dofs| && dofs[l] == i {
      ReadUnit(c, dofs, n, i);
      assert ReadDofValues(c, dofs, Unit(n, i)) == Unit(|dofs|, l);
      CellAXUnitIsDiagonal(b, gamma, |dofs|, l);
      LocalSumAt(pa, dofs, i, l);
      LocalSumAt(ka, dofs, i, l);
      LocalSumAt(pd, dofs, i, l);
      LocalSumAt(kd, dofs, i, l);
    } else {
      LocalSumAbsent(pa, dofs, i);
      LocalSumAbsent(ka, dofs, i);
      LocalSumAbsent(pd, dofs, i);
      LocalSumAbsent(kd, dofs, i);
    }
  }

  /** At a DoF that is neither constrained nor a master, the cell loop
      applied to the DoF's unit vector returns there exactly the entry
      computeDiagonalA assembles, for both operator shapes: the Jacobi
      diagonal is the diagonal of the cell-loop operator at such DoFs. */
  lemma CellLoopUnitDiagonal(c: ConstraintSet, cells: seq<Cell>, gamma: real, n: nat, i: nat)
    requires Closed(c, n) && DofsBelow(cells, n) && DistinctCellDofs(cells)
    requires i < n && i !in c && NotAMaster(c, i)
    ensures CellLoop(c, cells, PoissonShape, Unit(n, i))[i] ==
            AssembleOwned(c, cells, PoissonDiagonalVectors(cells), Zeros(n))[i]
    ensures CellLoop(c, cells, KerkerShape(gamma), Unit(n, i))[i] ==
            AssembleOwned(c, cells, KerkerDiagonalVectors(cells, gamma), Zeros(n))[i]
  {
    var u := Unit(n, i);
    var pa := AXVectors(c, cells, PoissonShape, u);
    var ka := AXVectors(c, cells, KerkerShape(gamma), u);
    var pd := PoissonDiagonalVectors(cells);
    var kd := KerkerDiagonalVectors(cells, gamma);
    AssembleOwnedRows(c, cells, pa, Zeros(n));
    AssembleOwnedRows(c, cells, ka, Zeros(n));
    AssembleOwnedRows(c, cells, pd, Zeros(n));
    AssembleOwnedRows(c, cells, kd, Zeros(n));
    forall e: nat | e < |cells|
      ensures Contribution(cells, pa, i)(e) == Contribution(cells, pd, i)(e)
      ensures Contribution(cells, ka, i)(e) == Contribution(cells, kd, i)(e)
    {
      UnitContribution(c, cells, gamma, n, i, e);
    }
    SumExt(|cells|, Contribution(cells, pa, i), Contribution(cells, pd, i));
    SumExt(|cells|, Contribution(cells, ka, i), Contribution(cells, kd, i));
  }
}

=== FILE: options.dfy ===
/** Optional state: data a problem object holds only after the step that
    computes it has run. */
module Options {
  datatype Option<T> = None | Some(value: T)
}

=== FILE: poisson.dfy ===
/** poissonSolverProblem: the electrostatic problem
      -(1/(4 pi)) Laplace phi = rho - sum of point charges
    as a matrix-free operator with a Jacobi preconditioner, homogeneous and
    inhomogeneous constraints, and (for fully periodic problems) the
    mean-value constraint. The problem object keeps three sticky pieces of
    state across reinit calls: the mean-value constraint, the cache of
    shape-gradient integrals and the inverted diagonal. */
module Poisson {
  import opened Options
  import opened Vectors
  import opened Constraints
  import opened Quadrature
  import opened Assembly
  import opened Jacobi
  import opened MeanValue
  import opened GradCache
  import opened Operator

  /** Every atom sits on a DoF below n. */
  predicate AtomsBelow(atoms: seq<Atom>, n: nat)
  {
    forall k :: 0 <= k < |atoms| ==> atoms[k].dof < n
  }

  /** The atoms come from a map keyed by DoF: strictly increasing DoFs. */
  predicate AtomsSorted(atoms: seq<Atom>)
  {
    forall k, l :: 0 <= k < l < |atoms| ==> atoms[k].dof < atoms[l].dof
  }

  /** The quadrature values of rho, keyed by the position of the cell. */
  type DensityValues = map<nat, Vec>

  /** The state of a problem object after reinit: the bound data (x, the
      constraints, the mesh cells with dofs_per_cell local DoFs each, the
      atoms and the optional quadrature values of rho per cell) and the
      three sticky results. */
  datatype Problem = Problem(
    x: Vec,
    c: ConstraintSet,
    cells: seq<Cell>,
    dpc: nat,
    atoms: seq<Atom>,
    rho: Option<DensityValues>,
    meanValue: Option<MeanValueConstraint>,
    cache: Option<seq<real>>,
    diagonal: Option<Vec>)

  /** The constructor: nothing bound, no flag set. */
  const Fresh: Problem := Problem([], map[], [], 0, [], None, None, None, None)

  /** The bound data are consistent with each other and the sticky state
      fits the bound vector. */
  predicate Wf(p: Problem)
  {
    Closed(p.c, |p.x|) && Uniform(p.cells, p.dpc, |p.x|) && AtomsBelow(p.atoms, |p.x|) &&
    (p.meanValue.Some? ==> Valid(p.meanValue.value, |p.x|)) &&
    (p.diagonal.Some? ==> |p.diagonal.value| == |p.x|)
  }

  // ---------------------------------------------------------------------
  // Diagonal

  /** The assembled diagonal before inversion: sum over q of
      (1/(4 pi)) |grad phi_i|^2 JxW over the owned cells. Assembly never
      writes a constrained row. */
  function AssembledDiagonal(c: ConstraintSet, cells: seq<Cell>, n: nat): (a: Vec)
    requires Closed(c, n) && DofsBelow(cells, n)
    ensures |a| == n
    ensures forall i :: 0 <= i < n && i in c ==> a[i] == 0.0
  {
    AssembleOwnedRows(c, cells, PoissonDiagonalVectors(cells), Zeros(n));
    AssembleOwned(c, cells, PoissonDiagonalVectors(cells), Zeros(n))
  }

  /** computeDiagonalA: the assembled diagonal with its unconstrained
      entries inverted. None stands for a zero at an unconstrained DoF,
      where the source divides by zero. */
  function PoissonDiagonal(c: ConstraintSet, cells: seq<Cell>, n: nat): (r: Option<Vec>)
    requires Closed(c, n) && DofsBelow(cells, n)
    ensures r.Some? <==> Invertible(c, AssembledDiagonal(c, cells, n))
    ensures r.Some? ==> |r.value| == n
  {
    InvertedDiagonal(c, AssembledDiagonal(c, cells, n))
  }

  /** precondition_Jacobi with the stored inverted diagonal. */
  function Precondition(p: Problem, src: Vec, omega: real): (dst: Vec)
    requires p.diagonal.Some? && |p.diagonal.value| == |src|
    ensures |dst| == |src|
    ensures forall i :: 0 <= i < |src| ==> dst[i] == src[i] * p.diagonal.value[i]
  {
    PreconditionJacobi(src, p.diagonal.value, omega)
  }

  /** With a diagonal computed for the current constraints, constrained
      entries are never inverted: they keep their assembled value, zero, so
      the preconditioner zeroes every constrained entry. */
  lemma ConstrainedRowsNotInverted(c: ConstraintSet, cells: seq<Cell>, n: nat, src: Vec, omega: real)
    requires Closed(c, n) && DofsBelow(cells, n) && |src| == n
    requires PoissonDiagonal(c, cells, n).Some?
    ensures forall i :: 0 <= i < n && i in c ==> PoissonDiagonal(c, cells, n).value[i] == 0.0
    ensures forall i :: 0 <= i < n && i in c ==>
      PreconditionJacobi(src, PoissonDiagonal(c, cells, n).value, omega)[i] == 0.0
  {
    PreconditionerInvertsDiagonal(c, AssembledDiagonal(c, cells, n), PoissonDiagonal(c, cells, n).value, src, omega);
  }

  /** Every unconstrained entry of the computed diagonal is the reciprocal
      of the assembled operator diagonal, so preconditioning that diagonal
      gives one there. */
  lemma UnconstrainedRowsInverted(c: ConstraintSet, cells: seq<Cell>, n: nat, omega: real)
    requires Closed(c, n) && DofsBelow(cells, n)
    requires PoissonDiagonal(c, cells, n).Some?
    ensures forall i :: 0 <= i < n && i !in c ==>
      PoissonDiagonal(c, cells, n).value[i] * AssembledDiagonal(c, cells, n)[i] == 1.0
    ensures forall i :: 0 <= i < n && i !in c ==>
      PreconditionJacobi(AssembledDiagonal(c, cells, n), PoissonDiagonal(c, cells, n).value, omega)[i] == 1.0
  {
    var a := AssembledDiagonal(c, cells, n);
    PreconditionerInvertsDiagonal(c, a, PoissonDiagonal(c, cells, n).value, a, omega);
  }

  // ---------------------------------------------------------------------
  // reinit

  datatype Failure = NoAnchor | ZeroWeightAtAnchor | ZeroDiagonalEntry

  datatype Setup = Ready(p: Problem) | Failed(reason: Failure)

  /** The first reinit overload: bind x, the constraints, the atoms and rho;
      compute the mean-value constraint and the diagonal when asked. Neither
      result is cleared when not asked for, and the cache is kept. */
  method ReinitWithDensity(p: Problem, x: Vec, c: ConstraintSet, cells: seq<Cell>, dpc: nat,
                           atoms: seq<Atom>, rho: DensityValues,
                           computeDiagonal: bool, computeMeanValue: bool) returns (r: Setup)
    requires Closed(c, |x|) && Uniform(cells, dpc, |x|)
    ensures r.Ready? ==> r.p.x == x && r.p.c == c && r.p.cells == cells && r.p.dpc == dpc
    ensures r.Ready? ==> r.p.atoms == atoms && r.p.rho == Some(rho) && r.p.cache == p.cache
    ensures r.Ready? && !computeMeanValue ==> r.p.meanValue == p.meanValue
    ensures r.Ready? && computeMeanValue ==>
      r.p.meanValue.Some? && Valid(r.p.meanValue.value, |x|) &&
      FirstUntouched(c, atoms, |x|, r.p.meanValue.value.anchor) &&
      AssembledWeights(c, cells, |x|)[r.p.meanValue.value.anchor] != 0.0 &&
      r.p.meanValue.value.w == Normalise(AssembledWeights(c, cells, |x|), r.p.meanValue.value.anchor)
    ensures r.Ready? && computeDiagonal ==> r.p.diagonal == PoissonDiagonal(c, cells, |x|)
    ensures r.Ready? && !computeDiagonal ==> r.p.diagonal == p.diagonal
    ensures r == Failed(NoAnchor) <==>
      computeMeanValue && forall j :: 0 <= j < |x| ==> Touched(c, atoms, j)
    ensures r == Failed(ZeroWeightAtAnchor) <==>
      computeMeanValue && AnchorWeightZero(c, cells, atoms, |x|)
    ensures r == Failed(ZeroDiagonalEntry) <==>
      (computeMeanValue ==> AnchorBuildable(c, cells, atoms, |x|)) &&
      computeDiagonal && PoissonDiagonal(c, cells, |x|).None?
    ensures r.Ready? <==>
      (computeMeanValue ==> AnchorBuildable(c, cells, atoms, |x|)) &&
      (computeDiagonal ==> PoissonDiagonal(c, cells, |x|).Some?)
    ensures r.Failed? ==> computeMeanValue || computeDiagonal
    ensures !computeMeanValue && !computeDiagonal ==> r.Ready?
    ensures r.Ready? && computeMeanValue ==> AnchorFree(r.p)
    ensures (r.Ready? && AtomsBelow(atoms, |x|) &&
             (!computeMeanValue && p.meanValue.Some? ==> Valid(p.meanValue.value, |x|)) &&
             (!computeDiagonal && p.diagonal.Some? ==> |p.diagonal.value| == |x|)) ==> Wf(r.p)
  {
    var meanValue := p.meanValue;
    if computeMeanValue {
      var built := ComputeMeanValueConstraint(c, cells, atoms, |x|);
      match built {
        case Built(m) => meanValue := Some(m);
        case NoAnchorCandidate => return Failed(NoAnchor);
        case ZeroAnchorWeight => return Failed(ZeroWeightAtAnchor);
      }
    }
    var diagonal := p.diagonal;
    if computeDiagonal {
      diagonal := PoissonDiagonal(c, cells, |x|);
      if diagonal.None? {
        return Failed(ZeroDiagonalEntry);
      }
    }
    return Ready(Problem(x, c, cells, dpc, atoms, Some(rho), meanValue, p.cache, diagonal));
  }

  /** The second reinit overload: bind x, the constraints and the atoms,
      drop rho; compute the diagonal and the shape-gradient cache when
      asked. The mean-value constraint is left exactly as it was. */
  method ReinitWithoutDensity(p: Problem, x: Vec, c: ConstraintSet, cells: seq<Cell>, dpc: nat,
                              atoms: seq<Atom>,
                              computeDiagonal: bool, precomputeCache: bool) returns (r: Setup)
    requires Closed(c, |x|) && Uniform(cells, dpc, |x|)
    ensures r.Ready? ==> r.p.x == x && r.p.c == c && r.p.cells == cells && r.p.dpc == dpc
    ensures r.Ready? ==> r.p.atoms == atoms && r.p.rho == None && r.p.meanValue == p.meanValue
    ensures r.Ready? && computeDiagonal ==> r.p.diagonal == PoissonDiagonal(c, cells, |x|)
    ensures r.Ready? && !computeDiagonal ==> r.p.diagonal == p.diagonal
    ensures r.Ready? && precomputeCache ==>
      r.p.cache.Some? && |r.p.cache.value| == OwnedCount(cells) * dpc * dpc && CacheHolds(r.p.cache.value, cells, dpc)
    ensures r.Ready? && !precomputeCache ==> r.p.cache == p.cache
    ensures r.Failed? <==> computeDiagonal && PoissonDiagonal(c, cells, |x|).None?
    ensures r.Failed? ==> r.reason == ZeroDiagonalEntry
    ensures (r.Ready? && AtomsBelow(atoms, |x|) &&
             (p.meanValue.Some? ==> Valid(p.meanValue.value, |x|)) &&
             (!computeDiagonal && p.diagonal.Some? ==> |p.diagonal.value| == |x|)) ==> Wf(r.p)
  {
    var diagonal := p.diagonal;
    if computeDiagonal {
      diagonal := PoissonDiagonal(c, cells, |x|);
      if diagonal.None? {
        return Failed(ZeroDiagonalEntry);
      }
    }
    var cache := p.cache;
    if precomputeCache {
      var flat := PrecomputeShapeGradIntegral(cells, dpc);
      cache := Some(flat);
    }
    return Ready(Problem(x, c, cells, dpc, atoms, None, p.meanValue, cache, diagonal));
  }

  /** The anchor of the mean-value constraint (when there is one) is
      neither constrained nor a master for the bound constraints and
      carries no atom. */
  predicate AnchorFree(p: Problem)
  {
    p.meanValue.Some? ==> !Touched(p.c, p.atoms, p.meanValue.value.anchor)
  }

  // ---------------------------------------------------------------------
  // distributeX and vmult

  /** distributeX: ConstraintMatrix::distribute, then the mean-value
      distribute if the flag is set. Free entries other than the anchor keep
      their values. */
  function DistributeX(p: Problem): (r: Vec)
    requires Wf(p)
    ensures |r| == |p.x|
    ensures forall i :: 0 <= i < |p.x| && i !in p.c && (p.meanValue.Some? ==> i != p.meanValue.value.anchor) ==>
      r[i] == p.x[i]
    ensures p.meanValue.Some? ==> r[p.meanValue.value.anchor] == Dot(p.meanValue.value.w, r)
    ensures AnchorFree(p) ==> Satisfied(p.c, r)
  {
    var d := Constraints.Distribute(p.c, p.x);
    if p.meanValue.None? then d
    else
      var m := p.meanValue.value;
      var r := MeanValue.Distribute(m, d);
      assert r == d[m.anchor := Dot(m.w, d)];
      assert AnchorFree(p) ==> Satisfied(p.c, r) by {
        if AnchorFree(p) {
          SatisfiedIgnoresFreeEntry(p.c, d, m.anchor, Dot(m.w, d));
        }
      }
      r
  }

  /** Distributing twice is distributing once, provided the anchor is free
      of the other constraints. */
  lemma DistributeXIdempotent(p: Problem)
    requires Wf(p) && AnchorFree(p)
    ensures DistributeX(p.(x := DistributeX(p))) == DistributeX(p)
  {
    var q := p.(x := DistributeX(p));
    var d := Constraints.Distribute(p.c, p.x);
    DistributeFixesSatisfied(p.c, DistributeX(p));
    if p.meanValue.Some? {
      var m := p.meanValue.value;
      DistributeIdempotent(m, d);
    }
  }

  /** With a constraint built from the assembled weights W, the distributed
      field has zero mean: W . x = 0. */
  lemma DistributeXZeroMean(p: Problem, w: Vec)
    requires Wf(p) && p.meanValue.Some?
    requires |w| == |p.x| && w[p.meanValue.value.anchor] != 0.0
    requires p.meanValue.value.w == Normalise(w, p.meanValue.value.anchor)
    ensures Dot(w, DistributeX(p)) == 0.0
  {
    var o := p.meanValue.value.anchor;
    DistributeZeroesMean(w, o, Constraints.Distribute(p.c, p.x));
  }

  /** The Poisson cell loop: AX with the 1/(4 pi) gradient kernel. */
  function PoissonAX(p: Problem, src: Vec): (r: Vec)
    requires Wf(p) && |src| == |p.x|
    ensures |r| == |src|
    ensures forall i :: 0 <= i < |src| && i in p.c ==> r[i] == 0.0
  {
    assert DofsBelow(p.cells, |src|);
    CellLoop(p.c, p.cells, PoissonShape, src)
  }

  /** vmult: with the mean-value flag set, the cell loop acts on a
      distributed copy of x and its result is sent slave-to-master;
      otherwise the cell loop acts on x directly, and constrained rows of
      the result are zero. */
  function Vmult(p: Problem, x: Vec): (r: Vec)
    requires Wf(p) && |x| == |p.x|
    ensures |r| == |x|
    ensures p.meanValue.None? ==> forall i :: 0 <= i < |x| && i in p.c ==> r[i] == 0.0
    ensures p.meanValue.Some? ==> r[p.meanValue.value.anchor] == 0.0
    ensures p.meanValue.Some? ==> forall i :: 0 <= i < |x| && i in p.c && p.meanValue.value.w[i] == 0.0 ==> r[i] == 0.0
  {
    if p.meanValue.Some? then
      var m := p.meanValue.value;
      SlaveToMaster(m, PoissonAX(p, MeanValue.Distribute(m, x)))
    else PoissonAX(p, x)
  }

  /** The operator is positive semi-definite on a mesh with non-negative
      quadrature weights, with or without the mean-value projection: x . Ax
      is the integral of |grad x_h|^2 / (4 pi), for the distributed x when
      the projection is set. */
  lemma VmultNonNegative(p: Problem, x: Vec)
    requires Wf(p) && |x| == |p.x| && NonNegativeWeights(p.cells)
    ensures Dot(Vmult(p, x), x) >= 0.0
  {
    assert DofsBelow(p.cells, |p.x|);
    assert PoissonShape.gradScale >= 0.0;
    if p.meanValue.Some? {
      var m := p.meanValue.value;
      var dx := MeanValue.Distribute(m, x);
      SlaveToMasterAdjoint(m, PoissonAX(p, dx), x);
      CellLoopNonNegative(p.c, p.cells, PoissonShape, dx);
    } else {
      CellLoopNonNegative(p.c, p.cells, PoissonShape, x);
    }
  }

  /** Without the mean-value projection, at a DoF that is neither
      constrained nor a master (on a mesh whose cells list each DoF once),
      vmult applied to the DoF's unit vector returns the entry
      computeDiagonalA assembles there, so the Jacobi preconditioner holds
      the reciprocal of the operator's own diagonal entry. */
  lemma VmultUnitDiagonal(p: Problem, i: nat)
    requires Wf(p) && p.meanValue.None? && DistinctCellDofs(p.cells)
    requires i < |p.x| && i !in p.c && NotAMaster(p.c, i)
    ensures Vmult(p, Unit(|p.x|, i))[i] == AssembledDiagonal(p.c, p.cells, |p.x|)[i]
    ensures PoissonDiagonal(p.c, p.cells, |p.x|).Some? ==>
      PoissonDiagonal(p.c, p.cells, |p.x|).value[i] * Vmult(p, Unit(|p.x|, i))[i] == 1.0
  {
    assert DofsBelow(p.cells, |p.x|);
    CellLoopUnitDiagonal(p.c, p.cells, 0.0, |p.x|, i);
  }

  /** The projected operator does not see the anchor entry of its input. */
  lemma VmultIgnoresAnchor(p: Problem, x: Vec, a: real)
    requires Wf(p) && |x| == |p.x| && p.meanValue.Some?
    ensures Vmult(p, x[p.meanValue.value.anchor := a]) == Vmult(p, x)
  {
    DistributeIgnoresAnchor(p.meanValue.value, x, a);
  }

  /** The operator is self-adjoint, with or without the mean-value
      projection, which conjugate gradients relies on. */
  lemma VmultSelfAdjoint(p: Problem, x: Vec, y: Vec)
    requires Wf(p) && |x| == |p.x| && |y| == |p.x|
    ensures Dot(Vmult(p, x), y) == Dot(x, Vmult(p, y))
  {
    assert DofsBelow(p.cells, |p.x|);
    if p.meanValue.Some? {
      var m := p.meanValue.value;
      var dx := MeanValue.Distribute(m, x);
      var dy := MeanValue.Distribute(m, y);
      SlaveToMasterAdjoint(m, PoissonAX(p, dx), y);
      SlaveToMasterAdjoint(m, PoissonAX(p, dy), x);
      CellLoopSelfAdjoint(p.c, p.cells, PoissonShape, dx, dy);
      DotSymmetric(dx, PoissonAX(p, dy));
      DotSymmetric(x, SlaveToMaster(m, PoissonAX(p, dy)));
    } else {
      CellLoopSelfAdjoint(p.c, p.cells, PoissonShape, x, y);
    }
  }
}

=== FILE: poisson_rhs.dfy ===
/** poissonSolverProblem::computeRhs: the static-condensation term of the
    inhomogeneous constraints, the electronic density (when bound), the
    point charges at their nodes, then the mean-value slave-to-master
    projection (when set) and zeroing of the constrained rows. */
module PoissonRhs {
  import opened Options
  import opened Vectors
  import opened Constraints
  import opened Quadrature
  import opened Assembly
  import opened MeanValue
  import opened GradCache
  import opened Poisson

  // ---------------------------------------------------------------------
  // Static condensation

  /** Local Dirichlet data of a cell: the inhomogeneity at inhomogeneously
      constrained local DoFs, zero at the others. */
  function Lift(c: ConstraintSet, dofs: seq<nat>): (g: Vec)
    ensures |g| == |dofs|
  {
    seq(|dofs|, j requires 0 <= j < |dofs| =>
      if IsInhomogeneouslyConstrained(c, dofs[j]) then c[dofs[j]].inhomogeneity else 0.0)
  }

  /** Where K_ij comes from: computed at the quadrature points, or read from
      the shape-gradient cache. */
  datatype StiffnessSource = OnTheFly | Cached(cache: seq<real>)

  /** K_ij of the cell with owned ordinal k. */
  function LocalStiffness(src: StiffnessSource, cell: Cell, k: nat, i: nat, j: nat): real
  {
    match src
    case OnTheFly => PoissonStiffness(CellBasis(cell), i, j)
    case Cached(cache) => InvFourPi * At(cache, FlatIndex(k, j, i, |cell.dofs|))
  }

  /** -g_j K_ij for an inhomogeneously constrained column j, else 0. */
  function CondensationTermAt(c: ConstraintSet, cell: Cell, src: StiffnessSource, k: nat, i: nat, j: nat): real
  {
    if j < |cell.dofs| && IsInhomogeneouslyConstrained(c, cell.dofs[j]) then
      -Share(c[cell.dofs[j]].inhomogeneity, LocalStiffness(src, cell, k, i, j))
    else 0.0
  }

  function CondensationTerm(c: ConstraintSet, cell: Cell, src: StiffnessSource, k: nat, i: nat): nat -> real
  {
    (j: nat) => CondensationTermAt(c, cell, src, k, i, j)
  }

  /** The elemental right-hand side of static condensation. */
  function CondensationElemental(c: ConstraintSet, cell: Cell, src: StiffnessSource, k: nat): (r: Vec)
    ensures |r| == |cell.dofs|
  {
    seq(|cell.dofs|, i requires 0 <= i < |cell.dofs| => SumTo(|cell.dofs|, CondensationTerm(c, cell, src, k, i)))
  }

  /** assembleFlag: some local column is inhomogeneously constrained. */
  predicate AssembleFlag(c: ConstraintSet, dofs: seq<nat>)
  {
    exists j :: 0 <= j < |dofs| && IsInhomogeneouslyConstrained(c, dofs[j])
  }

  /** An element without inhomogeneous columns has a zero elemental vector,
      so not assembling it loses nothing. */
  lemma UnflaggedElementIsZero(c: ConstraintSet, cell: Cell, src: StiffnessSource, k: nat)
    requires !AssembleFlag(c, cell.dofs)
    ensures forall i :: 0 <= i < |cell.dofs| ==> CondensationElemental(c, cell, src, k)[i] == 0.0
  {
    forall i | 0 <= i < |cell.dofs|
      ensures CondensationElemental(c, cell, src, k)[i] == 0.0
    {
      SumZero(|cell.dofs|, CondensationTerm(c, cell, src, k, i));
    }
  }

  lemma NegatedRowTerm(c: ConstraintSet, cell: Cell, k: nat, i: nat, j: nat)
    ensures CondensationTerm(c, cell, OnTheFly, k, i)(j) ==
      -1.0 * RowTerm(CellBasis(cell), PoissonShape, Lift(c, cell.dofs), i)(j)
  {
    var b := CellBasis(cell);
    var g := Lift(c, cell.dofs);
    assert RowTerm(b, PoissonShape, g, i)(j) == Stiffness(b, PoissonShape, i, j) * At(g, j);
    PoissonStiffnessAgrees(b, i, j);
  }

  lemma CondensationRowNegated(c: ConstraintSet, cell: Cell, k: nat, i: nat)
    ensures SumTo(|cell.dofs|, CondensationTerm(c, cell, OnTheFly, k, i)) ==
      -1.0 * SumTo(|cell.dofs|, RowTerm(CellBasis(cell), PoissonShape, Lift(c, cell.dofs), i))
  {
    forall j: nat | j < |cell.dofs|
      ensures CondensationTerm(c, cell, OnTheFly, k, i)(j) == -1.0 * RowTerm(CellBasis(cell), PoissonShape, Lift(c, cell.dofs), i)(j)
    {
      NegatedRowTerm(c, cell, k, i, j);
    }
    SumScale(|cell.dofs|, -1.0, RowTerm(CellBasis(cell), PoissonShape, Lift(c, cell.dofs), i), CondensationTerm(c, cell, OnTheFly, k, i));
  }

  /** Static condensation is minus the Poisson cell operator applied to the
      local Dirichlet data: elementalRhs = -K g. */
  lemma CondensationIsOperatorOnLift(c: ConstraintSet, cell: Cell, k: nat, i: nat)
    requires i < |cell.dofs|
    ensures CondensationElemental(c, cell, OnTheFly, k)[i] ==
      -CellAX(CellBasis(cell), PoissonShape, Lift(c, cell.dofs))[i]
  {
    CondensationRowNegated(c, cell, k, i);
    CellAXIsStiffness(CellBasis(cell), PoissonShape, Lift(c, cell.dofs), i);
  }

  /** The cache read at iElem * d * d + j * d + i, scaled by 1/(4 pi), is
      the K_ij computed on the fly, for every owned cell. */
  lemma CachedStiffnessAgrees(cells: seq<Cell>, d: nat, n: nat, cache: seq<real>, e: nat, i: nat, j: nat)
    requires Uniform(cells, d, n) && CacheHolds(cache, cells, d)
    requires e < |cells| && cells[e].owned && i < d && j < d
    ensures LocalStiffness(Cached(cache), cells[e], OwnedCount(cells[..e]), i, j) ==
            LocalStiffness(OnTheFly, cells[e], OwnedCount(cells[..e]), i, j)
  {
    PoissonStiffnessAgrees(CellBasis(cells[e]), i, j);
  }

  /** The elemental vectors of every cell; non-owned cells are never
      assembled and stand as zeros. */
  function CondensationVectors(c: ConstraintSet, cells: seq<Cell>, src: StiffnessSource): (r: seq<Vec>)
    ensures |r| == |cells|
    ensures forall e :: 0 <= e < |cells| ==> |r[e]| == |cells[e].dofs|
  {
    seq(|cells|, e requires 0 <= e < |cells| =>
      if cells[e].owned then CondensationElemental(c, cells[e], src, OwnedCount(cells[..e]))
      else Zeros(|cells[e].dofs|))
  }

  /** Row i of an owned cell's condensation is the same read from the cache
      as computed. */
  lemma CachedRowAgrees(c: ConstraintSet, cells: seq<Cell>, d: nat, n: nat, cache: seq<real>, e: nat, i: nat)
    requires Uniform(cells, d, n) && CacheHolds(cache, cells, d)
    requires e < |cells| && cells[e].owned && i < d
    ensures SumTo(d, CondensationTerm(c, cells[e], Cached(cache), OwnedCount(cells[..e]), i)) ==
            SumTo(d, CondensationTerm(c, cells[e], OnTheFly, OwnedCount(cells[..e]), i))
  {
    var k := OwnedCount(cells[..e]);
    forall j: nat | j < d
      ensures CondensationTerm(c, cells[e], Cached(cache), k, i)(j) == CondensationTerm(c, cells[e], OnTheFly, k, i)(j)
    {
      CachedStiffnessAgrees(cells, d, n, cache, e, i, j);
    }
    SumExt(d, CondensationTerm(c, cells[e], Cached(cache), k, i), CondensationTerm(c, cells[e], OnTheFly, k, i));
  }

  /** Reading K from a cache written by precomputeShapeFunctionGradientIntegral
      for the same cells gives the same condensation as computing it. */
  lemma CachedCondensationAgrees(c: ConstraintSet, cells: seq<Cell>, d: nat, n: nat, cache: seq<real>)
    requires Uniform(cells, d, n) && CacheHolds(cache, cells, d)
    ensures CondensationVectors(c, cells, Cached(cache)) == CondensationVectors(c, cells, OnTheFly)
  {
    var a := CondensationVectors(c, cells, Cached(cache));
    var b := CondensationVectors(c, cells, OnTheFly);
    forall e | 0 <= e < |cells| && cells[e].owned
      ensures a[e] == b[e]
    {
      forall i | 0 <= i < d
        ensures a[e][i] == b[e][i]
      {
        CachedRowAgrees(c, cells, d, n, cache, e, i);
      }
    }
  }

  /** Rows below i hold the sum of their first j + 1 column terms, the
      rows from i on that of their first j. */
  predicate RowsSummed(elem: Vec, c: ConstraintSet, cell: Cell, src: StiffnessSource, k: nat, j: nat, i: nat)
  {
    forall i' :: 0 <= i' < |elem| ==>
      elem[i'] == SumTo(if i' < i then j + 1 else j, CondensationTerm(c, cell, src, k, i'))
  }

  /** Subtracting g_j K_ij from row i moves it on to j + 1 terms. */
  lemma RowsSummedStep(elem: Vec, c: ConstraintSet, cell: Cell, src: StiffnessSource, k: nat, j: nat, i: nat)
    requires j < |cell.dofs| && IsInhomogeneouslyConstrained(c, cell.dofs[j])
    requires i < |elem| && RowsSummed(elem, c, cell, src, k, j, i)
    ensures RowsSummed(elem[i := elem[i] - Share(c[cell.dofs[j]].inhomogeneity, LocalStiffness(src, cell, k, i, j))],
                       c, cell, src, k, j, i + 1)
  {
    var g := c[cell.dofs[j]].inhomogeneity;
    var stiffness := LocalStiffness(src, cell, k, i, j);
    assert CondensationTerm(c, cell, src, k, i)(j) == -(g * stiffness);
    assert SumTo(j + 1, CondensationTerm(c, cell, src, k, i)) ==
      SumTo(j, CondensationTerm(c, cell, src, k, i)) + CondensationTerm(c, cell, src, k, i)(j);
  }

  /** A column without an inhomogeneous constraint adds nothing to any row. */
  lemma RowsSummedSkip(elem: Vec, c: ConstraintSet, cell: Cell, src: StiffnessSource, k: nat, j: nat)
    requires j < |cell.dofs| && !IsInhomogeneouslyConstrained(c, cell.dofs[j])
    requires RowsSummed(elem, c, cell, src, k, j, 0)
    ensures RowsSummed(elem, c, cell, src, k, j + 1, 0)
  {
    forall i' | 0 <= i' < |elem|
      ensures elem[i'] == SumTo(j + 1, CondensationTerm(c, cell, src, k, i'))
    {
      assert CondensationTerm(c, cell, src, k, i')(j) == 0.0;
    }
  }

  /** The inner loop over i for an inhomogeneously constrained column j. */
  method SubtractColumn(c: ConstraintSet, cell: Cell, src: StiffnessSource, k: nat, j: nat, elem: Vec) returns (r: Vec)
    requires j < |cell.dofs| && IsInhomogeneouslyConstrained(c, cell.dofs[j])
    requires |elem| == |cell.dofs| && RowsSummed(elem, c, cell, src, k, j, 0)
    ensures |r| == |elem| && RowsSummed(r, c, cell, src, k, j + 1, 0)
  {
    var column := cell.dofs[j];
    r := elem;
    var i := 0;
    while i < |r|
      invariant |r| == |elem| && i <= |r|
      invariant RowsSummed(r, c, cell, src, k, j, i)
    {
      var stiffness := LocalStiffness(src, cell, k, i, j);
      RowsSummedStep(r, c, cell, src, k, j, i);
      r := r[i := r[i] - Share(c[column].inhomogeneity, stiffness)];
      i := i + 1;
    }
  }

  /** The j-outer, i-inner condensation loop of one cell, with its
      assembleFlag, which the inner loop sets on its first pass. */
  method CondensationLoop(c: ConstraintSet, cell: Cell, src: StiffnessSource, k: nat) returns (elem: Vec, flag: bool)
    ensures elem == CondensationElemental(c, cell, src, k)
    ensures flag <==> AssembleFlag(c, cell.dofs)
  {
    var d := |cell.dofs|;
    elem := Zeros(d);
    flag := false;
    var j := 0;
    while j < d
      invariant j <= d && |elem| == d
      invariant RowsSummed(elem, c, cell, src, k, j, 0)
      invariant flag <==> exists j' :: 0 <= j' < j && IsInhomogeneouslyConstrained(c, cell.dofs[j'])
    {
      var column := cell.dofs[j];
      if IsInhomogeneouslyConstrained(c, column) {
        elem := SubtractColumn(c, cell, src, k, j, elem);
        flag := true;
      } else {
        RowsSummedSkip(elem, c, cell, src, k, j);
      }
      j := j + 1;
    }
    assert forall i :: 0 <= i < d ==> elem[i] == CondensationElemental(c, cell, src, k)[i];
  }

  // ---------------------------------------------------------------------
  // Density and point charges

  /** Every owned cell has an entry in the rho map with a value for each
      of its quadrature points. The source looks the cell up without
      checking the result and indexes the entry without a bounds check, so
      an uncovered map is undefined behaviour there. */
  predicate DensityCovered(cells: seq<Cell>, rho: DensityValues)
  {
    forall e :: 0 <= e < |cells| && cells[e].owned ==>
      e in rho && |rho[e]| >= |cells[e].points|
  }

  /** The rho values of cell e; an absent entry stands as an empty vector,
      which only uncovered maps ever produce. */
  function DensityOf(rho: DensityValues, e: nat): Vec
  {
    if e in rho then rho[e] else []
  }

  /** Elemental density sources, rho given per cell at its quadrature
      points. */
  function DensityVectors(cells: seq<Cell>, rho: DensityValues): (r: seq<Vec>)
    ensures |r| == |cells|
    ensures forall e :: 0 <= e < |cells| ==> |r[e]| == |cells[e].dofs|
  {
    seq(|cells|, e requires 0 <= e < |cells| => DensityRhs(CellBasis(cells[e]), DensityOf(rho, e), |cells[e].dofs|))
  }

  /** Over a covered map, every quadrature point of an owned cell reads its
      own entry of rho: the zero padding of At is never used. */
  lemma CoveredDensityReadsEntries(cells: seq<Cell>, rho: DensityValues, e: nat, i: nat, q: nat)
    requires DensityCovered(cells, rho)
    requires e < |cells| && cells[e].owned && q < |cells[e].points|
    ensures e in rho && q < |rho[e]|
    ensures DensityTerm(CellBasis(cells[e]), DensityOf(rho, e), i)(q) ==
      Value(CellBasis(cells[e]), i, q) * rho[e][q] * JxW(CellBasis(cells[e]), q)
  {
  }

  function ChargeTerm(atoms: seq<Atom>, i: nat): nat -> real
  {
    (k: nat) => if k < |atoms| && atoms[k].dof == i then atoms[k].charge else 0.0
  }

  /** Total point charge sitting on DoF i. */
  function ChargeAt(atoms: seq<Atom>, i: nat): real
  {
    SumTo(|atoms|, ChargeTerm(atoms, i))
  }

  /** With atoms keyed by DoF, the charge on an atom's DoF is that atom's. */
  lemma ChargeAtAtom(atoms: seq<Atom>, k: nat)
    requires AtomsSorted(atoms) && k < |atoms|
    ensures ChargeAt(atoms, atoms[k].dof) == atoms[k].charge
  {
    SumPoint(|atoms|, k, ChargeTerm(atoms, atoms[k].dof));
  }

  /** No charge sits on a DoF that carries no atom. */
  lemma ChargeAtFree(atoms: seq<Atom>, i: nat)
    requires !IsAtomDof(atoms, i)
    ensures ChargeAt(atoms, i) == 0.0
  {
    SumZero(|atoms|, ChargeTerm(atoms, i));
  }

  /** The atom loop after its first a atoms: -charge handed to
      distribute_local_to_global at each atom's DoF, in order. */
  function AtomLoad(c: ConstraintSet, atoms: seq<Atom>, a: nat, v: Vec): (r: Vec)
    requires Closed(c, |v|) && AtomsBelow(atoms, |v|) && a <= |atoms|
    ensures |r| == |v|
    ensures forall i :: 0 <= i < |v| && i in c ==> r[i] == v[i]
    decreases a
  {
    if a == 0 then v
    else AddEntry(c, atoms[a - 1].dof, -atoms[a - 1].charge, AtomLoad(c, atoms, a - 1, v))
  }

  /** One more pass of the atom loop. */
  lemma AtomLoadNext(c: ConstraintSet, atoms: seq<Atom>, a: nat, v: Vec)
    requires Closed(c, |v|) && AtomsBelow(atoms, |v|) && a < |atoms|
    ensures AtomLoad(c, atoms, a + 1, v) == AddEntry(c, atoms[a].dof, -atoms[a].charge, AtomLoad(c, atoms, a, v))
  {
  }

  /** After the first a atoms, a row that is neither constrained nor a
      master has lost exactly the charge those atoms put on it. */
  lemma {:induction false} AtomLoadRows(c: ConstraintSet, atoms: seq<Atom>, a: nat, v: Vec, i: nat)
    requires Closed(c, |v|) && AtomsBelow(atoms, |v|) && a <= |atoms|
    requires i < |v| && i !in c && NotAMaster(c, i)
    ensures AtomLoad(c, atoms, a, v)[i] == v[i] - SumTo(a, ChargeTerm(atoms, i))
    decreases a
  {
    if a > 0 {
      AtomLoadRows(c, atoms, a - 1, v, i);
      assert !HasMaster(c, atoms[a - 1].dof, i);
    }
  }

  // ---------------------------------------------------------------------
  // The right-hand side

  function Source(p: Problem): StiffnessSource
  {
    if p.cache.Some? then Cached(p.cache.value) else OnTheFly
  }

  /** The condensation term assembled into a zero vector. */
  function CondensationRhs(p: Problem): (r: Vec)
    requires Wf(p)
    ensures |r| == |p.x|
  {
    AssembleOwned(p.c, p.cells, CondensationVectors(p.c, p.cells, Source(p)), Zeros(|p.x|))
  }

  /** Condensation plus the density term, when rho is bound. */
  function SourceRhs(p: Problem): (r: Vec)
    requires Wf(p)
    ensures |r| == |p.x|
  {
    if p.rho.Some? then AssembleOwned(p.c, p.cells, DensityVectors(p.cells, p.rho.value), CondensationRhs(p))
    else CondensationRhs(p)
  }

  /** Condensation and density land on the rows that are neither
      constrained nor masters; constrained rows stay zero. */
  lemma SourceRhsRows(p: Problem)
    requires Wf(p)
    ensures forall i :: 0 <= i < |p.x| && i in p.c ==> SourceRhs(p)[i] == 0.0
    ensures forall i :: 0 <= i < |p.x| && i !in p.c && NotAMaster(p.c, i) ==>
      SourceRhs(p)[i] == SumTo(|p.cells|, Contribution(p.cells, CondensationVectors(p.c, p.cells, Source(p)), i))
              + (if p.rho.Some? then SumTo(|p.cells|, Contribution(p.cells, DensityVectors(p.cells, p.rho.value), i)) else 0.0)
  {
    var cond := CondensationVectors(p.c, p.cells, Source(p));
    AssembleOwnedRows(p.c, p.cells, cond, Zeros(|p.x|));
    if p.rho.Some? {
      AssembleOwnedRows(p.c, p.cells, DensityVectors(p.cells, p.rho.value), CondensationRhs(p));
    }
  }

  /** The compressed right-hand side before the projections: zero on every
      constrained row; on a row that is neither constrained nor a master,
      the owned cells' condensation and density entries minus the charge on
      that DoF. */
  function RawRhs(p: Problem): (r: Vec)
    requires Wf(p)
    ensures |r| == |p.x|
    ensures forall i :: 0 <= i < |p.x| && i in p.c ==> r[i] == 0.0
    ensures forall i :: 0 <= i < |p.x| && i !in p.c && NotAMaster(p.c, i) ==>
      r[i] == SumTo(|p.cells|, Contribution(p.cells, CondensationVectors(p.c, p.cells, Source(p)), i))
              + (if p.rho.Some? then SumTo(|p.cells|, Contribution(p.cells, DensityVectors(p.cells, p.rho.value), i)) else 0.0)
              - ChargeAt(p.atoms, i)
  {
    var s := SourceRhs(p);
    SourceRhsRows(p);
    forall i | 0 <= i < |p.x| && i !in p.c && NotAMaster(p.c, i)
      ensures AtomLoad(p.c, p.atoms, |p.atoms|, s)[i] == s[i] - ChargeAt(p.atoms, i)
    {
      AtomLoadRows(p.c, p.atoms, |p.atoms|, s, i);
    }
    AtomLoad(p.c, p.atoms, |p.atoms|, s)
  }

  /** The density, when bound, covers every owned cell. */
  predicate DensityReady(p: Problem)
  {
    p.rho.Some? ==> DensityCovered(p.cells, p.rho.value)
  }

  /** Every entry the condensation loop reads from a kept shape-gradient
      cache lies inside it: for each owned cell (ordinal iElem), each
      inhomogeneously constrained column j and every row i, the position
      iElem * d * d + j * d + i. Both reinit overloads keep the cache, so a
      cache computed for an earlier mesh may be too short. */
  predicate CacheFits(p: Problem)
  {
    p.cache.Some? ==>
      forall e, j, i ::
        (0 <= e < |p.cells| && p.cells[e].owned && 0 <= j < |p.cells[e].dofs| &&
         IsInhomogeneouslyConstrained(p.c, p.cells[e].dofs[j]) && 0 <= i < |p.cells[e].dofs|) ==>
        FlatIndex(OwnedCount(p.cells[..e]), j, i, |p.cells[e].dofs|) < |p.cache.value|
  }

  /** A cache filled for the bound cells holds every entry the condensation
      loop reads. */
  lemma PrecomputedCacheFits(p: Problem)
    requires Wf(p) && p.cache.Some? && CacheHolds(p.cache.value, p.cells, p.dpc)
    ensures CacheFits(p)
  {
    forall e, j, i | 0 <= e < |p.cells| && p.cells[e].owned && 0 <= j < |p.cells[e].dofs| &&
      IsInhomogeneouslyConstrained(p.c, p.cells[e].dofs[j]) && 0 <= i < |p.cells[e].dofs|
      ensures FlatIndex(OwnedCount(p.cells[..e]), j, i, |p.cells[e].dofs|) < |p.cache.value|
    {
      assert |p.cells[e].dofs| == p.dpc;
    }
  }

  /** computeRhs: the raw right-hand side, sent slave-to-master when the
      mean-value constraint is set, with every constrained row zeroed. None
      stands for the two reads the source does out of bounds: a bound
      density that misses an owned cell or one of its quadrature points, and
      a kept cache too short for the bound cells. */
  function Rhs(p: Problem): (r: Option<Vec>)
    requires Wf(p)
    ensures r.Some? <==> DensityReady(p) && CacheFits(p)
    ensures r.Some? ==> |r.value| == |p.x|
    ensures r.Some? ==> forall i :: 0 <= i < |p.x| && i in p.c ==> r.value[i] == 0.0
    ensures r.Some? && p.meanValue.Some? ==> r.value[p.meanValue.value.anchor] == 0.0
    ensures r.Some? && p.meanValue.None? ==> forall i :: 0 <= i < |p.x| && i !in p.c ==> r.value[i] == RawRhs(p)[i]
    ensures r.Some? && p.meanValue.Some? ==> forall i :: 0 <= i < |p.x| && i !in p.c && i != p.meanValue.value.anchor ==>
      r.value[i] == RawRhs(p)[i] + RawRhs(p)[p.meanValue.value.anchor] * p.meanValue.value.w[i]
  {
    if !DensityReady(p) || !CacheFits(p) then None
    else
      var raw := RawRhs(p);
      if p.meanValue.Some? then Some(Constraints.SetZero(p.c, SlaveToMaster(p.meanValue.value, raw)))
      else Some(Constraints.SetZero(p.c, raw))
  }

  /** With the mean-value constraint set, testing the right-hand side
      against any v that vanishes on the constrained rows equals testing the
      raw right-hand side against the distributed v: the right-hand side is
      projected consistently with vmult. */
  lemma RhsTestsDistributed(p: Problem, v: Vec)
    requires Wf(p) && p.meanValue.Some? && |v| == |p.x|
    requires forall i :: 0 <= i < |v| && i in p.c ==> v[i] == 0.0
    ensures Rhs(p).Some? ==> Dot(Rhs(p).value, v) == Dot(RawRhs(p), MeanValue.Distribute(p.meanValue.value, v))
  {
    var m := p.meanValue.value;
    DotSetZero(p.c, SlaveToMaster(m, RawRhs(p)), v);
    SlaveToMasterAdjoint(m, RawRhs(p), v);
  }

  /** One owned cell of the condensation loop: its elemental vector handed
      to distribute_local_to_global only when assembleFlag is set, which
      loses nothing since an unflagged vector is zero. */
  method CondensationCell(c: ConstraintSet, cell: Cell, src: StiffnessSource, k: nat, rhs: Vec) returns (r: Vec)
    requires Closed(c, |rhs|)
    requires forall j :: 0 <= j < |cell.dofs| ==> cell.dofs[j] < |rhs|
    ensures r == DistributeLocalToGlobal(c, CondensationElemental(c, cell, src, k), cell.dofs, rhs)
  {
    var elem, flag := CondensationLoop(c, cell, src, k);
    if flag {
      r := DistributeLocalToGlobal(c, elem, cell.dofs, rhs);
    } else {
      UnflaggedElementIsZero(c, cell, src, k);
      DistributeZerosKeeps(c, elem, cell.dofs, rhs);
      r := rhs;
    }
  }

  /** The condensation loop of computeRhs over the active cells: every owned
      cell's elemental vector, with iElem counting owned cells, assembled. */
  method AssembleCondensation(c: ConstraintSet, cells: seq<Cell>, src: StiffnessSource, n: nat) returns (rhs: Vec)
    requires Closed(c, n) && DofsBelow(cells, n)
    ensures rhs == AssembleOwned(c, cells, CondensationVectors(c, cells, src), Zeros(n))
  {
    ghost var condensation := CondensationVectors(c, cells, src);
    rhs := Zeros(n);
    var e := 0;
    var k := 0;
    while e < |cells|
      invariant e <= |cells| && k == OwnedCount(cells[..e])
      invariant rhs == AssembleOwned(c, cells[..e], condensation[..e], Zeros(n))
    {
      AssembleOwnedStep(c, cells, condensation, Zeros(n), e);
      if cells[e].owned {
        rhs := CondensationCell(c, cells[e], src, k, rhs);
      }
      OwnedCountStep(cells, e);
      k := k + (if cells[e].owned then 1 else 0);
      e := e + 1;
    }
    assert cells[..e] == cells && condensation[..e] == condensation;
  }

  /** The density loop of computeRhs: every owned cell's integrated rho added
      into v. */
  method AssembleDensity(c: ConstraintSet, cells: seq<Cell>, rho: DensityValues, v: Vec) returns (rhs: Vec)
    requires Closed(c, |v|) && DofsBelow(cells, |v|) && DensityCovered(cells, rho)
    ensures rhs == AssembleOwned(c, cells, DensityVectors(cells, rho), v)
  {
    ghost var density := DensityVectors(cells, rho);
    rhs := v;
    var e := 0;
    while e < |cells|
      invariant e <= |cells|
      invariant rhs == AssembleOwned(c, cells[..e], density[..e], v)
    {
      AssembleOwnedStep(c, cells, density, v, e);
      if cells[e].owned {
        var elem := DensityRhs(CellBasis(cells[e]), rho[e], |cells[e].dofs|);
        assert rho[e] == DensityOf(rho, e);
        assert elem == density[e];
        rhs := DistributeLocalToGlobal(c, elem, cells[e].dofs, rhs);
      }
      e := e + 1;
    }
    assert cells[..e] == cells && density[..e] == density;
  }

  /** The atom loop of computeRhs. */
  method LoadAtoms(c: ConstraintSet, atoms: seq<Atom>, v: Vec) returns (rhs: Vec)
    requires Closed(c, |v|) && AtomsBelow(atoms, |v|)
    ensures rhs == AtomLoad(c, atoms, |atoms|, v)
  {
    rhs := v;
    var a := 0;
    while a < |atoms|
      invariant a <= |atoms|
      invariant rhs == AtomLoad(c, atoms, a, v)
    {
      AtomLoadNext(c, atoms, a, v);
      rhs := AddEntry(c, atoms[a].dof, -atoms[a].charge, rhs);
      a := a + 1;
    }
  }

  /** Walks the cells once and reports whether the rho map covers every
      owned one. */
  method CheckDensity(cells: seq<Cell>, rho: DensityValues) returns (ok: bool)
    ensures ok <==> DensityCovered(cells, rho)
  {
    var e := 0;
    while e < |cells|
      invariant e <= |cells|
      invariant forall k :: 0 <= k < e && cells[k].owned ==> k in rho && |rho[k]| >= |cells[k].points|
    {
      if cells[e].owned && (e !in rho || |rho[e]| < |cells[e].points|) {
        return false;
      }
      e := e + 1;
    }
    return true;
  }

  /** computeRhs: condensation, density when bound, atoms, then the
      mean-value projection when set and set_zero; nothing when a read
      would leave the kept cache or the bound density. */
  method ComputeRhs(p: Problem) returns (r: Option<Vec>)
    requires Wf(p)
    ensures r == Rhs(p)
  {
    if !CacheFits(p) {
      return None;
    }
    var rhs := AssembleCondensation(p.c, p.cells, Source(p), |p.x|);
    if p.rho.Some? {
      var ok := CheckDensity(p.cells, p.rho.value);
      if !ok {
        return None;
      }
      rhs := AssembleDensity(p.c, p.cells, p.rho.value, rhs);
    }
    rhs := LoadAtoms(p.c, p.atoms, rhs);
    if p.meanValue.Some? {
      rhs := SlaveToMaster(p.meanValue.value, rhs);
    }
    rhs := Constraints.SetZero(p.c, rhs);
    return Some(rhs);
  }
}

=== FILE: quadrature.dfy ===
/** Per-cell quadrature data and the elemental integrals and matrix-free cell
    kernels built from it. The finite-element evaluation itself (FEValues,
    FEEvaluation, sum factorisation) is not modelled: a cell simply carries,
    at each quadrature point q, the weight JxW(q) and the value and gradient
    of every local shape function there. */
module Quadrature {
  import opened Vectors

  /** M_PI. Only Pi > 0 matters to the properties proved here. */
  const Pi: real := 3.141592653589793

  /** The Poisson scaling 1/(4 pi) (named `quarter` in the cell kernel). */
  const InvFourPi: real := 1.0 / (4.0 * Pi)

  /** One quadrature point: JxW and the shape values and gradients of the
      cell's local DoFs at that point. */
  datatype QPoint = QPoint(jxw: real, values: seq<real>, grads: seq<V3>)

  /** An active cell: whether this rank owns it, its local-to-global DoF
      map, and its quadrature points. */
  datatype Cell = Cell(owned: bool, dofs: seq<nat>, points: seq<QPoint>)

  /** The quadrature view of a cell: point count, shape gradients and
      values (indexed by local DoF and point) and weights. */
  datatype Basis = Basis(nq: nat, grad: (nat, nat) -> V3, value: (nat, nat) -> real, jxw: nat -> real)

  function CellBasis(cell: Cell): Basis
  {
    Basis(|cell.points|,
      (i: nat, q: nat) => if q < |cell.points| && i < |cell.points[q].grads| then cell.points[q].grads[i] else Origin,
      (i: nat, q: nat) => if q < |cell.points| && i < |cell.points[q].values| then cell.points[q].values[i] else 0.0,
      (q: nat) => if q < |cell.points| then cell.points[q].jxw else 0.0)
  }

  function JxW(cell: Basis, q: nat): real
  {
    cell.jxw(q)
  }

  /** shape_value(i, q). */
  function Value(cell: Basis, i: nat, q: nat): real
  {
    cell.value(i, q)
  }

  /** shape_grad(i, q). */
  function Grad(cell: Basis, i: nat, q: nat): V3
  {
    cell.grad(i, q)
  }

  function At(u: Vec, j: nat): real
  {
    if j < |u| then u[j] else 0.0
  }

  function NumPoints(cell: Basis): nat
  {
    cell.nq
  }

  // ---------------------------------------------------------------------
  // Elemental integrals

  /** grad phi_i . grad phi_j JxW at point q. Each integrand below is a
      plain function of q wrapped in a lambda, so that the lambdas handed to
      SumTo stay free of arithmetic. */
  function GradIntegrandAt(cell: Basis, i: nat, j: nat, q: nat): real
  {
    Dot3(Grad(cell, i, q), Grad(cell, j, q)) * JxW(cell, q)
  }

  function GradIntegrand(cell: Basis, i: nat, j: nat): nat -> real
  {
    (q: nat) => GradIntegrandAt(cell, i, j, q)
  }

  /** Integral of grad phi_i . grad phi_j over the cell: what the Poisson
      problem caches when it precomputes shape-gradient integrals. */
  function GradIntegral(cell: Basis, i: nat, j: nat): real
  {
    SumTo(NumPoints(cell), GradIntegrand(cell, i, j))
  }

  /** The shape of an elliptic operator -a Laplace + b I in weak form:
      Poisson is (1/(4 pi), 0), Kerker is (1, 4 pi gamma). */
  datatype Shape = Shape(gradScale: real, massScale: real)

  /** The Poisson AX kernel: submit_gradient(get_gradient * quarter) with
      quarter = 1/(4 pi), and no submit_value (integrate(false, true)). */
  const PoissonShape: Shape := Shape(InvFourPi, 0.0)

  /** The Kerker AX kernel: submit_gradient(get_gradient) unscaled and
      submit_value(get_value * kerkerConst), kerkerConst = 4 pi gamma. */
  function KerkerShape(gamma: real): Shape
  {
    Shape(1.0, 4.0 * Pi * gamma)
  }

  /** (a grad phi_i . grad phi_j + b phi_i phi_j) JxW at point q. */
  function IntegrandAt(cell: Basis, s: Shape, i: nat, j: nat, q: nat): real
  {
    (s.gradScale * Dot3(Grad(cell, i, q), Grad(cell, j, q))
     + s.massScale * Value(cell, i, q) * Value(cell, j, q)) * JxW(cell, q)
  }

  function Integrand(cell: Basis, s: Shape, i: nat, j: nat): nat -> real
  {
    (q: nat) => IntegrandAt(cell, s, i, j, q)
  }

  /** Local stiffness entry K_ij of an operator shape. */
  function Stiffness(cell: Basis, s: Shape, i: nat, j: nat): real
  {
    SumTo(NumPoints(cell), Integrand(cell, s, i, j))
  }

  function PoissonStiffnessTermAt(cell: Basis, i: nat, j: nat, q: nat): real
  {
    InvFourPi * Dot3(Grad(cell, i, q), Grad(cell, j, q)) * JxW(cell, q)
  }

  function PoissonStiffnessTerm(cell: Basis, i: nat, j: nat): nat -> real
  {
    (q: nat) => PoissonStiffnessTermAt(cell, i, j, q)
  }

  /** K_ij as the Poisson right-hand side computes it on the fly:
      sum over q of (1/(4 pi)) (grad phi_i . grad phi_j) JxW. */
  function PoissonStiffness(cell: Basis, i: nat, j: nat): real
  {
    SumTo(NumPoints(cell), PoissonStiffnessTerm(cell, i, j))
  }

  /** Both ways the Poisson right-hand side obtains K_ij -- on the fly, or
      1/(4 pi) times the cached gradient integral -- are the Poisson
      operator's stiffness entry. */
  lemma PoissonStiffnessAgrees(cell: Basis, i: nat, j: nat)
    ensures PoissonStiffness(cell, i, j) == InvFourPi * GradIntegral(cell, i, j)
    ensures PoissonStiffness(cell, i, j) == Stiffness(cell, PoissonShape, i, j)
  {
    SumScale(NumPoints(cell), InvFourPi, GradIntegrand(cell, i, j), PoissonStiffnessTerm(cell, i, j));
    SumExt(NumPoints(cell), PoissonStiffnessTerm(cell, i, j), Integrand(cell, PoissonShape, i, j));
  }

  function PoissonDiagonalTermAt(cell: Basis, i: nat, q: nat): real
  {
    InvFourPi * Dot3(Grad(cell, i, q), Grad(cell, i, q)) * JxW(cell, q)
  }

  function PoissonDiagonalTerm(cell: Basis, i: nat): nat -> real
  {
    (q: nat) => PoissonDiagonalTermAt(cell, i, q)
  }

  /** Elemental diagonal entry i assembled by the Poisson computeDiagonalA. */
  function PoissonDiagonalEntry(cell: Basis, i: nat): real
  {
    SumTo(NumPoints(cell), PoissonDiagonalTerm(cell, i))
  }

  function KerkerDiagonalTermAt(cell: Basis, gamma: real, i: nat, q: nat): real
  {
    (Dot3(Grad(cell, i, q), Grad(cell, i, q))
     + 4.0 * Pi * gamma * Value(cell, i, q) * Value(cell, i, q)) * JxW(cell, q)
  }

  function KerkerDiagonalTerm(cell: Basis, gamma: real, i: nat): nat -> real
  {
    (q: nat) => KerkerDiagonalTermAt(cell, gamma, i, q)
  }

  /** Elemental diagonal entry i assembled by the Kerker computeDiagonalA:
      sum over q of (|grad phi_i|^2 + 4 pi gamma phi_i^2) JxW. */
  function KerkerDiagonalEntry(cell: Basis, gamma: real, i: nat): real
  {
    SumTo(NumPoints(cell), KerkerDiagonalTerm(cell, gamma, i))
  }

  /** The assembled diagonals are the diagonals of the operators the cell
      kernels apply. */
  lemma DiagonalEntriesAreStiffnessDiagonals(cell: Basis, gamma: real, i: nat)
    ensures PoissonDiagonalEntry(cell, i) == Stiffness(cell, PoissonShape, i, i)
    ensures KerkerDiagonalEntry(cell, gamma, i) == Stiffness(cell, KerkerShape(gamma), i, i)
  {
    SumExt(NumPoints(cell), PoissonDiagonalTerm(cell, i), Integrand(cell, PoissonShape, i, i));
    SumExt(NumPoints(cell), KerkerDiagonalTerm(cell, gamma, i), Integrand(cell, KerkerShape(gamma), i, i));
  }

  /** Elemental diagonal vectors of a cell. */
  function PoissonDiagonalVector(cell: Basis, dpc: nat): (r: Vec)
    ensures |r| == dpc
  {
    seq(dpc, i requires 0 <= i < dpc => PoissonDiagonalEntry(cell, i))
  }

  function KerkerDiagonalVector(cell: Basis, gamma: real, dpc: nat): (r: Vec)
    ensures |r| == dpc
  {
    seq(dpc, i requires 0 <= i < dpc => KerkerDiagonalEntry(cell, gamma, i))
  }

  /** With non-negative quadrature weights and gamma >= 0 both diagonals
      are non-negative: sums of squares times weights. */
  lemma DiagonalEntriesNonNegative(cell: Basis, gamma: real, i: nat)
    requires forall q: nat :: q < cell.nq ==> cell.jxw(q) >= 0.0
    requires gamma >= 0.0
    ensures PoissonDiagonalEntry(cell, i) >= 0.0
    ensures KerkerDiagonalEntry(cell, gamma, i) >= 0.0
  {
    forall q: nat | q < NumPoints(cell)
      ensures PoissonDiagonalTerm(cell, i)(q) >= 0.0
      ensures KerkerDiagonalTerm(cell, gamma, i)(q) >= 0.0
    {
      var g := Grad(cell, i, q);
      var v := Value(cell, i, q);
      assert Dot3(g, g) >= 0.0;
      assert 4.0 * Pi * gamma * v * v >= 0.0;
    }
    SumNonNegative(NumPoints(cell), PoissonDiagonalTerm(cell, i));
    SumNonNegative(NumPoints(cell), KerkerDiagonalTerm(cell, gamma, i));
  }

  function ShapeTermAt(cell: Basis, i: nat, q: nat): real
  {
    Value(cell, i, q) * JxW(cell, q)
  }

  function ShapeTerm(cell: Basis, i: nat): nat -> real
  {
    (q: nat) => ShapeTermAt(cell, i, q)
  }

  /** Integral of phi_i over the cell: the elemental mean-value weight. */
  function ShapeIntegral(cell: Basis, i: nat): real
  {
    SumTo(NumPoints(cell), ShapeTerm(cell, i))
  }

  function ShapeIntegralVector(cell: Basis, dpc: nat): (r: Vec)
    ensures |r| == dpc
  {
    seq(dpc, i requires 0 <= i < dpc => ShapeIntegral(cell, i))
  }

  function DensityTermAt(cell: Basis, rho: Vec, i: nat, q: nat): real
  {
    Value(cell, i, q) * At(rho, q) * JxW(cell, q)
  }

  function DensityTerm(cell: Basis, rho: Vec, i: nat): nat -> real
  {
    (q: nat) => DensityTermAt(cell, rho, i, q)
  }

  /** Elemental electrostatic source: sum over q of phi_i rho_q JxW. */
  function DensityRhs(cell: Basis, rho: Vec, dpc: nat): (r: Vec)
    ensures |r| == dpc
  {
    seq(dpc, i requires 0 <= i < dpc => SumTo(NumPoints(cell), DensityTerm(cell, rho, i)))
  }

  /** A unit density integrates every shape function: the density source
      with rho = 1 is the mean-value weight vector of the cell. */
  lemma UnitDensityIsShapeIntegral(cell: Basis, dpc: nat)
    ensures DensityRhs(cell, seq(NumPoints(cell), _ => 1.0), dpc) == ShapeIntegralVector(cell, dpc)
  {
    var ones := seq(NumPoints(cell), _ => 1.0);
    forall i | 0 <= i < dpc
      ensures DensityRhs(cell, ones, dpc)[i] == ShapeIntegralVector(cell, dpc)[i]
    {
      SumExt(NumPoints(cell), DensityTerm(cell, ones, i), ShapeTerm(cell, i));
    }
  }

  /** g_q = (t[3q], t[3q+1], t[3q+2]): the residual gradient at point q. */
  function GradientSample(t: Vec, q: nat): V3
  {
    V3(At(t, 3 * q), At(t, 3 * q + 1), At(t, 3 * q + 2))
  }

  function ResidualTermAt(cell: Basis, t: Vec, i: nat, q: nat): real
  {
    Dot3(Grad(cell, i, q), GradientSample(t, q)) * JxW(cell, q)
  }

  function ResidualTerm(cell: Basis, t: Vec, i: nat): nat -> real
  {
    (q: nat) => ResidualTermAt(cell, t, i, q)
  }

  /** Elemental Kerker source: sum over q of grad phi_i . g_q JxW. */
  function ResidualGradientRhs(cell: Basis, t: Vec, dpc: nat): (r: Vec)
    ensures |r| == dpc
  {
    seq(dpc, i requires 0 <= i < dpc => SumTo(NumPoints(cell), ResidualTerm(cell, t, i)))
  }

  // ---------------------------------------------------------------------
  // Matrix-free cell kernels (the AX functions)

  function GradTermAt(cell: Basis, u: Vec, q: nat, j: nat): V3
  {
    Times3(At(u, j), Grad(cell, j, q))
  }

  function GradTerms(cell: Basis, u: Vec, q: nat): nat -> V3
  {
    (j: nat) => GradTermAt(cell, u, q, j)
  }

  function ValueTermAt(cell: Basis, u: Vec, q: nat, j: nat): real
  {
    At(u, j) * Value(cell, j, q)
  }

  function ValueTerms(cell: Basis, u: Vec, q: nat): nat -> real
  {
    (j: nat) => ValueTermAt(cell, u, q, j)
  }

  /** FEEvaluation::get_gradient(q) after read_dof_values(u). */
  function EvalGradient(cell: Basis, u: Vec, q: nat): V3
  {
    SumV3(|u|, GradTerms(cell, u, q))
  }

  /** FEEvaluation::get_value(q) after read_dof_values(u). */
  function EvalValue(cell: Basis, u: Vec, q: nat): real
  {
    SumTo(|u|, ValueTerms(cell, u, q))
  }

  /** What a kernel submits at one quadrature point: a gradient and a value
      (a kernel that submits no value is one that submits 0). */
  datatype Submission = Submission(gradient: V3, value: real)

  /** The point kernel of an operator shape: submit_gradient(get_gradient
      scaled by a) and submit_value(get_value scaled by b). */
  function ShapePointKernel(s: Shape, grad: V3, value: real): Submission
  {
    Submission(Times3(s.gradScale, grad), value * s.massScale)
  }

  /** Shape function i integrated against one submission at point q. */
  function TestAt(cell: Basis, x: Submission, i: nat, q: nat): real
  {
    (Dot3(Grad(cell, i, q), x.gradient) + Value(cell, i, q) * x.value) * JxW(cell, q)
  }

  function IntegrateTerm(cell: Basis, sub: nat -> Submission, i: nat): nat -> real
  {
    (q: nat) => TestAt(cell, sub(q), i, q)
  }

  /** FEEvaluation::integrate: test the submitted field against every
      shape function. */
  function Integrate(cell: Basis, sub: nat -> Submission, dpc: nat): (r: Vec)
    ensures |r| == dpc
  {
    seq(dpc, i requires 0 <= i < dpc => SumTo(NumPoints(cell), IntegrateTerm(cell, sub, i)))
  }

  function Submissions(cell: Basis, s: Shape, u: Vec): nat -> Submission
  {
    (q: nat) => ShapePointKernel(s, EvalGradient(cell, u, q), EvalValue(cell, u, q))
  }

  /** AX on one cell's local values u: read, evaluate, apply the point
      kernel at every quadrature point, integrate. */
  function CellAX(cell: Basis, s: Shape, u: Vec): (r: Vec)
    ensures |r| == |u|
  {
    Integrate(cell, Submissions(cell, s, u), |u|)
  }

  // ---------------------------------------------------------------------
  // The cell kernels apply the local stiffness matrices

  function RowTermAt(cell: Basis, s: Shape, u: Vec, i: nat, j: nat): real
  {
    Stiffness(cell, s, i, j) * At(u, j)
  }

  function RowTerm(cell: Basis, s: Shape, u: Vec, i: nat): nat -> real
  {
    (j: nat) => RowTermAt(cell, s, u, i, j)
  }

  /** Quadrature point q, local DoF j term of row i of the cell kernel. */
  function DoubleTermAt(cell: Basis, s: Shape, u: Vec, i: nat, q: nat, j: nat): real
  {
    IntegrandAt(cell, s, i, j, q) * At(u, j)
  }

  function DoubleTerm(cell: Basis, s: Shape, u: Vec, i: nat): (nat, nat) -> real
  {
    (q: nat, j: nat) => DoubleTermAt(cell, s, u, i, q, j)
  }

  /** The arithmetic behind KernelTermAt, over plain values. */
  lemma SplitPointTerm(dt: real, it: real, uj: real, a: real, b: real, gi: V3, gj: V3,
                       vi: real, vj: real, w: real, gt: V3, vt: real)
    requires dt == it * uj
    requires it == (a * Dot3(gi, gj) + b * vi * vj) * w
    requires gt == Times3(uj, gj)
    requires vt == uj * vj
    ensures dt == (w * a) * Dot3(gi, gt) + (w * vi * b) * vt
  {
    Dot3ScaleRight(gi, uj, gj);
    assert dt == (w * a) * (uj * Dot3(gi, gj)) + (w * vi * b) * (uj * vj);
  }

  /** The arithmetic behind SubmissionAt, over plain values. */
  lemma SplitSubmission(t: real, a: real, b: real, gi: V3, eg: V3, vi: real, ev: real, w: real, x: Submission)
    requires x == Submission(Times3(a, eg), ev * b)
    requires t == (Dot3(gi, x.gradient) + vi * x.value) * w
    ensures t == (w * a) * Dot3(gi, eg) + (w * vi * b) * ev
  {
    Dot3ScaleRight(gi, a, eg);
    assert t == (w * a) * Dot3(gi, eg) + (w * vi * b) * ev;
  }

  lemma DoubleTermUnfold(cell: Basis, s: Shape, u: Vec, i: nat, q: nat, j: nat)
    ensures DoubleTermAt(cell, s, u, i, q, j) == IntegrandAt(cell, s, i, j, q) * At(u, j)
    ensures IntegrandAt(cell, s, i, j, q)
         == (s.gradScale * Dot3(Grad(cell, i, q), Grad(cell, j, q))
             + s.massScale * Value(cell, i, q) * Value(cell, j, q)) * JxW(cell, q)
    ensures GradTermAt(cell, u, q, j) == Times3(At(u, j), Grad(cell, j, q))
    ensures ValueTermAt(cell, u, q, j) == At(u, j) * Value(cell, j, q)
  {
  }

  /** The (q, j) term splits into the gradient and value parts that the
      kernel evaluates at q. */
  lemma KernelTermAt(cell: Basis, s: Shape, u: Vec, i: nat, q: nat, j: nat)
    ensures DoubleTermAt(cell, s, u, i, q, j)
         == (JxW(cell, q) * s.gradScale) * Dot3(Grad(cell, i, q), GradTermAt(cell, u, q, j))
          + (JxW(cell, q) * Value(cell, i, q) * s.massScale) * ValueTermAt(cell, u, q, j)
  {
    DoubleTermUnfold(cell, s, u, i, q, j);
    SplitPointTerm(DoubleTermAt(cell, s, u, i, q, j), IntegrandAt(cell, s, i, j, q), At(u, j),
      s.gradScale, s.massScale, Grad(cell, i, q), Grad(cell, j, q), Value(cell, i, q), Value(cell, j, q),
      JxW(cell, q), GradTermAt(cell, u, q, j), ValueTermAt(cell, u, q, j));
  }

  lemma SubmissionUnfold(cell: Basis, s: Shape, u: Vec, i: nat, q: nat)
    ensures Submissions(cell, s, u)(q)
         == Submission(Times3(s.gradScale, EvalGradient(cell, u, q)), EvalValue(cell, u, q) * s.massScale)
    ensures TestAt(cell, Submissions(cell, s, u)(q), i, q)
         == (Dot3(Grad(cell, i, q), Submissions(cell, s, u)(q).gradient)
             + Value(cell, i, q) * Submissions(cell, s, u)(q).value) * JxW(cell, q)
  {
  }

  lemma SubmissionAt(cell: Basis, s: Shape, u: Vec, i: nat, q: nat)
    ensures TestAt(cell, Submissions(cell, s, u)(q), i, q)
         == (JxW(cell, q) * s.gradScale) * Dot3(Grad(cell, i, q), EvalGradient(cell, u, q))
          + (JxW(cell, q) * Value(cell, i, q) * s.massScale) * EvalValue(cell, u, q)
  {
    SubmissionUnfold(cell, s, u, i, q);
    SplitSubmission(TestAt(cell, Submissions(cell, s, u)(q), i, q), s.gradScale, s.massScale,
      Grad(cell, i, q), EvalGradient(cell, u, q), Value(cell, i, q), EvalValue(cell, u, q), JxW(cell, q),
      Submissions(cell, s, u)(q));
  }

  function ScaledDotTerm(c: real, a: V3, f: nat -> V3): nat -> real
  {
    (j: nat) => c * DotEach(a, f)(j)
  }

  /** Linearity behind PointRow, over plain values and term families: if
      t = ca (gi . eg) + cb ev with eg = sum G and ev = sum V, and every
      R(j) = ca (gi . G(j)) + cb V(j), then t = sum R. */
  lemma SplitSums(m: nat, t: real, ca: real, cb: real, gi: V3, eg: V3, ev: real,
                  G: nat -> V3, V: nat -> real, R: nat -> real)
    requires eg == SumV3(m, G) && ev == SumTo(m, V)
    requires t == ca * Dot3(gi, eg) + cb * ev
    requires forall j: nat :: j < m ==> R(j) == ca * DotEach(gi, G)(j) + cb * V(j)
    ensures t == SumTo(m, R)
  {
    Dot3SumRight(m, gi, G);
    SumScale(m, ca, DotEach(gi, G), ScaledDotTerm(ca, gi, G));
    SumScale(m, cb, V, ScaledTerm(cb, V));
    SumAdd(m, ScaledDotTerm(ca, gi, G), ScaledTerm(cb, V), R);
  }

  /** Substituting equals in a linear combination, over plain values. */
  lemma Substitute(x: real, y: real, z: real, x': real, y': real, z': real, ca: real, cb: real)
    requires x == x' && y == y' && z == z'
    requires x' == ca * y' + cb * z'
    ensures x == ca * y + cb * z
  {
  }

  lemma TermsUnfold(cell: Basis, s: Shape, u: Vec, i: nat, q: nat, j: nat)
    ensures Row(DoubleTerm(cell, s, u, i), q)(j) == DoubleTermAt(cell, s, u, i, q, j)
    ensures DotEach(Grad(cell, i, q), GradTerms(cell, u, q))(j) == Dot3(Grad(cell, i, q), GradTermAt(cell, u, q, j))
    ensures ValueTerms(cell, u, q)(j) == ValueTermAt(cell, u, q, j)
  {
  }

  lemma RowEntry(cell: Basis, s: Shape, u: Vec, i: nat, q: nat, j: nat)
    ensures Row(DoubleTerm(cell, s, u, i), q)(j)
         == (JxW(cell, q) * s.gradScale) * DotEach(Grad(cell, i, q), GradTerms(cell, u, q))(j)
          + (JxW(cell, q) * Value(cell, i, q) * s.massScale) * ValueTerms(cell, u, q)(j)
  {
    TermsUnfold(cell, s, u, i, q, j);
    KernelTermAt(cell, s, u, i, q, j);
    Substitute(Row(DoubleTerm(cell, s, u, i), q)(j), DotEach(Grad(cell, i, q), GradTerms(cell, u, q))(j),
      ValueTerms(cell, u, q)(j), DoubleTermAt(cell, s, u, i, q, j), Dot3(Grad(cell, i, q), GradTermAt(cell, u, q, j)),
      ValueTermAt(cell, u, q, j), JxW(cell, q) * s.gradScale, JxW(cell, q) * Value(cell, i, q) * s.massScale);
  }

  lemma PointEntry(cell: Basis, s: Shape, u: Vec, i: nat, q: nat)
    ensures IntegrateTerm(cell, Submissions(cell, s, u), i)(q)
         == (JxW(cell, q) * s.gradScale) * Dot3(Grad(cell, i, q), EvalGradient(cell, u, q))
          + (JxW(cell, q) * Value(cell, i, q) * s.massScale) * EvalValue(cell, u, q)
  {
    assert IntegrateTerm(cell, Submissions(cell, s, u), i)(q) == TestAt(cell, Submissions(cell, s, u)(q), i, q);
    SubmissionAt(cell, s, u, i, q);
  }

  lemma EvalUnfold(cell: Basis, u: Vec, q: nat)
    ensures EvalGradient(cell, u, q) == SumV3(|u|, GradTerms(cell, u, q))
    ensures EvalValue(cell, u, q) == SumTo(|u|, ValueTerms(cell, u, q))
  {
  }

  /** At one quadrature point the kernel's contribution to row i is the row
      sum of the double-indexed terms. */
  lemma PointRow(cell: Basis, s: Shape, u: Vec, i: nat, q: nat)
    ensures IntegrateTerm(cell, Submissions(cell, s, u), i)(q) == RowSums(DoubleTerm(cell, s, u, i), |u|)(q)
  {
    forall j: nat | j < |u|
      ensures Row(DoubleTerm(cell, s, u, i), q)(j)
           == (JxW(cell, q) * s.gradScale) * DotEach(Grad(cell, i, q), GradTerms(cell, u, q))(j)
            + (JxW(cell, q) * Value(cell, i, q) * s.massScale) * ValueTerms(cell, u, q)(j)
    {
      RowEntry(cell, s, u, i, q, j);
    }
    PointEntry(cell, s, u, i, q);
    EvalUnfold(cell, u, q);
    SplitSums(|u|, IntegrateTerm(cell, Submissions(cell, s, u), i)(q), JxW(cell, q) * s.gradScale,
      JxW(cell, q) * Value(cell, i, q) * s.massScale, Grad(cell, i, q),
      EvalGradient(cell, u, q), EvalValue(cell, u, q),
      GradTerms(cell, u, q), ValueTerms(cell, u, q), Row(DoubleTerm(cell, s, u, i), q));
  }

  lemma ColumnSum(cell: Basis, s: Shape, u: Vec, i: nat, j: nat)
    ensures ColumnSums(DoubleTerm(cell, s, u, i), NumPoints(cell))(j) == RowTerm(cell, s, u, i)(j)
  {
    var f := DoubleTerm(cell, s, u, i);
    SumScale(NumPoints(cell), At(u, j), Integrand(cell, s, i, j), Column(f, j));
  }

  /** The matrix-free cell kernel applied to local values u is the local
      stiffness matrix times u: row i is sum over j of K_ij u_j. */
  lemma CellAXIsStiffness(cell: Basis, s: Shape, u: Vec, i: nat)
    requires i < |u|
    ensures CellAX(cell, s, u)[i] == SumTo(|u|, RowTerm(cell, s, u, i))
  {
    var nq := NumPoints(cell);
    var m := |u|;
    var f := DoubleTerm(cell, s, u, i);
    var sub := Submissions(cell, s, u);
    forall q: nat | q < nq
      ensures IntegrateTerm(cell, sub, i)(q) == RowSums(f, m)(q)
    {
      PointRow(cell, s, u, i, q);
    }
    SumExt(nq, IntegrateTerm(cell, sub, i), RowSums(f, m));
    SumSwap(nq, m, f);
    forall j: nat | j < m
      ensures ColumnSums(f, nq)(j) == RowTerm(cell, s, u, i)(j)
    {
      ColumnSum(cell, s, u, i, j);
    }
    SumExt(m, ColumnSums(f, nq), RowTerm(cell, s, u, i));
  }

  /** Applying the cell kernel to the i-th unit vector yields the elemental
      diagonal entry that computeDiagonalA assembles, for both operators.
      Operator.CellLoopUnitDiagonal lifts this to the global operator at
      DoFs that are neither constrained nor masters. */
  lemma CellAXUnitIsDiagonal(cell: Basis, gamma: real, dpc: nat, i: nat)
    requires i < dpc
    ensures CellAX(cell, PoissonShape, Unit(dpc, i))[i] == PoissonDiagonalEntry(cell, i)
    ensures CellAX(cell, KerkerShape(gamma), Unit(dpc, i))[i] == KerkerDiagonalEntry(cell, gamma, i)
  {
    var e := Unit(dpc, i);
    DiagonalEntriesAreStiffnessDiagonals(cell, gamma, i);
    CellAXIsStiffness(cell, PoissonShape, e, i);
    SumPoint(dpc, i, RowTerm(cell, PoissonShape, e, i));
    CellAXIsStiffness(cell, KerkerShape(gamma), e, i);
    SumPoint(dpc, i, RowTerm(cell, KerkerShape(gamma), e, i));
  }

  // ---------------------------------------------------------------------
  // The cell kernels are positive semi-definite

  /** u_i times shape function i tested against the submission at q. */
  function EnergyTermAt(cell: Basis, s: Shape, u: Vec, q: nat, i: nat): real
  {
    At(u, i) * TestAt(cell, Submissions(cell, s, u)(q), i, q)
  }

  function EnergyTerms(cell: Basis, s: Shape, u: Vec): (nat, nat) -> real
  {
    (q: nat, i: nat) => EnergyTermAt(cell, s, u, q, i)
  }

  /** Entry i of u . CellAX(u) is the column i of the energy terms. */
  lemma EnergyColumn(cell: Basis, s: Shape, u: Vec, i: nat)
    requires i < |u|
    ensures DotTerm(CellAX(cell, s, u), u)(i) == ColumnSums(EnergyTerms(cell, s, u), NumPoints(cell))(i)
  {
    var sub := Submissions(cell, s, u);
    var column := Column(EnergyTerms(cell, s, u), i);
    forall q: nat | q < NumPoints(cell)
      ensures column(q) == u[i] * IntegrateTerm(cell, sub, i)(q)
    {
    }
    SumScale(NumPoints(cell), u[i], IntegrateTerm(cell, sub, i), column);
  }

  /** The arithmetic behind EnergyRowAt, over plain values: d stands for
      grad phi_i . g and dt for g . (u_i grad phi_i). */
  lemma SplitEnergyTerm(e: real, ui: real, t: real, wa: real, w: real, b: real, d: real, dt: real,
                        vi: real, ev: real, vt: real)
    requires e == ui * t
    requires t == wa * d + (w * vi * b) * ev
    requires dt == ui * d && vt == ui * vi
    ensures e == wa * dt + (w * ev * b) * vt
  {
    assert ui * (wa * d) == wa * (ui * d);
    assert ui * ((w * vi * b) * ev) == (w * ev * b) * (ui * vi);
  }

  /** g . (u_i grad phi_i) = u_i (grad phi_i . g). */
  lemma GradTermDot(cell: Basis, u: Vec, q: nat, i: nat, g: V3)
    ensures Dot3(g, GradTermAt(cell, u, q, i)) == At(u, i) * Dot3(Grad(cell, i, q), g)
  {
    Dot3ScaleRight(g, At(u, i), Grad(cell, i, q));
    assert Dot3(g, Grad(cell, i, q)) == Dot3(Grad(cell, i, q), g);
  }

  /** u_i times shape function i tested against the submission of an
      operator shape at a gradient g and a value v. */
  lemma EnergyTermGeneric(cell: Basis, x: Submission, u: Vec, q: nat, i: nat, a: real, b: real, g: V3, v: real)
    requires x == Submission(Times3(a, g), v * b)
    ensures At(u, i) * TestAt(cell, x, i, q)
         == (JxW(cell, q) * a) * Dot3(g, GradTermAt(cell, u, q, i)) + (JxW(cell, q) * v * b) * ValueTermAt(cell, u, q, i)
  {
    var t := TestAt(cell, x, i, q);
    SplitSubmission(t, a, b, Grad(cell, i, q), g, Value(cell, i, q), v, JxW(cell, q), x);
    GradTermDot(cell, u, q, i, g);
    SplitEnergyTerm(At(u, i) * t, At(u, i), t, JxW(cell, q) * a, JxW(cell, q), b,
      Dot3(Grad(cell, i, q), g), Dot3(g, GradTermAt(cell, u, q, i)), Value(cell, i, q), v, ValueTermAt(cell, u, q, i));
  }

  lemma EnergyUnfold(cell: Basis, s: Shape, u: Vec, q: nat, i: nat, g: V3)
    ensures Row(EnergyTerms(cell, s, u), q)(i) == EnergyTermAt(cell, s, u, q, i)
    ensures DotEach(g, GradTerms(cell, u, q))(i) == Dot3(g, GradTermAt(cell, u, q, i))
    ensures ValueTerms(cell, u, q)(i) == ValueTermAt(cell, u, q, i)
  {
  }

  /** The same split, for the row of point q as SplitSums consumes it, with
      g and v the gradient and value the kernel evaluates at q. */
  lemma EnergyRowAt(cell: Basis, s: Shape, u: Vec, q: nat, i: nat, g: V3, v: real)
    requires Submissions(cell, s, u)(q) == Submission(Times3(s.gradScale, g), v * s.massScale)
    ensures Row(EnergyTerms(cell, s, u), q)(i)
         == (JxW(cell, q) * s.gradScale) * DotEach(g, GradTerms(cell, u, q))(i)
          + (JxW(cell, q) * v * s.massScale) * ValueTerms(cell, u, q)(i)
  {
    EnergyUnfold(cell, s, u, q, i, g);
    EnergyTermGeneric(cell, Submissions(cell, s, u)(q), u, q, i, s.gradScale, s.massScale, g, v);
    Substitute(Row(EnergyTerms(cell, s, u), q)(i), DotEach(g, GradTerms(cell, u, q))(i),
      ValueTerms(cell, u, q)(i), EnergyTermAt(cell, s, u, q, i),
      Dot3(g, GradTermAt(cell, u, q, i)), ValueTermAt(cell, u, q, i),
      JxW(cell, q) * s.gradScale, JxW(cell, q) * v * s.massScale);
  }

  /** w (a d) + (w v b) v is non-negative when w, a, b and d are. */
  lemma EnergyPointSign(w: real, a: real, b: real, d: real, v: real)
    requires w >= 0.0 && a >= 0.0 && b >= 0.0 && d >= 0.0
    ensures (w * a) * d + (w * v * b) * v >= 0.0
  {
    assert w * a >= 0.0;
    assert (w * a) * d >= 0.0;
    assert w * b >= 0.0;
    assert (w * v * b) * v == (w * b) * (v * v);
  }

  /** The row of quadrature point q sums to
      JxW (a |grad u_h|^2 + b u_h^2), which is non-negative. */
  lemma EnergyRowNonNegative(cell: Basis, s: Shape, u: Vec, q: nat)
    requires s.gradScale >= 0.0 && s.massScale >= 0.0 && JxW(cell, q) >= 0.0
    ensures RowSums(EnergyTerms(cell, s, u), |u|)(q) >= 0.0
  {
    var g := EvalGradient(cell, u, q);
    var v := EvalValue(cell, u, q);
    var w := JxW(cell, q);
    forall i: nat | i < |u|
      ensures Row(EnergyTerms(cell, s, u), q)(i)
           == (w * s.gradScale) * DotEach(g, GradTerms(cell, u, q))(i) + (w * v * s.massScale) * ValueTerms(cell, u, q)(i)
    {
      SubmissionUnfold(cell, s, u, i, q);
      EnergyRowAt(cell, s, u, q, i, g, v);
    }
    SplitSums(|u|, (w * s.gradScale) * Dot3(g, g) + (w * v * s.massScale) * v, w * s.gradScale, w * v * s.massScale,
      g, g, v, GradTerms(cell, u, q), ValueTerms(cell, u, q), Row(EnergyTerms(cell, s, u), q));
    assert Dot3(g, g) >= 0.0;
    EnergyPointSign(w, s.gradScale, s.massScale, Dot3(g, g), v);
  }

  /** An operator shape with non-negative scales on a cell with
      non-negative weights gives a positive semi-definite cell kernel:
      u . CellAX(u) is the sum over q of JxW (a |grad u_h|^2 + b u_h^2). */
  lemma CellAXNonNegative(cell: Basis, s: Shape, u: Vec)
    requires s.gradScale >= 0.0 && s.massScale >= 0.0
    requires forall q: nat :: q < cell.nq ==> cell.jxw(q) >= 0.0
    ensures Dot(CellAX(cell, s, u), u) >= 0.0
  {
    var terms := EnergyTerms(cell, s, u);
    forall i: nat | i < |u|
      ensures DotTerm(CellAX(cell, s, u), u)(i) == ColumnSums(terms, NumPoints(cell))(i)
    {
      EnergyColumn(cell, s, u, i);
    }
    SumExt(|u|, DotTerm(CellAX(cell, s, u), u), ColumnSums(terms, NumPoints(cell)));
    SumSwap(NumPoints(cell), |u|, terms);
    forall q: nat | q < NumPoints(cell)
      ensures RowSums(terms, |u|)(q) >= 0.0
    {
      EnergyRowNonNegative(cell, s, u, q);
    }
    SumNonNegative(NumPoints(cell), RowSums(terms, |u|));
  }
}

=== FILE: vectors.dfy ===
/** Real vectors on one rank that owns every entry, finite sums over index
    ranges, and the three-component vectors used for gradients and mesh
    coordinates. */
module Vectors {

  /** A distributed vector restricted to a single rank. */
  type Vec = seq<real>

  /** f(0) + f(1) + ... + f(n - 1). */
  function SumTo(n: nat, f: nat -> real): real
    decreases n
  {
    if n == 0 then 0.0 else SumTo(n - 1, f) + f(n - 1)
  }

  /** Sums only look at the summed range. */
  lemma {:induction false} SumExt(n: nat, f: nat -> real, g: nat -> real)
    requires forall j: nat :: j < n ==> f(j) == g(j)
    ensures SumTo(n, f) == SumTo(n, g)
  {
    if n > 0 {
      SumExt(n - 1, f, g);
    }
  }

  lemma {:induction false} SumAdd(n: nat, f: nat -> real, g: nat -> real, h: nat -> real)
    requires forall j: nat :: j < n ==> h(j) == f(j) + g(j)
    ensures SumTo(n, h) == SumTo(n, f) + SumTo(n, g)
  {
    if n > 0 {
      SumAdd(n - 1, f, g, h);
    }
  }

  lemma {:induction false} SumScale(n: nat, c: real, f: nat -> real, g: nat -> real)
    requires forall j: nat :: j < n ==> g(j) == c * f(j)
    ensures SumTo(n, g) == c * SumTo(n, f)
  {
    if n > 0 {
      SumScale(n - 1, c, f, g);
    }
  }

  lemma {:induction false} SumZero(n: nat, f: nat -> real)
    requires forall j: nat :: j < n ==> f(j) == 0.0
    ensures SumTo(n, f) == 0.0
  {
    if n > 0 {
      SumZero(n - 1, f);
    }
  }

  /** A sum whose terms vanish except at k picks out the term at k. */
  lemma {:induction false} SumPoint(n: nat, k: nat, f: nat -> real)
    requires k < n
    requires forall j: nat :: j < n && j != k ==> f(j) == 0.0
    ensures SumTo(n, f) == f(k)
  {
    if n - 1 == k {
      SumZero(n - 1, f);
    } else {
      SumPoint(n - 1, k, f);
    }
  }

  /** j -> c * f(j). */
  function ScaledTerm(c: real, f: nat -> real): nat -> real
  {
    (j: nat) => c * f(j)
  }

  /** x at k, 0 elsewhere. */
  function PointTerm(k: nat, x: real): nat -> real
  {
    (i: nat) => if i == k then x else 0.0
  }

  /** j -> f(j + 1). */
  function Shift(f: nat -> real): nat -> real
  {
    (j: nat) => f(j + 1)
  }

  /** Peeling the first term off a sum. */
  lemma {:induction false} SumFront(n: nat, f: nat -> real)
    requires n > 0
    ensures SumTo(n, f) == f(0) + SumTo(n - 1, Shift(f))
  {
    if n > 1 {
      SumFront(n - 1, f);
    }
  }

  /** Sums of non-negative terms are non-negative. */
  lemma {:induction false} SumNonNegative(n: nat, f: nat -> real)
    requires forall j: nat :: j < n ==> f(j) >= 0.0
    ensures SumTo(n, f) >= 0.0
  {
    if n > 0 {
      SumNonNegative(n - 1, f);
    }
  }

  /** Row i of a doubly indexed family of terms. */
  function Row(f: (nat, nat) -> real, i: nat): nat -> real
  {
    (j: nat) => f(i, j)
  }

  /** Column j of a doubly indexed family of terms. */
  function Column(f: (nat, nat) -> real, j: nat): nat -> real
  {
    (i: nat) => f(i, j)
  }

  /** Row sums over the first m columns, as a function of the row. */
  function RowSums(f: (nat, nat) -> real, m: nat): nat -> real
  {
    (i: nat) => SumTo(m, Row(f, i))
  }

  /** Column sums over the first n rows, as a function of the column. */
  function ColumnSums(f: (nat, nat) -> real, n: nat): nat -> real
  {
    (j: nat) => SumTo(n, Column(f, j))
  }

  /** The order of a finite double sum does not matter. */
  lemma {:induction false} SumSwap(n: nat, m: nat, f: (nat, nat) -> real)
    ensures SumTo(n, RowSums(f, m)) == SumTo(m, ColumnSums(f, n))
  {
    if n > 0 {
      SumSwap(n - 1, m, f);
      forall j: nat | j < m
        ensures ColumnSums(f, n)(j) == ColumnSums(f, n - 1)(j) + Row(f, n - 1)(j)
      {
        assert SumTo(n, Column(f, j)) == SumTo(n - 1, Column(f, j)) + Column(f, j)(n - 1);
      }
      SumAdd(m, ColumnSums(f, n - 1), Row(f, n - 1), ColumnSums(f, n));
      calc {
        SumTo(n, RowSums(f, m));
        SumTo(n - 1, RowSums(f, m)) + RowSums(f, m)(n - 1);
        SumTo(m, ColumnSums(f, n - 1)) + SumTo(m, Row(f, n - 1));
        SumTo(m, ColumnSums(f, n));
      }
    } else {
      SumZero(m, ColumnSums(f, 0));
    }
  }

  /** The j-th term of a dot product; zero outside both vectors. */
  function DotTerm(a: Vec, b: Vec): nat -> real
  {
    (j: nat) => if j < |a| && j < |b| then a[j] * b[j] else 0.0
  }

  /** Euclidean inner product of two vectors of the same length. */
  function Dot(a: Vec, b: Vec): real
  {
    SumTo(|a|, DotTerm(a, b))
  }

  lemma DotSymmetric(a: Vec, b: Vec)
    requires |a| == |b|
    ensures Dot(a, b) == Dot(b, a)
  {
    SumExt(|a|, DotTerm(a, b), DotTerm(b, a));
  }

  function Zeros(n: nat): (r: Vec)
    ensures |r| == n
    ensures forall i :: 0 <= i < n ==> r[i] == 0.0
  {
    seq(n, _ => 0.0)
  }

  /** The k-th unit vector of length n. */
  function Unit(n: nat, k: nat): (r: Vec)
    ensures |r| == n
    ensures forall i :: 0 <= i < n ==> r[i] == (if i == k then 1.0 else 0.0)
  {
    seq(n, i => if i == k then 1.0 else 0.0)
  }

  function Add(a: Vec, b: Vec): (r: Vec)
    requires |a| == |b|
    ensures |r| == |a|
    ensures forall i :: 0 <= i < |a| ==> r[i] == a[i] + b[i]
  {
    seq(|a|, i requires 0 <= i < |a| => a[i] + b[i])
  }

  function Scale(c: real, a: Vec): (r: Vec)
    ensures |r| == |a|
    ensures forall i :: 0 <= i < |a| ==> r[i] == c * a[i]
  {
    seq(|a|, i requires 0 <= i < |a| => c * a[i])
  }

  lemma DotAddRight(a: Vec, b: Vec, c: Vec)
    requires |a| == |b| == |c|
    ensures Dot(a, Add(b, c)) == Dot(a, b) + Dot(a, c)
  {
    SumAdd(|a|, DotTerm(a, b), DotTerm(a, c), DotTerm(a, Add(b, c)));
  }

  lemma DotScaleRight(a: Vec, k: real, b: Vec)
    requires |a| == |b|
    ensures Dot(a, Scale(k, b)) == k * Dot(a, b)
  {
    SumScale(|a|, k, DotTerm(a, b), DotTerm(a, Scale(k, b)));
  }

  lemma DotZeroRight(a: Vec, b: Vec)
    requires |a| == |b|
    requires forall i :: 0 <= i < |b| ==> b[i] == 0.0
    ensures Dot(a, b) == 0.0
  {
    SumZero(|a|, DotTerm(a, b));
  }

  /** The product val * x, kept behind a name: with bare products of two
      unknowns in scope the solver's arithmetic turns nonlinear, so proofs
      about inner products treat these as atoms and do the multiplication
      in small lemmas of their own. */
  function Share(val: real, x: real): real
  {
    val * x
  }

  lemma ShareDistributes(a: real, b: real, c: real)
    ensures (a + b) * c == a * c + Share(b, c)
  {
  }

  /** Adding delta to one entry moves the inner product by delta times the
      other vector's entry there. */
  lemma DotAddAt(v: Vec, y: Vec, d: nat, delta: real)
    requires |v| == |y| && d < |v|
    ensures Dot(v[d := v[d] + delta], y) == Dot(v, y) + Share(delta, y[d])
  {
    var share := Share(delta, y[d]);
    forall j: nat | j < |v|
      ensures DotTerm(v[d := v[d] + delta], y)(j) == DotTerm(v, y)(j) + PointTerm(d, share)(j)
    {
      if j == d {
        ShareDistributes(v[d], delta, y[d]);
      }
    }
    SumAdd(|v|, DotTerm(v, y), PointTerm(d, share), DotTerm(v[d := v[d] + delta], y));
    SumPoint(|v|, d, PointTerm(d, share));
  }

  /** Three-component vector: a gradient, a point or a displacement. */
  datatype V3 = V3(x: real, y: real, z: real)

  const Origin: V3 := V3(0.0, 0.0, 0.0)

  function Dot3(a: V3, b: V3): real
  {
    a.x * b.x + a.y * b.y + a.z * b.z
  }

  function Plus3(a: V3, b: V3): V3
  {
    V3(a.x + b.x, a.y + b.y, a.z + b.z)
  }

  function Minus3(a: V3, b: V3): V3
  {
    V3(a.x - b.x, a.y - b.y, a.z - b.z)
  }

  function Times3(c: real, a: V3): V3
  {
    V3(c * a.x, c * a.y, c * a.z)
  }

  /** Component d (0, 1 or 2) of a three-component vector. */
  function Component(a: V3, d: nat): real
    requires d < 3
  {
    if d == 0 then a.x else if d == 1 then a.y else a.z
  }

  /** f(0) + ... + f(n - 1) for vector-valued terms. */
  function SumV3(n: nat, f: nat -> V3): V3
    decreases n
  {
    if n == 0 then Origin else Plus3(SumV3(n - 1, f), f(n - 1))
  }

  lemma Dot3ScaleRight(a: V3, c: real, b: V3)
    ensures Dot3(a, Times3(c, b)) == c * Dot3(a, b)
  {
  }

  /** j -> a . f(j). */
  function DotEach(a: V3, f: nat -> V3): nat -> real
  {
    (j: nat) => Dot3(a, f(j))
  }

  /** The dot product distributes over a vector-valued sum. */
  lemma {:induction false} Dot3SumRight(n: nat, a: V3, f: nat -> V3)
    ensures Dot3(a, SumV3(n, f)) == SumTo(n, DotEach(a, f))
  {
    if n > 0 {
      Dot3SumRight(n - 1, a, f);
    }
  }
}
